=== FILE: README.md ===
# SystemCompanion core, modelled in Dafny

SystemCompanion is a Linux desktop companion. This project models the parts of it
that make decisions and leaves out the parts that only measure or draw:

- **Maintenance task engine** (`MaintenanceTypes`, `Registry`, `Devices`, `Execution`,
  `Cleanup`, `Maintenance`, `Persistence`, `Statistics`, `SizeParse`).
  - A fixed catalog of ten tasks.
  - `run_task` with its three execution paths: one elevated batch script,
    one diagnostic per discovered SATA/NVMe device, or one command at a time
    with the `sudo` → `pkexec` rewrite.
  - The five capability flags, the state file (`last_run` values and flags)
    and the history file (the last 100 results).
  - The automated cleanup, scheduling, statistics and the size parser.
- **Typed configuration** (`AppConfig`): 30 fields with declared defaults, a
  per-field validation table, `get`/`set`/`update`/`reset_to_defaults`, and
  loading that falls back to the defaults.
- **Untyped settings store** (`ConfigManager`): a dictionary of defaults,
  right-biased merges, and import validation.
- **Performance analyzer** (`PerformanceAnalyzer`):
  - the ratio-band severity classifier;
  - the threshold rules that turn one monitor snapshot into an ordered issue list;
  - the recommendation selection;
  - the 24-hour retention of the metric history.
- **System monitor** (`SystemMonitor`): the partition filter, the sort-then-truncate
  process lists, and the clamped health score.
- **Helpers** (`Common`, `JsonValue`, `PyText`, `PySeq`): Python's `str.strip`, `split()[0]`,
  `replace`, `int()`/`float()` on decimal text, negative-index slicing, and the stable
  descending sort the model relies on.

Everything the program observes from outside is a parameter:

- every shell command's outcome is an oracle `string -> Outcome`
  (exit status with stdout/stderr, a timeout, or an exception's text);
- a batch script's outcome is a function of its lines;
- device listings are `seq<string>` of lines, or the exception they raised;
- clock readings and durations are caller-supplied numbers;
- psutil readings are records, with `None` for a reading that raised;
- files are optional parsed documents.

The engine is a pure function over a `Manager` record:
- the tasks in registry order;
- the history;
- the flags;
- what the two files currently hold.

Behaviours of the code that are easy to miss, all modelled as written:

- **A failed device scan is still recorded.** When a health check finds no SATA
  (or NVMe) device, the "no devices" error is raised inside the `try` of that
  branch. It is caught there, so `run_task` still records a `FAILED` result in
  the history.
- **The startup scan always recomputes two flags.** It recomputes
  `has_sata_devices` and `has_nvme_devices` even when the state file was
  unreadable. Then it rewrites the state file.
- **Loaded configuration is not validated.** A config file may hold values
  that `set` would refuse (for example the theme "neon"), and the typed
  configuration loads them as they are.
- **The automated cleanup skips the disk health check by category.** Its
  priority is `MEDIUM`, which the cleanup's priority test accepts; its
  `System Health` category is not one of the three the cleanup accepts
  (`System Cleanup`, `User Cleanup`, `Package Management`).
- **The registry holds ten tasks**, including `check_nvme_health`.

## Model

| member | source | states |
|---|---|---|
| MaintenanceTypes.IndexOf | src/system_companion/core/maintenance_manager.py:409-415 | the task looked up for an id is one stored under that id, and no earlier entry carries it |
| MaintenanceTypes.Ids | src/system_companion/core/maintenance_manager.py:111-303 | the ids of a catalog, one per task, position by position |
| MaintenanceTypes.SameDefinitionsIds | src/system_companion/core/maintenance_manager.py:111-303 | catalogs that differ only in runtime fields hold the same ids in the same order |
| Registry.NewTask | src/system_companion/core/maintenance_manager.py:116-133 | a freshly registered task is pending with no `last_run`, `next_run` or result, and keeps its id and elevation flag |
| Registry.RegistryIdsDistinct | src/system_companion/core/maintenance_manager.py:111-303 | no id is registered twice |
| Registry.UpdatePackagesTask | src/system_companion/core/maintenance_manager.py:116-133 | `update_packages` starts untouched and needs elevation |
| Registry.CleanPackageCacheTask | src/system_companion/core/maintenance_manager.py:135-152 | `clean_package_cache` starts untouched and needs elevation |
| Registry.CleanTempFilesTask | src/system_companion/core/maintenance_manager.py:154-172 | `clean_temp_files` starts untouched and needs elevation |
| Registry.CleanLogsTask | src/system_companion/core/maintenance_manager.py:174-191 | `clean_logs` starts untouched and needs elevation |
| Registry.CleanBrowserCacheTask | src/system_companion/core/maintenance_manager.py:193-212 | `clean_browser_cache` starts untouched and is the one task that does not need elevation |
| Registry.OptimizeSwapTask | src/system_companion/core/maintenance_manager.py:214-230 | `optimize_swap` starts untouched and needs elevation |
| Registry.DefragmentFilesystemTask | src/system_companion/core/maintenance_manager.py:232-248 | `defragment_filesystem` starts untouched and needs elevation |
| Registry.UpdateFirmwareTask | src/system_companion/core/maintenance_manager.py:250-266 | `update_firmware` starts untouched and needs elevation |
| Registry.CheckDiskHealthTask | src/system_companion/core/maintenance_manager.py:268-284 | `check_disk_health` starts untouched and needs elevation |
| Registry.CheckNvmeHealthTask | src/system_companion/core/maintenance_manager.py:286-302 | `check_nvme_health` starts untouched and needs elevation |
| Registry.Tasks | src/system_companion/core/maintenance_manager.py:111-303 | the catalog has ten tasks, each under its own id, all pending with no timestamps or result, and all but the browser-cache cleanup elevated |
| Devices.DevicesWithPrefix | src/system_companion/core/maintenance_manager.py:441-447 | the SATA scan yields device paths that all start with the prefix; it is empty exactly when no line's first field starts with it |
| Devices.DevicesAtListings | src/system_companion/core/maintenance_manager.py:441-447 | one device per line whose first field starts with the prefix, namely that field, in line order, and every such line gives one |
| Devices.ListedDevicesFound | src/system_companion/core/maintenance_manager.py:441-447 | every line whose first field starts with the prefix has that field among the devices |
| Devices.DevicesFrom | src/system_companion/core/maintenance_manager.py:441-447 | scanning from line `i` on yields, one for one and in order, the first fields of the device lines from `i` on |
| Devices.FirstTokenHead | src/system_companion/core/maintenance_manager.py:444-445 | a non-blank line's first field begins with the line's first character |
| Devices.HeaderNotDevice | src/system_companion/core/maintenance_manager.py:486-487 | a `Node…` header or `-…` separator line can never name an NVMe device |
| Devices.NvmeLineAgrees | src/system_companion/core/maintenance_manager.py:485-490 | for one line, stripping and skipping headers gives the same verdict as testing the raw line's first field |
| Devices.SataDevices | src/system_companion/core/maintenance_manager.py:441-447 | every device is a `/dev/sd` path, every line whose first field is one contributes it, and the list is empty only when no line does |
| Devices.NvmeDevicesListed | src/system_companion/core/maintenance_manager.py:482-490 | every device is a `/dev/nvme` path, every line whose first field is one contributes it, and the list is empty only when no line does |
| Devices.NvmeDevicesIgnoreHeaders | src/system_companion/core/maintenance_manager.py:482-490 | the NVMe parser keeps exactly the lines whose first field starts with `/dev/nvme`, so its header skipping never drops a device |
| Execution.CommandBlocks | src/system_companion/core/maintenance_manager.py:614-619 | three script lines per command, the middle one being the command with `sudo ` removed |
| Execution.ScriptLines | src/system_companion/core/maintenance_manager.py:606-621 | the script is a three-line preamble, three lines per command in order, and a closing echo |
| Execution.RunBatch | src/system_companion/core/maintenance_manager.py:599-649 | the batch succeeds iff the script exits 0; the error is absent iff it succeeded and is stderr otherwise; an exception or timeout gives `(False, "", message)` |
| Execution.CleanCommandCanLeaveSudo | src/system_companion/core/maintenance_manager.py:616 | the one-pass removal of `sudo ` can splice a new `sudo ` together (`"susudo do "` becomes `"sudo "`) |
| Execution.Elevate | src/system_companion/core/maintenance_manager.py:520-528 | without elevation the command is unchanged; with it a leading `sudo ` becomes `pkexec `, a leading `pkexec ` is kept, anything else gets `pkexec ` prepended |
| Execution.ElevateIdempotent | src/system_companion/core/maintenance_manager.py:520-528 | rewriting an already rewritten command changes nothing |
| Execution.RunEach | src/system_companion/core/maintenance_manager.py:514-553 | every command is attempted; the task fails iff some command exited non-zero, timed out or raised; the error is the last failure's message |
| Execution.VerdictStep | src/system_companion/core/maintenance_manager.py:531-553 | one more pass of the loop keeps the verdict right: success iff all succeeded, error iff failed, error from the last failure |
| Execution.RunEachOutput | src/system_companion/core/maintenance_manager.py:531-553 | the collected output is each command's `Command:` block, with its `Output:` or `Error:` line, concatenated in command order |
| Execution.TranscriptsSnoc | src/system_companion/core/maintenance_manager.py:531-553 | one more command appends exactly its own block to the output |
| Execution.LastFailureExtends | src/system_companion/core/maintenance_manager.py:539-553 | a success after the last failure leaves that failure the last one |
| Execution.SentCommands | src/system_companion/core/maintenance_manager.py:516-528 | the i-th command sent is the i-th task command rewritten; without elevation the task's commands go out unchanged, with it every one starts with `pkexec ` |
| Execution.SentCommandsIdempotent | src/system_companion/core/maintenance_manager.py:520-528 | rewriting the commands a second time sends the same commands |
| Execution.Outcomes | src/system_companion/core/maintenance_manager.py:531-537 | the i-th outcome is what the runner reports for the i-th sent command, one per command |
| Execution.CheckEach | src/system_companion/core/maintenance_manager.py:455-471 | the device loop fails iff some device's command did not exit 0; a timeout or exception ends the loop and becomes the error; the error is present iff the loop failed |
| Execution.CheckEachLastFailure | src/system_companion/core/maintenance_manager.py:466-468 | when every device command exits, a failed check reports the stderr of the last failing device |
| Cleanup.Selected | src/system_companion/core/maintenance_manager.py:659-667 | the selection holds positions inside the catalog |
| PySeq.Positions | src/system_companion/core/maintenance_manager.py:659-667 | a filter from position `i` yields positions from `i` to the end of the catalog |
| Cleanup.SelectedMembers | src/system_companion/core/maintenance_manager.py:659-667 | the selection is exactly the eligible tasks with the given elevation flag, each once, in catalog order |
| PySeq.PositionsMembers | src/system_companion/core/maintenance_manager.py:659-667 | the filter keeps every accepted position from `i` on, only those, in increasing order |
| PySeq.PositionsSplit | src/system_companion/core/maintenance_manager.py:659-667 | the filter at `i` is its verdict on `i` followed by the filter at `i + 1` |
| PySeq.PositionsSound | src/system_companion/core/maintenance_manager.py:659-667 | every position the filter keeps holds an accepted task |
| PySeq.PositionsComplete | src/system_companion/core/maintenance_manager.py:659-667 | every accepted position from `i` on is kept |
| PySeq.PositionsIncreasing | src/system_companion/core/maintenance_manager.py:659-667 | kept positions are strictly increasing |
| Cleanup.MarkBatch | src/system_companion/core/maintenance_manager.py:691-693 | marking the batch's tasks keeps the catalog's size and ids |
| Cleanup.BatchResults | src/system_companion/core/maintenance_manager.py:680-689 | one batch result per selected task, naming that task |
| Cleanup.RunTaskMeetsStepSpec | src/system_companion/core/maintenance_manager.py:409-597 | `run_task` meets what the cleanup loop relies on: an error changes nothing, a result is appended for the id, and no task is redefined |
| Cleanup.RunAll | src/system_companion/core/maintenance_manager.py:714-726 | the loop appends exactly the results it returns to the history and keeps the catalog's ids |
| Cleanup.RunAllCovers | src/system_companion/core/maintenance_manager.py:714-726 | when every id is known, each gets exactly one result, in order |
| Cleanup.RunAllKnownStep | src/system_companion/core/maintenance_manager.py:715-718 | a known first id yields its result, followed by the results of the rest |
| Cleanup.AllKnownAfterStep | src/system_companion/core/maintenance_manager.py:715-718 | ids known before a step are still known after it |
| Cleanup.AllKnown | src/system_companion/core/maintenance_manager.py:715-718 | catalogs with the same ids know the same ids |
| Cleanup.HasIdByIds | src/system_companion/core/maintenance_manager.py:715-718 | an id known in one catalog is known in any catalog with the same ids |
| Cleanup.RunSudoBatch | src/system_companion/core/maintenance_manager.py:670-712 | the batch step gives one result per elevated selected task, adds nothing to the history and keeps the ids |
| Cleanup.RunAutomatedCleanup | src/system_companion/core/maintenance_manager.py:651-733 | one result per selected task, elevated ones first, each naming its task in catalog order; only the non-elevated results enter the history |
| Cleanup.TaskRunner | src/system_companion/core/maintenance_manager.py:717 | the loop's step, `run_task`, meets the step contract for every state and id |
| Cleanup.CleanupWith | src/system_companion/core/maintenance_manager.py:651-733 | the cleanup outcome holds for any step that meets the step contract |
| Cleanup.Join | src/system_companion/core/maintenance_manager.py:670-729 | the batch's results followed by the loop's meet the cleanup's promise |
| Cleanup.RunEachPlain | src/system_companion/core/maintenance_manager.py:714-726 | each non-elevated selected task gets exactly one result, in catalog order, and the history grows by exactly those results |
| Cleanup.Concat | src/system_companion/core/maintenance_manager.py:689 | appending results keeps the earlier ones at their positions |
| Cleanup.SudoBatchResults | src/system_companion/core/maintenance_manager.py:672-689 | every batch result carries the verdict of the one script built from all selected commands, with zero duration |
| Cleanup.SudoBatchMarks | src/system_companion/core/maintenance_manager.py:691-693 | each batch task takes the batch's status and result text while its `last_run` stays |
| Cleanup.SudoBatchLeavesOthers | src/system_companion/core/maintenance_manager.py:670-712 | tasks outside the batch, the history and the flags are untouched |
| Cleanup.BatchCommandsInOrder | src/system_companion/core/maintenance_manager.py:672-674 | the batch concatenates the selected tasks' commands in order, the last task's commands at the end |
| Cleanup.CatalogCleanup | src/system_companion/core/maintenance_manager.py:659-667 | in the shipped catalog the batch holds the two package tasks and the two system cleanups (twelve commands), the browser-cache cleanup runs alone, and the medium-priority disk health check is left out by category |
| Cleanup.CatalogEligibility | src/system_companion/core/maintenance_manager.py:659-667 | exactly the first five catalog entries are eligible, the first four of them elevated |
| Cleanup.CatalogHead | src/system_companion/core/maintenance_manager.py:116-212 | the first five entries are the package and cleanup tasks, eligible, with their command counts |
| Cleanup.CatalogRest | src/system_companion/core/maintenance_manager.py:214-302 | the last five entries are not eligible |
| Cleanup.EligibleEntries | src/system_companion/core/maintenance_manager.py:116-212 | the five cleanup tasks are eligible, with 3, 2, 4 and 3 commands for the elevated ones |
| Cleanup.IneligibleEntries | src/system_companion/core/maintenance_manager.py:214-302 | the other five are not eligible, the disk health check despite its `MEDIUM` priority |
| Cleanup.SelectedOfCatalog | src/system_companion/core/maintenance_manager.py:659-667 | a catalog with the shipped eligibility pattern selects positions 0-3 for the batch and position 4 alone |
| Cleanup.SelectedTail | src/system_companion/core/maintenance_manager.py:659-663 | nothing past position 4 of such a catalog is selected |
| Maintenance.Begin | src/system_companion/core/maintenance_manager.py:418-421 | the task is marked running with `last_run` set to the start, and the state file is saved before anything runs |
| Maintenance.SataPath | src/system_companion/core/maintenance_manager.py:431-471 | the SATA branch changes only the two SATA flags, keeps the state file in step, and its verdict's error is present iff it failed |
| Maintenance.NvmePath | src/system_companion/core/maintenance_manager.py:472-513 | the NVMe branch changes only `has_nvme_devices`, keeps the state file in step, and its verdict's error is present iff it failed |
| Maintenance.Dispatch | src/system_companion/core/maintenance_manager.py:428-553 | only the two health checks touch the manager, each only its own device flags |
| Maintenance.FirmwareCheck | src/system_companion/core/maintenance_manager.py:555-561 | after `update_firmware` the flag says whether the output reports no supported device; other tasks leave the manager alone |
| Maintenance.SmartctlCheck | src/system_companion/core/maintenance_manager.py:562-568 | after `check_disk_health` the flag says whether the error or output reports `smartctl` missing; other tasks leave the manager alone |
| Maintenance.FinishRecords | src/system_companion/core/maintenance_manager.py:575-590 | the task becomes `COMPLETED` or `FAILED` by the verdict, with the matching result text; one result naming the task, with the run's verdict, duration and finish time, is appended to the history, which is saved; nothing else changes |
| Maintenance.Perform | src/system_companion/core/maintenance_manager.py:415-593 | a run's result names the task that ran |
| Maintenance.PerformRecorded | src/system_companion/core/maintenance_manager.py:415-593 | a run leaves one new result for the task, the task `COMPLETED` iff it succeeded, with the matching result text and `last_run` at the start; no other task is touched; both files are rewritten |
| Maintenance.CompleteRecords | src/system_companion/core/maintenance_manager.py:555-590 | the steps after dispatch record the run as `Recorded` describes |
| Maintenance.RunTask | src/system_companion/core/maintenance_manager.py:409-597 | an unknown id raises the wrapped not-found error and changes nothing; a known one always yields a result for that id |
| Maintenance.RunTaskRecorded | src/system_companion/core/maintenance_manager.py:409-597 | a known task's run is recorded as `Recorded` describes, whatever its commands did |
| Maintenance.RunTaskStep | src/system_companion/core/maintenance_manager.py:409-597 | a call that raises changes nothing; one that returns appends exactly its result; no task is added, removed or redefined |
| Maintenance.RunTaskFlags | src/system_companion/core/maintenance_manager.py:555-568 | the firmware flag is recomputed only by `update_firmware` and `smartctl_not_found` only by `check_disk_health`, each set or cleared from the run's text |
| Maintenance.RunTaskDeviceFlags | src/system_companion/core/maintenance_manager.py:447-495 | the SATA flags change only under `check_disk_health`, the NVMe flag only under `check_nvme_health` |
| Maintenance.RunTaskUnfolds | src/system_companion/core/maintenance_manager.py:418-593 | a run is begin, dispatch, the two flag checks and finish, and the result carries the dispatch's output and error |
| Maintenance.SataCheckOutcome | src/system_companion/core/maintenance_manager.py:431-471 | a listing that raises fails the run and leaves the flags; otherwise `has_sata_devices` says whether a disk was listed and `no_smart_devices_found` the opposite; no disk fails the run with the fixed message; success iff a disk was listed and every `smartctl -a` exited 0 |
| Maintenance.DeviceChecksSucceed | src/system_companion/core/maintenance_manager.py:455-468 | a device pass succeeds iff every device's command exited 0 |
| Maintenance.NvmeCheckOutcome | src/system_companion/core/maintenance_manager.py:472-513 | as the SATA check for `has_nvme_devices`, and `no_smart_devices_found` is never touched |
| Maintenance.BatchOutcome | src/system_companion/core/maintenance_manager.py:429-430 | a batch-route task succeeds iff its generated script exits 0, and the per-command runner is never consulted |
| Maintenance.PerCommandOutcome | src/system_companion/core/maintenance_manager.py:514-553 | a per-command task succeeds iff every rewritten command exited 0, and the batch runner is never consulted |
| Maintenance.RegistryRoutes | src/system_companion/core/maintenance_manager.py:429 | in the shipped catalog only the browser-cache cleanup takes the per-command route, so the `pkexec` rewrite is never applied |
| Maintenance.CatalogCommandCounts | src/system_companion/core/maintenance_manager.py:111-303 | every shipped task but the NVMe check has more than one command |
| Maintenance.RoutesOf | src/system_companion/core/maintenance_manager.py:429 | in any catalog where every task but the NVMe check has several commands, only non-elevated tasks take the per-command route |
| Maintenance.ScanFound | src/system_companion/core/maintenance_manager.py:944-986 | a startup listing finds a device iff it did not raise and names one of its class |
| Maintenance.ScanStorageDevices | src/system_companion/core/maintenance_manager.py:944-987 | each device flag says whether its listing named a device, a raising listing clears only its own flag, and the state file is rewritten |
| Maintenance.Initial | src/system_companion/core/maintenance_manager.py:78-109 | construction gives the catalog with loaded `last_run` values, the loaded history, loaded flags with the two device flags rescanned, and a state file in step with them |
| Maintenance.LoadedCatalog | src/system_companion/core/maintenance_manager.py:305-323 | loading a state file changes only `last_run` and no definition or id |
| Maintenance.RestartRestores | src/system_companion/core/maintenance_manager.py:305-382 | a manager restarted from the files another wrote gets back every `last_run`, the last 100 results and the three flags the scan does not recompute |
| Maintenance.RestartRestoresFrom | src/system_companion/core/maintenance_manager.py:305-343 | loading a saved state file into the catalog restores every `last_run` and all five flags |
| Maintenance.Schedule | src/system_companion/core/maintenance_manager.py:893-907 | an unknown id raises the wrapped not-found error; otherwise only that task changes, to pending with `next_run` set |
| Maintenance.Cancel | src/system_companion/core/maintenance_manager.py:909-922 | an unknown id raises the wrapped not-found error; otherwise only that task's `next_run` is cleared |
| Maintenance.CancelAfterSchedule | src/system_companion/core/maintenance_manager.py:893-922 | cancelling right after scheduling leaves the task pending with no `next_run`; cancelling twice is cancelling once |
| Maintenance.IndexOfUnique | src/system_companion/core/maintenance_manager.py:415 | the first position holding an id is the one the lookup finds |
| Maintenance.GetTaskHistory | src/system_companion/core/maintenance_manager.py:841-843 | the result is a suffix of the history: the last `limit` results, or all of them when `limit` is 0 |
| Maintenance.ClearHistory | src/system_companion/core/maintenance_manager.py:384-391 | the history and its file are gone and nothing else changes |
| Maintenance.RecentHistorySurvivesRestart | src/system_companion/core/maintenance_manager.py:365-382 | asking a restarted manager for up to 100 recent results gives what the old one would have given |
| Maintenance.ClearedHistoryStaysEmpty | src/system_companion/core/maintenance_manager.py:384-391 | after clearing, the history is empty now and after a restart |
| Persistence.LastRunDoc | src/system_companion/core/maintenance_manager.py:328-332 | the saved `last_run` object has a key for every task and no other key |
| Persistence.LastRunDocAt | src/system_companion/core/maintenance_manager.py:328-332 | with distinct ids, each task's key holds its own `last_run` (or null) |
| Persistence.LastRunDocValues | src/system_companion/core/maintenance_manager.py:328-332 | every task's entry in the saved object is its own `last_run` |
| Persistence.FlagsDocRoundTrip | src/system_companion/core/maintenance_manager.py:317-321 | reading back the five saved flags gives the same flags |
| Persistence.SaveStateContents | src/system_companion/core/maintenance_manager.py:325-343 | the state file's `last_run` object names every task and no other id, holding each task's own stamp when ids are distinct, and loading it gives back all five flags |
| Persistence.SaveStateIgnoresRuntimeFields | src/system_companion/core/maintenance_manager.py:325-343 | the state file depends only on ids, `last_run` values and flags |
| Persistence.LastRunDocAgree | src/system_companion/core/maintenance_manager.py:328-332 | catalogs that agree on ids and `last_run` save the same object |
| Persistence.LoadLastRuns | src/system_companion/core/maintenance_manager.py:311-316 | only `last_run` changes; a task the file does not mention, or whose stamp is null or empty text, is unchanged; a stamp that parses sets `last_run` to it; any other non-empty text clears it |
| Persistence.LoadState | src/system_companion/core/maintenance_manager.py:305-323 | a missing or unreadable file changes nothing; otherwise the flags are the file's, absent ones False; only `last_run` fields change |
| Persistence.StateRoundTrip | src/system_companion/core/maintenance_manager.py:305-343 | loading a saved state file reproduces every `last_run` and all five flags |
| Persistence.DecodeAll | src/system_companion/core/maintenance_manager.py:351-360 | decoding succeeds iff every entry is well formed, and then yields one result per entry |
| Persistence.LoadHistory | src/system_companion/core/maintenance_manager.py:345-363 | any malformed entry leaves the history empty |
| Persistence.SaveHistory | src/system_companion/core/maintenance_manager.py:365-382 | the history file holds at most the last 100 results |
| Persistence.HistoryRoundTrip | src/system_companion/core/maintenance_manager.py:345-382 | loading a saved history gives back exactly its last 100 results |
| Statistics.CountStatus | src/system_companion/core/maintenance_manager.py:849-851 | a status count is 0 iff no task has it, and the total iff all do |
| Statistics.StatusCountsPartition | src/system_companion/core/maintenance_manager.py:848-851 | the counts of the five statuses add up to the number of tasks |
| Statistics.CountSuccesses | src/system_companion/core/maintenance_manager.py:857-860 | the success count is 0 iff no result succeeded, and the total iff all did |
| Statistics.Percent | src/system_companion/core/maintenance_manager.py:854-860 | a rate lies in [0, 100], is 0 iff nothing counted, and 100 iff everything did |
| Statistics.LastMaintenance | src/system_companion/core/maintenance_manager.py:876-891 | absent iff no result succeeded; otherwise the latest timestamp among successful results |
| Statistics.GetTaskStatistics | src/system_companion/core/maintenance_manager.py:845-874 | the counts are the status counts; both rates lie in [0, 100]; the success rate is 100 iff every task completed; the recent rate is 0 iff none of the last ten succeeded |
| Statistics.FreshStatistics | src/system_companion/core/maintenance_manager.py:78-109 | a manager started without a history file reports ten pending tasks, zero rates and no last maintenance |
| Statistics.FreshIdle | src/system_companion/core/maintenance_manager.py:78-109 | a manager constructed without a history file has the whole catalog pending and an empty history |
| Statistics.IdleStatistics | src/system_companion/core/maintenance_manager.py:845-891 | with all tasks pending and no history the rates are zero and there is no last maintenance |
| Statistics.LastMaintenanceAfterRun | src/system_companion/core/maintenance_manager.py:579-589 | after a successful run the last maintenance is the later of the old one and the run's timestamp; a failed run leaves it |
| Statistics.LastMaintenanceAppend | src/system_companion/core/maintenance_manager.py:883-887 | appending a result moves the last maintenance only when the result succeeded |
| SizeParse.UnitOf | src/system_companion/core/maintenance_manager.py:830-835 | only `G`, `M` and `K` are units, worth 1024³, 1024² and 1024 |
| SizeParse.Scaled | src/system_companion/core/maintenance_manager.py:831-835 | a scaled mantissa is truncated toward zero; an unparseable one gives 0 |
| SizeParse.ParseSize | src/system_companion/core/maintenance_manager.py:825-839 | a stripped text ending in a unit is the scaled mantissa; anything else is read as an integer, or 0 |
| SizeParse.UnderscoreIgnored | src/system_companion/core/maintenance_manager.py:836-837 | an underscore between two digit runs is ignored: `1_024` is 1024 bytes, as `int()` reads it |
| SizeParse.GroupedSize | src/system_companion/core/maintenance_manager.py:836-837 | a digit run with underscores between digits is read as its value by `int()` and by the size parser |
| SizeParse.StripUnchanged | src/system_companion/core/maintenance_manager.py:828 | stripping text with no outer whitespace changes nothing |
| SizeParse.PaddedSize | src/system_companion/core/maintenance_manager.py:825-839 | whitespace around a size text, Unicode spaces such as U+00A0 and U+3000 included, does not change the size it parses to |
| SizeParse.ParsesDigits | src/system_companion/core/maintenance_manager.py:831-837 | a decimal numeral reads back as its value, both as an integer and as a float |
| SizeParse.PlainSizeRoundTrip | src/system_companion/core/maintenance_manager.py:836-837 | a bare numeral parses to itself |
| SizeParse.UnitSizeRoundTrip | src/system_companion/core/maintenance_manager.py:830-835 | a numeral with a unit parses to the number times the unit |
| SizeParse.SuffixSplits | src/system_companion/core/maintenance_manager.py:830-835 | text ending in a unit is its mantissa scaled by that unit |
| SizeParse.ScaledWhole | src/system_companion/core/maintenance_manager.py:831-835 | a whole mantissa scales exactly |
| SizeParse.UnknownUnitIsZero | src/system_companion/core/maintenance_manager.py:836-839 | text ending in any other non-digit (a `T` suffix, lower-case units) gives 0 |
| SizeParse.NoDigitsIsZero | src/system_companion/core/maintenance_manager.py:825-839 | text without digits gives 0 |
| SizeParse.StripIsSlice | src/system_companion/core/maintenance_manager.py:828 | stripping keeps a contiguous slice of the text |
| SizeParse.NoDigitsNoInt | src/system_companion/core/maintenance_manager.py:837-839 | `int()` rejects text without digits |
| SizeParse.NoDigitsNoFloat | src/system_companion/core/maintenance_manager.py:831-839 | `float()` rejects text without digits |
| SizeParse.NoDigitsNoDecimal | src/system_companion/core/maintenance_manager.py:831-839 | an unsigned decimal needs a digit |
| PyText.SkipSpace | src/system_companion/core/maintenance_manager.py:828 | leading whitespace, as `str.isspace` defines it (Unicode spaces included), is dropped and the rest kept |
| PyText.DropTrailing | src/system_companion/core/maintenance_manager.py:828 | trailing whitespace, as `str.isspace` defines it, is dropped and the rest kept |
| PyText.Strip | src/system_companion/core/maintenance_manager.py:828 | a stripped text neither starts nor ends with whitespace, as `str.isspace` defines it |
| PyText.StripKeepsMiddle | src/system_companion/core/maintenance_manager.py:828 | the text is a blank run, the stripped text, and a blank run: only whitespace at the two ends is removed |
| PyText.StripOf | src/system_companion/core/maintenance_manager.py:828 | a piece with no whitespace at either end, framed by whitespace, is exactly what stripping returns |
| PyText.StripPadded | src/system_companion/core/maintenance_manager.py:828 | adding whitespace at either end of a text does not change its strip |
| PyText.SkipBlank | src/system_companion/core/maintenance_manager.py:828 | a leading run of whitespace is removed entirely by `lstrip` |
| PyText.DropBlank | src/system_companion/core/maintenance_manager.py:828 | a trailing run of whitespace is removed entirely by `rstrip` |
| PyText.TakeWord | src/system_companion/core/maintenance_manager.py:444 | the first field runs up to the first whitespace character, as `str.isspace` defines it |
| PyText.FirstToken | src/system_companion/core/maintenance_manager.py:444-445 | there is a first field iff the line is not all whitespace, and it holds no whitespace |
| PyText.TakeWordOfPrefix | src/system_companion/core/maintenance_manager.py:444 | a line's first field is that of any prefix ending at whitespace |
| PyText.FirstTokenOfStrip | src/system_companion/core/maintenance_manager.py:485-488 | stripping a line does not change its first field |
| PyText.Ungroup | src/system_companion/core/maintenance_manager.py:837 | removing underscores leaves a digit run from digits and underscores, and leaves a digit run unchanged |
| PyText.UngroupAppend | src/system_companion/core/maintenance_manager.py:837 | removing underscores distributes over concatenation |
| PyText.RemoveAll | src/system_companion/core/maintenance_manager.py:616 | removal never lengthens the text and leaves text without the pattern unchanged |
| PyText.DigitChar | src/system_companion/core/maintenance_manager.py:617 | a digit's character reads back as that digit |
| PyText.NatToString | src/system_companion/core/maintenance_manager.py:617 | a number's decimal text is a non-empty run of digits |
| PyText.DigitsValueOfNatToString | src/system_companion/core/maintenance_manager.py:617 | a number's decimal text reads back as the number |
| PyText.Pow10 | src/system_companion/core/maintenance_manager.py:831 | powers of ten are positive |
| PyText.IndexOfPoint | src/system_companion/core/maintenance_manager.py:831 | the decimal point found is a `.` of the text |
| PyText.ParseInt | src/system_companion/core/maintenance_manager.py:837 | `int()` accepts exactly an optional sign and an underscore-grouped digit run, after stripping; the value is at most 0 with a `-` sign and at least 0 otherwise |
| PyText.ParseFloat | src/system_companion/core/maintenance_manager.py:831-835 | text `int()` accepts is read by `float()` as the same number; accepted text is not blank |
| PyText.TruncateToInt | src/system_companion/core/maintenance_manager.py:831-835 | `int()` of a float truncates toward zero |
| PySeq.Head | src/system_companion/core/system_monitor.py:426 | `[:limit]` is a prefix of `min(limit, n)` items, or drops `-limit` items from the end |
| PySeq.Tail | src/system_companion/core/maintenance_manager.py:843 | `[-limit:]` is a suffix of `min(limit, n)` items, the whole list when `limit` is 0 |
| PySeq.TailOfTail | src/system_companion/core/maintenance_manager.py:369 | the last `limit` of the last `cap` items are the last `limit` items when `limit <= cap` |
| PySeq.InsertDesc | src/system_companion/core/system_monitor.py:425 | inserting into a non-increasing list keeps it non-increasing and adds one item |
| PySeq.InsertDescPermutes | src/system_companion/core/system_monitor.py:425 | inserting adds exactly the new item |
| PySeq.SortDesc | src/system_companion/core/system_monitor.py:425 | the descending sort is non-increasing and keeps the length |
| PySeq.SortDescPermutes | src/system_companion/core/system_monitor.py:425 | the descending sort is a permutation |
| PySeq.WithKey | src/system_companion/core/system_monitor.py:425 | the items with one key value are a sub-list |
| PySeq.WithKeyAppend | src/system_companion/core/system_monitor.py:425 | the items with a key value, of a list with one more item |
| PySeq.WithKeyNone | src/system_companion/core/system_monitor.py:425 | when every item's key is below `c`, no item has key `c` |
| PySeq.InsertDescStable | src/system_companion/core/system_monitor.py:425 | insertion keeps items with equal keys in their order, the new one last |
| PySeq.SortDescStable | src/system_companion/core/system_monitor.py:425 | the sort is stable: items with equal keys keep their original order |
| JsonValue.AsInt | src/system_companion/utils/config.py:166-179 | `isinstance(v, int)` holds for integers and booleans |
| JsonValue.AsNumber | src/system_companion/utils/config.py:181-188 | `isinstance(v, (int, float))` holds for integers, booleans and floats, with the integer's value |
| JsonValue.Merge | src/system_companion/utils/config_manager.py:99-101 | `dict.update`: the keys of both, the update's values winning, the base's kept elsewhere |
| AppConfig.Get | src/system_companion/utils/config.py:121-132 | a field's current value, and the caller's default for a name that is not a field |
| AppConfig.Validate | src/system_companion/utils/config.py:155-188 | each checked field accepts exactly its table's values (integers at least 100, 800, 600, 100; the three themes; numbers in [0, 100]); other fields accept anything |
| AppConfig.Set | src/system_companion/utils/config.py:134-153 | an unknown key or invalid value raises and changes nothing; an accepted value is what `get` then returns, with every other field kept; a failing save raises with the value already in effect |
| AppConfig.Update | src/system_companion/utils/config.py:205-218 | without an error every entry is applied in order; with an error the update stopped at some entry, with the entries before it applied, and that one too when only its save failed |
| AppConfig.UpdateFirstRejected | src/system_companion/utils/config.py:205-218 | with saves that succeed, the first entry `set` rejects stops the update: it raises that entry's error (unknown key or the field's validation message) with exactly the entries before it applied |
| AppConfig.StoppedLater | src/system_companion/utils/config.py:215-216 | a stop after the first entry is a stop of the whole update |
| AppConfig.Reset | src/system_companion/utils/config.py:190-194 | every field is back at its declared default, which is valid; only a failing save raises |
| AppConfig.DefaultsValid | src/system_companion/utils/config.py:17-65 | every declared default passes validation |
| AppConfig.CheckedDefaultValid | src/system_companion/utils/config.py:17-65 | each checked field's default passes its own check |
| AppConfig.DefaultLookups | src/system_companion/utils/config.py:121-132 | `get` on the defaults returns the declared width 1200, theme `auto` and refresh interval 1000 |
| AppConfig.Load | src/system_companion/utils/config.py:89-104 | a file holding an object with known fields overrides those defaults unchecked; a missing or unreadable file, a non-object or an unknown field gives the defaults |
| AppConfig.Startup | src/system_companion/utils/config.py:89-118 | the settings in effect are what the file loads, the defaults when it is missing; only a missing file is written, and then with the defaults, unless that write fails and is only logged |
| AppConfig.FirstRunStable | src/system_companion/utils/config.py:89-118 | after a first run has written the defaults, a later start reads them back and writes nothing |
| AppConfig.SaveLoadRoundTrip | src/system_companion/utils/config.py:89-119 | loading what was saved gives back the same settings |
| AppConfig.SetSurvivesRestart | src/system_companion/utils/config.py:134-153 | an accepted `set` is still in effect after a restart |
| AppConfig.LoadSkipsValidation | src/system_companion/utils/config.py:89-104 | a file may load a value that `set` would refuse |
| AppConfig.LoadsUnknownTheme | src/system_companion/utils/config.py:89-104 | a file with the theme "neon" loads into an invalid configuration |
| AppConfig.UpdateNotAtomic | src/system_companion/utils/config.py:205-218 | an update whose second entry is invalid raises with the first entry applied |
| AppConfig.UnknownThemeStops | src/system_companion/utils/config.py:175-176 | an update to an unknown theme raises the theme message and changes nothing |
| AppConfig.UpdateStep | src/system_companion/utils/config.py:215-216 | an update is its first `set`, then the rest unless that raised |
| AppConfig.UpdateAllAccepted | src/system_companion/utils/config.py:205-218 | when every entry names a field and passes validation, the update applies all of them without error |
| ConfigManager.Create | src/system_companion/utils/config_manager.py:18-68 | the config is the eight defaults overridden by the file's keys, extra keys kept; without an object file it is the defaults |
| ConfigManager.GetSetting | src/system_companion/utils/config_manager.py:90-92 | the stored value for a present key, and the caller's default for an absent one |
| ConfigManager.Export | src/system_companion/utils/config_manager.py:70-84 | a store created from the saved or exported file reads back every stored setting, and is the same store when every default key is present |
| ConfigManager.SetSetting | src/system_companion/utils/config_manager.py:90-97 | `get_setting` then returns the value for that key and what it returned before for every other key |
| ConfigManager.UpdateConfig | src/system_companion/utils/config_manager.py:90-102 | updated keys read back their new values; every other key reads back as before |
| ConfigManager.ResetToDefaults | src/system_companion/utils/config_manager.py:104-107 | the config equals `default_config` again |
| ConfigManager.Import | src/system_companion/utils/config_manager.py:133-148 | an object file merges like `update_config`; anything else raises and changes nothing, a non-object with "Invalid configuration format" |
| ConfigManager.ExportImportRoundTrip | src/system_companion/utils/config_manager.py:121-148 | importing an export reproduces the exported config, given every key of the importer is in it |
| ConfigManager.DefaultsNeverChange | src/system_companion/utils/config_manager.py:44 | `default_config` survives any sequence of operations, so a reset always brings back the eight defaults |
| ConfigManager.DefaultsKept | src/system_companion/utils/config_manager.py:94-148 | no operation changes `default_config` |
| SystemMonitor.DiskInfos | src/system_companion/core/system_monitor.py:282-327 | every listed disk describes a partition that is not filtered out and whose usage could be read, and every such partition is listed |
| SystemMonitor.DiskInfosAtListed | src/system_companion/core/system_monitor.py:282-327 | the k-th listed disk describes the k-th kept partition, kept partitions in increasing position, none missing |
| SystemMonitor.DiskInfosFrom | src/system_companion/core/system_monitor.py:289-325 | the loop from partition `i` on describes, one for one and in order, the kept partitions from `i` on |
| SystemMonitor.DiskInfosExcludePseudo | src/system_companion/core/system_monitor.py:290-294 | no listed disk is a loop device, `/dev/shm` or under `/run/` |
| SystemMonitor.TopProcesses | src/system_companion/core/system_monitor.py:381-430 | the top list is sorted by CPU share, non-increasing, has `min(limit, n)` entries, and holds only readable processes |
| SystemMonitor.PrefixSubMultiset | src/system_companion/core/system_monitor.py:426 | truncating keeps a sub-multiset |
| SystemMonitor.TopProcessesDominate | src/system_companion/core/system_monitor.py:425-426 | every process left out uses no more CPU than any process kept |
| SystemMonitor.OwnedBy | src/system_companion/core/system_monitor.py:443-444 | the filter keeps only the current user's processes |
| SystemMonitor.OwnedBySubset | src/system_companion/core/system_monitor.py:443-444 | the filter only drops processes: what it keeps is drawn from the full list |
| SystemMonitor.OwnedByKeepsAll | src/system_companion/core/system_monitor.py:443-444 | every process of the current user is kept |
| SystemMonitor.UserProcesses | src/system_companion/core/system_monitor.py:432-486 | drawn from the user's processes only, sorted by resident memory, non-increasing, `min(limit, n)` of them |
| SystemMonitor.UserProcessesDominate | src/system_companion/core/system_monitor.py:481-482 | a user process cut off by the limit uses no more memory than any process returned |
| SystemMonitor.UsageDeduction | src/system_companion/core/system_monitor.py:495-509 | the CPU and memory deduction is at most 30 and zero iff usage is at most 70 |
| SystemMonitor.DiskDeduction | src/system_companion/core/system_monitor.py:512-519 | a disk's deduction is at most 20 and zero iff usage is at most 80 |
| SystemMonitor.DiskDeductions | src/system_companion/core/system_monitor.py:512-519 | the disks deduct at most 20 each and nothing iff none is over 80 |
| SystemMonitor.HealthScore | src/system_companion/core/system_monitor.py:488-529 | the score lies in [0, 100]; a failed reading gives 50; it is 100 iff CPU and memory are at most 70 and every disk at most 80 |
| SystemMonitor.HealthScoreAntitone | src/system_companion/core/system_monitor.py:495-509 | more CPU or memory use never raises the score |
| SystemMonitor.UsageDeductionMonotone | src/system_companion/core/system_monitor.py:495-509 | the usage deduction grows with usage |
| SystemMonitor.HealthScoreMoreDisks | src/system_companion/core/system_monitor.py:512-519 | another disk never raises the score |
| SystemMonitor.DiskDeductionsAppend | src/system_companion/core/system_monitor.py:512-519 | the disks' deductions add up disk by disk |
| PerformanceAnalyzer.Classify | src/system_companion/core/performance_analyzer.py:820-831 | for a positive threshold: `CRITICAL` at twice the threshold or more, `HIGH` from 1.5 times, `MEDIUM` from 1.2 times, `LOW` below; a zero threshold raises |
| PerformanceAnalyzer.RatioAtLeast | src/system_companion/core/performance_analyzer.py:822-828 | comparing the ratio with a band is comparing the value with the band times the threshold |
| PerformanceAnalyzer.RatioBands | src/system_companion/core/performance_analyzer.py:822-828 | the three ratio bands as comparisons of the value |
| PerformanceAnalyzer.ClassifyMonotone | src/system_companion/core/performance_analyzer.py:820-831 | a larger value never gets a lower severity |
| PerformanceAnalyzer.Kinds | src/system_companion/core/performance_analyzer.py:118-150 | every listed issue's kind is among the reported kinds |
| PerformanceAnalyzer.KindsAppend | src/system_companion/core/performance_analyzer.py:118-150 | the kinds of joined lists are the kinds of both |
| PerformanceAnalyzer.KindsOfStage | src/system_companion/core/performance_analyzer.py:118-150 | a stage reports only its own kinds |
| PerformanceAnalyzer.KindsFromStage | src/system_companion/core/performance_analyzer.py:130-145 | later stages report only kinds of later stages |
| PerformanceAnalyzer.Check | src/system_companion/core/performance_analyzer.py:164-181 | a rated rule reports one issue iff the value exceeds a non-zero limit, rated by the classifier |
| PerformanceAnalyzer.TemperatureIssues | src/system_companion/core/performance_analyzer.py:180-195 | a temperature issue iff a temperature is known and over 80 |
| PerformanceAnalyzer.LoadIssues | src/system_companion/core/performance_analyzer.py:197-215 | a load issue iff the core count is known and non-zero and the one-minute load exceeds twice it |
| PerformanceAnalyzer.CpuIssues | src/system_companion/core/performance_analyzer.py:156-220 | the CPU stage reports usage over 90, temperature over 80 and load over twice the cores, each iff it holds, each rated |
| PerformanceAnalyzer.MemoryIssues | src/system_companion/core/performance_analyzer.py:222-266 | the memory stage reports usage over 85 and swap over 50, each iff it holds, each rated |
| PerformanceAnalyzer.DiskIssuesOf | src/system_companion/core/performance_analyzer.py:275-307 | per disk: high usage iff over 90 (rated), slow I/O iff reads and writes exceed 100 MiB/s (medium) |
| PerformanceAnalyzer.NetworkIssuesOf | src/system_companion/core/performance_analyzer.py:321-334 | an interface is reported (low) iff its speed is known and over 100 |
| PerformanceAnalyzer.ProcessIssuesOf | src/system_companion/core/performance_analyzer.py:348-377 | a high issue iff the process's CPU is over 90, a medium one iff its memory share is over 10; both can fire |
| PerformanceAnalyzer.Concat | src/system_companion/core/performance_analyzer.py:275-377 | every issue of a per-item stage comes from some item |
| PerformanceAnalyzer.ConcatKeeps | src/system_companion/core/performance_analyzer.py:275-377 | every issue of every item is in the stage's list |
| PerformanceAnalyzer.ConcatBound | src/system_companion/core/performance_analyzer.py:341-377 | items with at most `n` issues each give at most `n` per item |
| PerformanceAnalyzer.DiskIssues | src/system_companion/core/performance_analyzer.py:268-312 | the disk stage lists every issue any disk raises and nothing else, all well formed, and none when the reading failed |
| PerformanceAnalyzer.NetworkIssues | src/system_companion/core/performance_analyzer.py:314-339 | the network stage lists every issue any interface raises and nothing else, all well formed, and none when the reading failed |
| PerformanceAnalyzer.ProcessIssues | src/system_companion/core/performance_analyzer.py:341-382 | the process stage lists the issues of the ten busiest processes and nothing else, so at most twenty, and none when the reading failed |
| PerformanceAnalyzer.LaterIssues | src/system_companion/core/performance_analyzer.py:131-141 | exactly the disk, network and process issues, in stage order |
| PerformanceAnalyzer.Issues | src/system_companion/core/performance_analyzer.py:118-154 | exactly the issues of the stages; every one over its limit and rated as its rule says; stages in the order CPU, memory, disk, network, process |
| PerformanceAnalyzer.StagesAppend | src/system_companion/core/performance_analyzer.py:121-145 | appending a later stage keeps the stage order |
| PerformanceAnalyzer.StagesAfter | src/system_companion/core/performance_analyzer.py:121-145 | the first two stages followed by the later ones are in stage order |
| PerformanceAnalyzer.IssuesReportCpuAndMemory | src/system_companion/core/performance_analyzer.py:123-129 | the analysis reports a CPU or memory kind iff its stage does |
| PerformanceAnalyzer.FullDiskReported | src/system_companion/core/performance_analyzer.py:277-291 | every disk over 90 is reported with its rated severity |
| PerformanceAnalyzer.SlowDiskReported | src/system_companion/core/performance_analyzer.py:293-307 | every disk moving over 100 MiB per second is reported as a medium slow-I/O issue |
| PerformanceAnalyzer.SlowIssueOf | src/system_companion/core/performance_analyzer.py:293-307 | the slow-I/O check of one disk fires when reads and writes exceed 100 MiB per second |
| PerformanceAnalyzer.DiskIssueListed | src/system_companion/core/performance_analyzer.py:275-307 | an issue of any one disk is in the disk stage's list |
| PerformanceAnalyzer.LaterIssueListed | src/system_companion/core/performance_analyzer.py:131-141 | an issue of the disk, network or process stage is in the analysis result |
| PerformanceAnalyzer.FastNetworkReported | src/system_companion/core/performance_analyzer.py:321-334 | every interface with a known speed over 100 is reported as a low network issue |
| PerformanceAnalyzer.BusyProcessReported | src/system_companion/core/performance_analyzer.py:346-377 | each of the ten busiest processes is reported high when over 90 percent CPU and medium when over 10 percent of memory |
| PerformanceAnalyzer.ProcessIssuesFromTop | src/system_companion/core/performance_analyzer.py:341-382 | every process issue in the result comes from one of the ten busiest processes, and there is none without a process reading |
| PerformanceAnalyzer.FirstOver | src/system_companion/core/performance_analyzer.py:440-456 | the first disk over the limit, or none iff no disk is over it |
| PerformanceAnalyzer.DiskToClean | src/system_companion/core/performance_analyzer.py:440-456 | the disk advice names the first disk over 85, and exists iff some disk is |
| PerformanceAnalyzer.Recommendations | src/system_companion/core/performance_analyzer.py:397-492 | a failed reading gives no advice; otherwise each kind at most once, in the order CPU, memory, disk, packages, monitoring |
| PerformanceAnalyzer.RecommendationsAlwaysUpdate | src/system_companion/core/performance_analyzer.py:459-471 | the package-update advice is always given |
| PerformanceAnalyzer.RecommendationsCpu | src/system_companion/core/performance_analyzer.py:408 | CPU advice iff CPU usage is over 70 |
| PerformanceAnalyzer.RecommendationsMemory | src/system_companion/core/performance_analyzer.py:424 | memory advice iff memory usage is over 80 |
| PerformanceAnalyzer.RecommendationsMonitoring | src/system_companion/core/performance_analyzer.py:474-487 | monitoring advice iff `systemd-analyze` is unusable |
| PerformanceAnalyzer.RecommendationsCleanFirstFullDisk | src/system_companion/core/performance_analyzer.py:440-456 | disk advice for a mount point iff it is the first disk over 85 |
| PerformanceAnalyzer.Retain | src/system_companion/core/performance_analyzer.py:858-862 | the kept entries are stamped after the cutoff and come from the list |
| PerformanceAnalyzer.RetainKeeps | src/system_companion/core/performance_analyzer.py:858-862 | every entry stamped after the cutoff is kept |
| PerformanceAnalyzer.RetainAppend | src/system_companion/core/performance_analyzer.py:858-862 | filtering distributes over appending |
| PerformanceAnalyzer.RetainFresh | src/system_companion/core/performance_analyzer.py:843-862 | a newly appended entry stamped after the cutoff stays last |
| PerformanceAnalyzer.RetainTwice | src/system_companion/core/performance_analyzer.py:856-862 | filtering with an earlier cutoff and then a later one is filtering with the later one |
| PerformanceAnalyzer.Prune | src/system_companion/core/performance_analyzer.py:856-862 | all four histories keep only entries after the cutoff; the disk and network ones are only filtered |
| PerformanceAnalyzer.StoreHistorical | src/system_companion/core/performance_analyzer.py:833-865 | a failed reading changes nothing; otherwise every kept entry is less than 24 hours old and the disk and network histories are only filtered |
| PerformanceAnalyzer.StoreAppendsSamples | src/system_companion/core/performance_analyzer.py:843-847 | the new CPU sample ends the CPU history after pruning |
| PerformanceAnalyzer.StoreAppendsMemorySample | src/system_companion/core/performance_analyzer.py:849-853 | the new memory sample ends the memory history after pruning |
| PerformanceAnalyzer.StoreKeepsRecent | src/system_companion/core/performance_analyzer.py:856-862 | every CPU sample less than 24 hours old is kept |
| PerformanceAnalyzer.AnalyzeSystemPerformance | src/system_companion/core/performance_analyzer.py:118-154 | the issues are well formed and in stage order; the stored CPU history is less than 24 hours old; without a CPU reading nothing is stored and no CPU usage issue is reported |

## Left out

- The GTK user interface and its widgets: layout and drawing, not decisions.
- Real command execution (subprocess, `pkexec`, the temporary script file and its
  `chmod`, shell semantics such as `set -e`): every outcome is an oracle input.
- JSON syntax, file paths and directory creation: files are optional parsed documents.
- Failed writes of the state and history files: the source only logs them.
- Wall-clock readings and durations: they are caller-supplied numbers.
  `run_task`'s duration and timestamps come in through its environment record.
- Float arithmetic: percentages and sizes are exact reals. `_parse_size` does not model
  binary rounding before truncation.
- Python `float()` syntax beyond signed decimals with digit-separating underscores:
  exponents and `inf`/`nan` are not modelled; such texts are treated as unparseable.
- Concurrency: the widgets call the engine from threads without locking; the model runs
  calls strictly in sequence.
- `next_run` scheduling: it is stored and cleared, but nothing dispatches on it.
- `get_system_cleanup_info` (maintenance_manager.py:735-823): it only runs `du` probes
  and formats their output.
- The flag getters (maintenance_manager.py:924-942) and `get_all_tasks`,
  `get_tasks_by_category`, `get_tasks_by_priority`, `get_pending_tasks`
  (maintenance_manager.py:393-407): they read fields the model exposes directly.
- The engine's `config` dictionary (maintenance_manager.py:90-96): nothing reads it.
- psutil, cpuinfo and netifaces reads, and the rate calculations `_calculate_*` in
  system_monitor.py: each reading is an input record, `None` when it raised.
- The benchmarks (performance_analyzer.py:494-818): they depend on timing, the network
  and randomness.
- Issue and recommendation texts (titles, descriptions, commands): issues keep their
  kind, severity, component, compared value and limit.
- `get_performance_trends` and `get_last_benchmark`: they return stored data unchanged.
- `_is_systemd_analyze_available`: a boolean input to the recommendations.
- `get_user_processes`' current user: it comes from the `USER` environment variable,
  which is a parameter here.
- `PerformanceAnalyzer.StoreHistorical`: the source takes a second monitor reading for
  the history; the model stores the same snapshot the analysis used.
- `PerformanceAnalyzer.Prune`: the disk and network histories are never appended to by
  the source, so only their filtering is modelled.
- `PerformanceAnalyzer.AnalyzeSystemPerformance`: the `_analyze_system_load` stage
  returns no issues in the source and adds none here.
- `ConfigManager.Create`: a file holding a JSON list of key/value pairs would be merged
  by `dict.update`; the model treats every non-object as leaving the defaults.
- `ConfigManager.Import`: the missing-file error text omits the path.
- `is_first_run` and the path getters of the settings store: they only inspect the
  file system.
- `AppConfig.Get`: `getattr` also returns attributes that are not fields (methods, dunder
  names); the model returns the default for every name that is not one of the thirty fields.
- `AppConfig.Set`: `hasattr` also accepts attribute names that are not fields (methods,
  dunder names); the model accepts only the thirty fields.
- `Persistence.DecodeAll`: a history entry's `success` is a boolean or absent, and its
  `output` and `duration` are a value or absent. The source keeps an explicit `null`
  output or duration as `None`, and keeps a non-boolean `success` as it is; the model
  has no such entries, because its results carry a text output, a number and a boolean.
- `Persistence.LoadState`: flag values that are not booleans are not modelled; a flag
  is read as a boolean or as absent.
- `SizeParse.ParseSize`: digits are ASCII `0`-`9`. Python's `int()` and `float()` also
  read every other Unicode decimal digit (`"٣"` is 3); the model reads such text as
  unparseable, giving 0.
- `PyText.ParseInt`: digits are ASCII `0`-`9`; `int()` also reads other Unicode decimal
  digits, which the model rejects.
- `PyText.ParseFloat`: signed decimals with grouped ASCII digits only; exponents, `inf`,
  `nan` and other Unicode decimal digits are rejected, where `float()` reads them.
- `SizeParse.NoDigitsIsZero`: "no digit" means no ASCII digit; text holding only other
  Unicode decimal digits is read by Python as a number.
- `SizeParse.NoDigitsNoInt`: as for `NoDigitsIsZero`, Python's `int()` accepts non-ASCII
  decimal digits, which the model does not.
- `SizeParse.NoDigitsNoFloat`: as for `NoDigitsIsZero`, Python's `float()` accepts
  non-ASCII decimal digits, which the model does not.

=== FILE: cleanup.dfy ===
/**
 * `run_automated_cleanup`: the low- and medium-priority cleanup tasks run,
 * the elevated ones together as one batch script whose single outcome is
 * shared by all of them, the others one by one through `run_task`.
 */
module Cleanup {
  import opened Common
  import opened MaintenanceTypes
  import opened Registry
  import opened Execution
  import opened Maintenance
  import opened PySeq

  const CleanupCategories: seq<string> := [SystemCleanup, UserCleanup, PackageManagement]

  /** Category is a cleanup one and priority is low or medium. */
  predicate Eligible(t: Task) {
    t.category in CleanupCategories && (t.priority == Low || t.priority == Medium)
  }

  /** Eligible, with the given elevation requirement. */
  predicate Picks(t: Task, sudo: bool) {
    Eligible(t) && t.requiresSudo == sudo
  }

  /** `Picks` as a function value, for `Positions`. */
  function Keeps(sudo: bool): (keep: Task -> bool)
    ensures forall t :: keep(t) == Picks(t, sudo)
  {
    (t: Task) => Picks(t, sudo)
  }

  /** The positions, in catalog order, of the eligible tasks whose elevation requirement is `sudo`. */
  function Selected(tasks: seq<Task>, sudo: bool): (r: seq<nat>)
    ensures forall k :: 0 <= k < |r| ==> r[k] < |tasks|
  {
    Positions(tasks, Keeps(sudo), 0)
  }

  /**
   * `Selected` picks exactly the eligible tasks with the given elevation
   * requirement, each once, in catalog order.
   */
  lemma SelectedMembers(tasks: seq<Task>, sudo: bool)
    ensures var r := Selected(tasks, sudo);
      && (forall k :: 0 <= k < |r| ==> Picks(tasks[r[k]], sudo))
      && (forall i :: 0 <= i < |tasks| && Picks(tasks[i], sudo) ==> i in r)
      && (forall k, l :: 0 <= k < l < |r| ==> r[k] < r[l])
  {
    var keep := Keeps(sudo);
    PositionsMembers(tasks, keep, 0);
    var r := Selected(tasks, sudo);
    assert r == Positions(tasks, keep, 0);
    forall k | 0 <= k < |r|
      ensures Picks(tasks[r[k]], sudo)
    {
      assert keep(tasks[r[k]]);
    }
  }

  /** The commands of the selected tasks, concatenated in order. */
  function BatchCommands(tasks: seq<Task>, idx: seq<nat>): (r: seq<string>)
    requires forall k :: 0 <= k < |idx| ==> idx[k] < |tasks|
  {
    if |idx| == 0 then [] else BatchCommands(tasks, idx[..|idx| - 1]) + tasks[idx[|idx| - 1]].commands
  }

  /** The selected tasks take the batch's verdict as status and result; nothing else changes. */
  function MarkBatch(tasks: seq<Task>, idx: seq<nat>, x: Exec): (r: seq<Task>)
    ensures |r| == |tasks| && Ids(r) == Ids(tasks)
  {
    var r := seq(|tasks|, i requires 0 <= i < |tasks| =>
      if i in idx then tasks[i].(status := if x.success then Completed else Failed,
                                 result := Some(Verdict(x.success, x.error)))
      else tasks[i]);
    assert forall i :: 0 <= i < |tasks| ==> Ids(r)[i] == Ids(tasks)[i];
    r
  }

  /** One result per selected task, all carrying the batch's verdict and output, with zero duration. */
  function BatchResults(tasks: seq<Task>, idx: seq<nat>, x: Exec, now: nat): (r: seq<MaintenanceResult>)
    requires forall k :: 0 <= k < |idx| ==> idx[k] < |tasks|
    ensures |r| == |idx| && forall k :: 0 <= k < |idx| ==> r[k].taskId == tasks[idx[k]].id
  {
    seq(|idx|, k requires 0 <= k < |idx| =>
      MaintenanceResult(tasks[idx[k]].id, x.success, x.output, x.error, 0, now))
  }

  /** What the cleanup loop relies on from one `run_task`. */
  predicate StepSpec(m: Manager, id: string, r: (Manager, Result<MaintenanceResult>)) {
    && (r.1.Err? ==> r.0 == m)
    && (r.1.Ok? ==> r.0.history == m.history + [r.1.value] && r.1.value.taskId == id)
    && (HasId(m.tasks, id) ==> r.1.Ok?)
    && Ids(r.0.tasks) == Ids(m.tasks)
  }

  /** `run_task`, with the `k`-th run of the loop seeing `envs(k)`, meets `StepSpec`. */
  lemma RunTaskMeetsStepSpec(envs: nat -> Env)
    ensures forall m, id, k :: StepSpec(m, id, RunTask(m, id, envs(k)))
  {
    forall m, id, k
      ensures StepSpec(m, id, RunTask(m, id, envs(k)))
    {
      RunTaskStep(m, id, envs(k));
      SameDefinitionsIds(RunTask(m, id, envs(k)).0.tasks, m.tasks);
    }
  }

  /**
   * Runs the given ids in order, the `k`-th through `run(_, _, k)`; an id
   * whose run fails is skipped.
   */
  function RunAll(m: Manager, ids: seq<string>, run: (Manager, string, nat) -> (Manager, Result<MaintenanceResult>), k: nat)
    : (r: (Manager, seq<MaintenanceResult>))
    requires forall mm, id, kk :: StepSpec(mm, id, run(mm, id, kk))
    ensures r.0.history == m.history + r.1
    ensures Ids(r.0.tasks) == Ids(m.tasks)
    decreases |ids|
  {
    if |ids| == 0 then (m, [])
    else
      var step := run(m, ids[0], k);
      assert StepSpec(m, ids[0], step);
      var done := match step.1 case Ok(res) => [res] case Err(_) => [];
      var rest := RunAll(step.0, ids[1..], run, k + 1);
      assert m.history + done + rest.1 == m.history + (done + rest.1);
      (rest.0, done + rest.1)
  }

  /** When every id is known, each gets exactly one result, in order. */
  lemma {:induction false} RunAllCovers(m: Manager, ids: seq<string>, run: (Manager, string, nat) -> (Manager, Result<MaintenanceResult>), k: nat)
    requires forall mm, id, kk :: StepSpec(mm, id, run(mm, id, kk))
    requires forall j :: 0 <= j < |ids| ==> HasId(m.tasks, ids[j])
    ensures var r := RunAll(m, ids, run, k);
      |r.1| == |ids| && forall j :: 0 <= j < |ids| ==> r.1[j].taskId == ids[j]
    decreases |ids|
  {
    if |ids| > 0 {
      var step := run(m, ids[0], k);
      RunAllKnownStep(m, ids, run, k);
      AllKnownAfterStep(m.tasks, step.0.tasks, ids);
      RunAllCovers(step.0, ids[1..], run, k + 1);
      var rest := RunAll(step.0, ids[1..], run, k + 1);
      var r := RunAll(m, ids, run, k);
      forall j | 0 <= j < |ids|
        ensures r.1[j].taskId == ids[j]
      {
        if j > 0 {
          assert r.1[j] == rest.1[j - 1] && ids[1..][j - 1] == ids[j];
        }
      }
    }
  }

  /** A known first id yields one result, followed by the rest of the run. */
  lemma RunAllKnownStep(m: Manager, ids: seq<string>, run: (Manager, string, nat) -> (Manager, Result<MaintenanceResult>), k: nat)
    requires forall mm, id, kk :: StepSpec(mm, id, run(mm, id, kk))
    requires |ids| > 0 && HasId(m.tasks, ids[0])
    ensures var step := run(m, ids[0], k);
      && step.1.Ok? && step.1.value.taskId == ids[0]
      && Ids(step.0.tasks) == Ids(m.tasks)
      && RunAll(m, ids, run, k).1 == [step.1.value] + RunAll(step.0, ids[1..], run, k + 1).1
  {
    assert StepSpec(m, ids[0], run(m, ids[0], k));
  }

  lemma AllKnownAfterStep(a: seq<Task>, b: seq<Task>, ids: seq<string>)
    requires Ids(a) == Ids(b) && |ids| > 0
    ensures (forall j :: 0 <= j < |ids| ==> HasId(a, ids[j])) ==>
      (forall j :: 0 <= j < |ids| - 1 ==> HasId(b, ids[1..][j]))
  {
    if forall j :: 0 <= j < |ids| ==> HasId(a, ids[j]) {
      forall j | 0 <= j < |ids| - 1
        ensures HasId(b, ids[1..][j])
      {
        assert ids[1..][j] == ids[j + 1];
        HasIdByIds(a, b, ids[j + 1]);
      }
    }
  }

  lemma AllKnown(a: seq<Task>, b: seq<Task>, ids: seq<string>)
    requires Ids(a) == Ids(b) && forall j :: 0 <= j < |ids| ==> HasId(a, ids[j])
    ensures forall j :: 0 <= j < |ids| ==> HasId(b, ids[j])
  {
    forall j | 0 <= j < |ids|
      ensures HasId(b, ids[j])
    {
      HasIdByIds(a, b, ids[j]);
    }
  }

  /** Two catalogs with the same ids in the same order hold the same ids. */
  lemma HasIdByIds(a: seq<Task>, b: seq<Task>, id: string)
    requires Ids(a) == Ids(b) && HasId(a, id)
    ensures HasId(b, id)
  {
    var i :| 0 <= i < |a| && a[i].id == id;
    assert Ids(a)[i] == Ids(b)[i];
  }

  /** The batch step: skipped when no elevated task is eligible. */
  function RunSudoBatch(m: Manager, idx: seq<nat>, runScript: seq<string> -> Outcome, now: nat): (r: (Manager, seq<MaintenanceResult>))
    requires forall k :: 0 <= k < |idx| ==> idx[k] < |m.tasks|
    ensures |r.1| == |idx| && forall k :: 0 <= k < |idx| ==> r.1[k].taskId == m.tasks[idx[k]].id
    ensures r.0.history == m.history && Ids(r.0.tasks) == Ids(m.tasks)
  {
    if |idx| == 0 then (m, [])
    else
      var x := RunBatch(BatchCommands(m.tasks, idx), runScript);
      (m.(tasks := MarkBatch(m.tasks, idx, x)), BatchResults(m.tasks, idx, x, now))
  }

  /**
   * `run_automated_cleanup`: the elevated eligible tasks as one batch (its
   * results stamped `now`), then the others through `run_task`, the `k`-th
   * of them seeing `envs(k)`. The batch results come first.
   */
  function RunAutomatedCleanup(m: Manager, runScript: seq<string> -> Outcome, now: nat, envs: nat -> Env)
    : (r: (Manager, seq<MaintenanceResult>))
    ensures CleanupOutcome(m, r)
  {
    CleanupWith(m, runScript, now, TaskRunner(envs))
  }

  /**
   * What the cleanup promises: one result per selected task, the elevated
   * ones first, each naming its task in catalog order; only the
   * non-elevated results enter the history; the catalog's ids stay put.
   */
  predicate CleanupOutcome(m: Manager, r: (Manager, seq<MaintenanceResult>)) {
    CleanupShape(m, Selected(m.tasks, true), Selected(m.tasks, false), r)
  }

  /** `CleanupOutcome` for given elevated and non-elevated selections. */
  predicate CleanupShape(m: Manager, sudo: seq<nat>, plain: seq<nat>, r: (Manager, seq<MaintenanceResult>))
    requires forall k :: 0 <= k < |sudo| ==> sudo[k] < |m.tasks|
    requires forall k :: 0 <= k < |plain| ==> plain[k] < |m.tasks|
  {
    && |r.1| == |sudo| + |plain|
    && (forall k :: 0 <= k < |sudo| ==> r.1[k].taskId == m.tasks[sudo[k]].id)
    && (forall k :: 0 <= k < |plain| ==> r.1[|sudo| + k].taskId == m.tasks[plain[k]].id)
    && r.0.history == m.history + r.1[|sudo|..]
    && Ids(r.0.tasks) == Ids(m.tasks)
  }

  /** `run_task` as the step of the cleanup loop, the `k`-th run seeing `envs(k)`. */
  function TaskRunner(envs: nat -> Env): (run: (Manager, string, nat) -> (Manager, Result<MaintenanceResult>))
    ensures forall mm, id, kk :: StepSpec(mm, id, run(mm, id, kk))
  {
    RunTaskMeetsStepSpec(envs);
    (mm: Manager, id: string, kk: nat) => RunTask(mm, id, envs(kk))
  }

  /** The cleanup with any step meeting `StepSpec` in place of `run_task`. */
  function CleanupWith(m: Manager, runScript: seq<string> -> Outcome, now: nat,
                       run: (Manager, string, nat) -> (Manager, Result<MaintenanceResult>))
    : (r: (Manager, seq<MaintenanceResult>))
    requires forall mm, id, kk :: StepSpec(mm, id, run(mm, id, kk))
    ensures CleanupOutcome(m, r)
  {
    var sudo := Selected(m.tasks, true);
    var b := RunSudoBatch(m, sudo, runScript, now);
    var p := RunEachPlain(b.0, m.tasks, Selected(m.tasks, false), run);
    Join(m, sudo, Selected(m.tasks, false), b, p);
    (p.0, b.1 + p.1)
  }

  /** The batch's results followed by the loop's meet `CleanupShape`. */
  lemma Join(m: Manager, sudo: seq<nat>, plain: seq<nat>,
             b: (Manager, seq<MaintenanceResult>), p: (Manager, seq<MaintenanceResult>))
    requires forall k :: 0 <= k < |sudo| ==> sudo[k] < |m.tasks|
    requires forall k :: 0 <= k < |plain| ==> plain[k] < |m.tasks|
    requires |b.1| == |sudo| && forall k :: 0 <= k < |sudo| ==> b.1[k].taskId == m.tasks[sudo[k]].id
    requires b.0.history == m.history && Ids(b.0.tasks) == Ids(m.tasks)
    requires |p.1| == |plain| && forall k :: 0 <= k < |plain| ==> p.1[k].taskId == m.tasks[plain[k]].id
    requires p.0.history == b.0.history + p.1 && Ids(p.0.tasks) == Ids(b.0.tasks)
    ensures CleanupShape(m, sudo, plain, (p.0, b.1 + p.1))
  {
    var r1 := b.1 + p.1;
    forall k | 0 <= k < |sudo|
      ensures r1[k].taskId == m.tasks[sudo[k]].id
    {
      assert r1[k] == b.1[k];
    }
    forall k | 0 <= k < |plain|
      ensures r1[|sudo| + k].taskId == m.tasks[plain[k]].id
    {
      assert r1[|sudo| + k] == p.1[k];
    }
    assert r1[|sudo|..] == p.1;
  }

  /**
   * The non-elevated eligible tasks, given by their positions in `cat`,
   * each run by id through `run`, the `k`-th as `run(_, _, k)`.
   */
  function RunEachPlain(m: Manager, cat: seq<Task>, plain: seq<nat>,
                        run: (Manager, string, nat) -> (Manager, Result<MaintenanceResult>))
    : (r: (Manager, seq<MaintenanceResult>))
    requires forall mm, id, kk :: StepSpec(mm, id, run(mm, id, kk))
    requires Ids(m.tasks) == Ids(cat)
    requires forall k :: 0 <= k < |plain| ==> plain[k] < |cat|
    ensures |r.1| == |plain| && forall k :: 0 <= k < |plain| ==> r.1[k].taskId == cat[plain[k]].id
    ensures r.0.history == m.history + r.1 && Ids(r.0.tasks) == Ids(m.tasks)
  {
    var ids := seq(|plain|, k requires 0 <= k < |plain| => cat[plain[k]].id);
    AllKnown(cat, m.tasks, ids);
    RunAllCovers(m, ids, run, 0);
    RunAll(m, ids, run, 0)
  }

  lemma Concat<T>(a: seq<T>, b: seq<T>)
    ensures (a + b)[|a|..] == b
    ensures forall k :: 0 <= k < |a| ==> (a + b)[k] == a[k]
    ensures forall k :: 0 <= k < |b| ==> (a + b)[|a| + k] == b[k]
  {
  }

  /**
   * The shared batch, for any non-empty selection `idx`: every result
   * carries the verdict of the one script built from all the selected
   * commands, with zero duration and the given time.
   */
  lemma SudoBatchResults(m: Manager, idx: seq<nat>, runScript: seq<string> -> Outcome, now: nat)
    requires |idx| > 0 && forall k :: 0 <= k < |idx| ==> idx[k] < |m.tasks|
    ensures var x := RunBatch(BatchCommands(m.tasks, idx), runScript);
      var b := RunSudoBatch(m, idx, runScript, now);
      && (x.success <==> Succeeded(runScript(ScriptLines(BatchCommands(m.tasks, idx)))))
      && forall k :: 0 <= k < |idx| ==>
           b.1[k] == MaintenanceResult(m.tasks[idx[k]].id, x.success, x.output, x.error, 0, now)
  {
  }

  /** The selected tasks take the batch's status and result text while their `last_run` stays. */
  lemma SudoBatchMarks(m: Manager, idx: seq<nat>, runScript: seq<string> -> Outcome, now: nat)
    requires |idx| > 0 && forall k :: 0 <= k < |idx| ==> idx[k] < |m.tasks|
    ensures var x := RunBatch(BatchCommands(m.tasks, idx), runScript);
      var b := RunSudoBatch(m, idx, runScript, now);
      forall k :: 0 <= k < |idx| ==>
        b.0.tasks[idx[k]] == m.tasks[idx[k]].(status := if x.success then Completed else Failed,
                                              result := Some(Verdict(x.success, x.error)))
  {
    var x := RunBatch(BatchCommands(m.tasks, idx), runScript);
    var t := MarkBatch(m.tasks, idx, x);
    forall k | 0 <= k < |idx|
      ensures t[idx[k]] == m.tasks[idx[k]].(status := if x.success then Completed else Failed,
                                            result := Some(Verdict(x.success, x.error)))
    {
      assert idx[k] in idx;
    }
  }

  /** Every task outside the batch, the history and the flags are untouched. */
  lemma SudoBatchLeavesOthers(m: Manager, idx: seq<nat>, runScript: seq<string> -> Outcome, now: nat)
    requires forall k :: 0 <= k < |idx| ==> idx[k] < |m.tasks|
    ensures var b := RunSudoBatch(m, idx, runScript, now);
      && (forall i :: 0 <= i < |m.tasks| && i !in idx ==> b.0.tasks[i] == m.tasks[i])
      && b.0.history == m.history && b.0.flags == m.flags
  {
  }

  /**
   * The batch holds every command of the elevated tasks, as written, task by
   * task in order; `sudo ` is removed only later, when the script is built.
   */
  lemma {:induction false} BatchCommandsInOrder(tasks: seq<Task>, idx: seq<nat>)
    requires forall k :: 0 <= k < |idx| ==> idx[k] < |tasks|
    ensures forall k :: 0 <= k < |idx| ==> |tasks[idx[k]].commands| <= |BatchCommands(tasks, idx)|
    ensures |idx| > 0 ==> BatchCommands(tasks, idx)[|BatchCommands(tasks, idx[..|idx| - 1])|..] == tasks[idx[|idx| - 1]].commands
    ensures |BatchCommands(tasks, idx)| == TotalCommands(tasks, idx)
  {
    if |idx| > 0 {
      var n := |idx| - 1;
      assert forall k :: 0 <= k < n ==> idx[..n][k] == idx[k];
      BatchCommandsInOrder(tasks, idx[..n]);
    }
  }

  /** The number of commands the selected tasks have together. */
  function TotalCommands(tasks: seq<Task>, idx: seq<nat>): nat
    requires forall k :: 0 <= k < |idx| ==> idx[k] < |tasks|
  {
    if |idx| == 0 then 0 else TotalCommands(tasks, idx[..|idx| - 1]) + |tasks[idx[|idx| - 1]].commands|
  }

  /**
   * In the shipped catalog the batch covers the two package tasks and the
   * two system cleanups (twelve commands), the browser-cache cleanup runs on
   * its own, and the medium-priority disk health check is left out because
   * of its category.
   */
  lemma CatalogCleanup()
    ensures Selected(Tasks(), true) == [0, 1, 2, 3]
    ensures Selected(Tasks(), false) == [4]
    ensures |BatchCommands(Tasks(), [0, 1, 2, 3])| == 12
    ensures Tasks()[8].id == CheckDiskHealth && Tasks()[8].priority == Medium && !Eligible(Tasks()[8])
  {
    CatalogEligibility();
    SelectedOfCatalog(Tasks());
    BatchOfFour(Tasks());
  }

  /** Four tasks with 3, 2, 4 and 3 commands make a batch of twelve. */
  lemma BatchOfFour(ts: seq<Task>)
    requires |ts| >= 4
    requires |ts[0].commands| == 3 && |ts[1].commands| == 2 && |ts[2].commands| == 4 && |ts[3].commands| == 3
    ensures |BatchCommands(ts, [0, 1, 2, 3])| == 12
  {
    BatchCommandsInOrder(ts, [0, 1, 2, 3]);
    assert [0, 1, 2, 3][..3] == [0, 1, 2];
    assert [0, 1, 2][..2] == [0, 1];
    assert [0, 1][..1] == [0];
    assert [0][..0] == [];
    assert TotalCommands(ts, [0]) == 3;
    assert TotalCommands(ts, [0, 1]) == 5;
    assert TotalCommands(ts, [0, 1, 2]) == 9;
  }

  /** Which catalog entries are eligible, and which of those are elevated. */
  lemma CatalogEligibility()
    ensures var ts := Tasks();
      && |ts| == 10
      && (forall i :: 0 <= i < 4 ==> Eligible(ts[i]) && ts[i].requiresSudo)
      && Eligible(ts[4]) && !ts[4].requiresSudo
      && (forall i :: 5 <= i < 10 ==> !Eligible(ts[i]))
      && |ts[0].commands| == 3 && |ts[1].commands| == 2 && |ts[2].commands| == 4 && |ts[3].commands| == 3
      && ts[8].id == CheckDiskHealth && ts[8].priority == Medium
  {
    CatalogHead();
    CatalogRest();
  }

  /** The first five entries are the cleanup ones. */
  lemma CatalogHead()
    ensures var ts := Tasks();
      && |ts| == 10
      && ts[0] == UpdatePackagesTask() && ts[1] == CleanPackageCacheTask() && ts[2] == CleanTempFilesTask()
      && ts[3] == CleanLogsTask() && ts[4] == CleanBrowserCacheTask()
      && (forall i :: 0 <= i < 4 ==> Eligible(ts[i]) && ts[i].requiresSudo)
      && Eligible(ts[4]) && !ts[4].requiresSudo
      && |ts[0].commands| == 3 && |ts[1].commands| == 2 && |ts[2].commands| == 4 && |ts[3].commands| == 3
  {
    EligibleEntries();
  }

  /** The last five are not. */
  lemma CatalogRest()
    ensures var ts := Tasks();
      && |ts| == 10
      && (forall i :: 5 <= i < 10 ==> !Eligible(ts[i]))
      && ts[8].id == CheckDiskHealth && ts[8].priority == Medium
  {
    var ts := Tasks();
    IneligibleEntries();
    assert ts[5] == OptimizeSwapTask() && ts[6] == DefragmentFilesystemTask();
    assert ts[7] == UpdateFirmwareTask() && ts[8] == CheckDiskHealthTask() && ts[9] == CheckNvmeHealthTask();
  }

  /** The five cleanup entries, with their command counts. */
  lemma EligibleEntries()
    ensures Eligible(UpdatePackagesTask()) && |UpdatePackagesTask().commands| == 3
    ensures Eligible(CleanPackageCacheTask()) && |CleanPackageCacheTask().commands| == 2
    ensures Eligible(CleanTempFilesTask()) && |CleanTempFilesTask().commands| == 4
    ensures Eligible(CleanLogsTask()) && |CleanLogsTask().commands| == 3
    ensures Eligible(CleanBrowserCacheTask())
  {
  }

  /** The other five are left out by category. */
  lemma IneligibleEntries()
    ensures !Eligible(OptimizeSwapTask()) && !Eligible(DefragmentFilesystemTask())
    ensures !Eligible(UpdateFirmwareTask()) && !Eligible(CheckNvmeHealthTask())
    ensures !Eligible(CheckDiskHealthTask()) && CheckDiskHealthTask().priority == Medium
  {
    assert SystemOptimization[7] != SystemCleanup[7] && SystemUpdates[7] != SystemCleanup[7];
    assert SystemHealth[7] != SystemCleanup[7];
  }

  /** `Selected` on a catalog with the eligibility pattern of the shipped one. */
  lemma SelectedOfCatalog(ts: seq<Task>)
    requires |ts| == 10
    requires forall i :: 0 <= i < 4 ==> Eligible(ts[i]) && ts[i].requiresSudo
    requires Eligible(ts[4]) && !ts[4].requiresSudo
    requires forall i :: 5 <= i < 10 ==> !Eligible(ts[i])
    ensures Selected(ts, true) == [0, 1, 2, 3]
    ensures Selected(ts, false) == [4]
  {
    SelectedTail(ts, true);
    SelectedTail(ts, false);
    assert Positions(ts, Keeps(true), 4) == [];
    assert Positions(ts, Keeps(true), 3) == [3];
    assert Positions(ts, Keeps(true), 2) == [2, 3];
    assert Positions(ts, Keeps(true), 1) == [1, 2, 3];
    assert Positions(ts, Keeps(false), 4) == [4];
    assert Positions(ts, Keeps(false), 3) == [4];
    assert Positions(ts, Keeps(false), 2) == [4];
    assert Positions(ts, Keeps(false), 1) == [4];
  }

  /** Nothing past position 4 of such a catalog is eligible. */
  lemma SelectedTail(ts: seq<Task>, sudo: bool)
    requires |ts| == 10
    requires forall i :: 5 <= i < 10 ==> !Eligible(ts[i])
    ensures Positions(ts, Keeps(sudo), 5) == []
  {
    assert Positions(ts, Keeps(sudo), 9) == [];
    assert Positions(ts, Keeps(sudo), 8) == [];
    assert Positions(ts, Keeps(sudo), 7) == [];
    assert Positions(ts, Keeps(sudo), 6) == [];
  }
}

=== FILE: common.dfy ===
/** Small failure-carrying datatypes shared by every module of the model. */
module Common {

  /** A value that may be absent (Python's `Optional` / `None`). */
  datatype Option<+T> = None | Some(value: T) {
    function GetOr(default: T): T {
      match this
      case Some(v) => v
      case None => default
    }
  }

  /** Either a value or the message of the exception the source raises. */
  datatype Result<+T> = Ok(value: T) | Err(msg: string)

  function Min(a: int, b: int): int { if a <= b then a else b }
  function Max(a: int, b: int): int { if a <= b then b else a }
}

=== FILE: config.dfy ===
/**
 * The typed settings record and its manager: thirty fields with declared
 * defaults, a per-field validation table, `get`, `set`, `update`,
 * `reset_to_defaults` and loading with fallback to the defaults. The
 * record is a map from field name to value whose key set never changes.
 * Writing the file is an input: the error text the write raises, if any.
 */
module AppConfig {
  import opened Common
  import opened JsonValue

  const RefreshIntervalKey := "refresh_interval"
  const WindowWidthKey := "window_width"
  const WindowHeightKey := "window_height"
  const ThemeKey := "theme"
  const MaxHistoryPointsKey := "max_history_points"
  const CpuThresholdKey := "critical_threshold_cpu"
  const MemoryThresholdKey := "critical_threshold_memory"
  const DiskThresholdKey := "critical_threshold_disk"

  /** The declared defaults of the fields `_validate_value` checks. */
  const CheckedDefaults: map<string, Json> := map[
    WindowWidthKey := JInt(1200),
    WindowHeightKey := JInt(800),
    ThemeKey := JStr("auto"),
    RefreshIntervalKey := JInt(1000),
    MaxHistoryPointsKey := JInt(3600),
    CpuThresholdKey := JFloat(90.0),
    MemoryThresholdKey := JFloat(90.0),
    DiskThresholdKey := JFloat(95.0)]

  /** The declared defaults of the other fields, which accept any value. */
  const UncheckedDefaults: map<string, Json> := map[
    "window_maximized" := JBool(false),
    "window_size" := JNull,
    "autostart" := JBool(false),
    "show_tray_icon" := JBool(true),
    "notifications_enabled" := JBool(true),
    "critical_notifications" := JBool(true),
    "performance_notifications" := JBool(true),
    "security_notifications" := JBool(true),
    "debug_mode" := JBool(false),
    "enable_performance_logging" := JBool(true),
    "cache_duration" := JInt(300),
    "auto_cleanup_enabled" := JBool(false),
    "cleanup_interval_hours" := JInt(24),
    "max_log_size_mb" := JInt(100),
    "backup_enabled" := JBool(true),
    "enable_notifications" := JBool(true),
    "notification_timeout" := JInt(5000),
    "collect_usage_statistics" := JBool(false),
    "share_crash_reports" := JBool(false),
    "telemetry_enabled" := JBool(false),
    "log_level" := JStr("INFO"),
    "data_retention_days" := JInt(30)]

  /** The declared default of every field of `SystemCompanionConfig`. */
  const Defaults: map<string, Json> := UncheckedDefaults + CheckedDefaults

  const RefreshIntervalMessage := "Refresh interval must be >= 100ms"
  const WindowWidthMessage := "Window width must be >= 800"
  const WindowHeightMessage := "Window height must be >= 600"
  const ThemeMessage := "Theme must be 'auto', 'light', or 'dark'"
  const MaxHistoryPointsMessage := "Max history points must be >= 100"
  const CpuThresholdMessage := "CPU threshold must be between 0 and 100"
  const MemoryThresholdMessage := "Memory threshold must be between 0 and 100"
  const DiskThresholdMessage := "Disk threshold must be between 0 and 100"

  const Themes: set<Json> := {JStr("auto"), JStr("light"), JStr("dark")}

  /** The settings after an operation, and the `ConfigurationError` message it raised, if any. */
  datatype Change = Change(values: map<string, Json>, error: Option<string>)

  function InvalidKey(key: string): string {
    "Invalid configuration key: " + key
  }

  function SaveFailed(cause: string): string {
    "Failed to save configuration: " + cause
  }

  /** An integer field that must be at least `least`. */
  predicate IntAtLeast(v: Json, least: int) {
    AsInt(v).Some? && AsInt(v).value >= least
  }

  /** A numeric field that must lie in [0, 100]. */
  predicate Percentage(v: Json) {
    AsNumber(v).Some? && 0.0 <= AsNumber(v).value <= 100.0
  }

  /**
   * `_validate_value`: the message raised for `value` under `key`, or none.
   * Fields outside the table accept anything.
   */
  function Validate(key: string, v: Json): (r: Option<string>)
    ensures key == RefreshIntervalKey ==> (r.None? <==> IntAtLeast(v, 100))
    ensures key == WindowWidthKey ==> (r.None? <==> IntAtLeast(v, 800))
    ensures key == WindowHeightKey ==> (r.None? <==> IntAtLeast(v, 600))
    ensures key == ThemeKey ==> (r.None? <==> v in Themes)
    ensures key == MaxHistoryPointsKey ==> (r.None? <==> IntAtLeast(v, 100))
    ensures key in {CpuThresholdKey, MemoryThresholdKey, DiskThresholdKey} ==> (r.None? <==> Percentage(v))
    ensures key !in CheckedDefaults ==> r.None?
  {
    if key == RefreshIntervalKey && !IntAtLeast(v, 100) then Some(RefreshIntervalMessage)
    else if key == WindowWidthKey && !IntAtLeast(v, 800) then Some(WindowWidthMessage)
    else if key == WindowHeightKey && !IntAtLeast(v, 600) then Some(WindowHeightMessage)
    else if key == ThemeKey && v !in Themes then Some(ThemeMessage)
    else if key == MaxHistoryPointsKey && !IntAtLeast(v, 100) then Some(MaxHistoryPointsMessage)
    else if key == CpuThresholdKey && !Percentage(v) then Some(CpuThresholdMessage)
    else if key == MemoryThresholdKey && !Percentage(v) then Some(MemoryThresholdMessage)
    else if key == DiskThresholdKey && !Percentage(v) then Some(DiskThresholdMessage)
    else None
  }

  /** Every field holds a value its validation accepts. */
  predicate Valid(values: map<string, Json>) {
    forall k :: k in values ==> Validate(k, values[k]).None?
  }

  /** `get`: the field's value, or `default` for a name that is not a field. */
  function Get(values: map<string, Json>, key: string, default: Json): (r: Json)
    ensures key in values ==> r == values[key]
    ensures key !in values ==> r == default
  {
    if key in values then values[key] else default
  }

  /**
   * `set`: an unknown field or an invalid value raises and changes nothing;
   * otherwise the value is assigned and then saved, so a failing save raises
   * with the new value already in effect.
   */
  function Set(values: map<string, Json>, key: string, v: Json, saveError: Option<string>): (r: Change)
    ensures r.values.Keys == values.Keys
    ensures Valid(values) ==> Valid(r.values)
    ensures key !in values ==> r == Change(values, Some(InvalidKey(key)))
    ensures key in values && Validate(key, v).Some? ==> r == Change(values, Validate(key, v))
    ensures key in values && Validate(key, v).None? ==>
      Get(r.values, key, JNull) == v && (forall k :: k in values && k != key ==> r.values[k] == values[k])
    ensures r.error.None? <==> key in values && Validate(key, v).None? && saveError.None?
  {
    if key !in values then Change(values, Some(InvalidKey(key)))
    else
      match Validate(key, v)
      case Some(msg) => Change(values, Some(msg))
      case None =>
        var updated := values[key := v];
        Change(updated, if saveError.Some? then Some(SaveFailed(saveError.value)) else None)
  }

  /** Plain sequential assignment, with no checks: what `update` amounts to when every entry is accepted. */
  function Assign(values: map<string, Json>, updates: seq<(string, Json)>): map<string, Json>
    decreases |updates|
  {
    if |updates| == 0 then values
    else Assign(values[updates[0].0 := updates[0].1], updates[1..])
  }

  /** `update` stopped at entry `j`: the entries before it are applied, and `j` itself too when only its save failed. */
  predicate StoppedAt(values: map<string, Json>, updates: seq<(string, Json)>, r: map<string, Json>, j: int) {
    0 <= j < |updates| && (r == Assign(values, updates[..j]) || r == Assign(values, updates[..j + 1]))
  }

  /**
   * `update`: the entries go through `set` one at a time, in order; the
   * first one that raises stops the loop, and the entries before it stay
   * applied. `save` is what writing a given record would raise.
   */
  function Update(values: map<string, Json>, updates: seq<(string, Json)>,
                  save: map<string, Json> -> Option<string>): (r: Change)
    ensures r.values.Keys == values.Keys
    ensures Valid(values) ==> Valid(r.values)
    ensures r.error.None? ==> r.values == Assign(values, updates)
    ensures r.error.Some? ==> exists j :: StoppedAt(values, updates, r.values, j)
  {
    if |updates| == 0 then Change(values, None)
    else
      var (key, v) := updates[0];
      var first := Set(values, key, v, save(values[key := v]));
      if first.error.Some? then
        assert StoppedAt(values, updates, first.values, 0) by {
          assert updates[..0] == [] && updates[..1][1..] == [];
        }
        first
      else
        var r := Update(first.values, updates[1..], save);
        if r.error.Some? then
          StoppedLater(values, updates, first.values, r.values);
          r
        else r
  }

  /** Stopping at entry `j` of the rest is stopping at entry `j + 1` once the first entry is applied. */
  lemma StoppedLater(values: map<string, Json>, updates: seq<(string, Json)>,
                     first: map<string, Json>, r: map<string, Json>)
    requires |updates| > 0 && first == values[updates[0].0 := updates[0].1]
    requires exists j :: StoppedAt(first, updates[1..], r, j)
    ensures exists j :: StoppedAt(values, updates, r, j)
  {
    var j :| StoppedAt(first, updates[1..], r, j);
    assert updates[..j + 1][1..] == updates[1..][..j];
    assert updates[..j + 2][1..] == updates[1..][..j + 1];
    assert StoppedAt(values, updates, r, j + 1);
  }

  /** The error `set` raises for an entry it rejects: an unknown field, or the field's validation message. */
  function Rejection(values: map<string, Json>, key: string, v: Json): Option<string> {
    if key !in values then Some(InvalidKey(key)) else Validate(key, v)
  }

  /**
   * With saves that succeed, `update` stops at the first entry `set`
   * rejects: it raises that entry's error, and exactly the entries before
   * it are applied.
   */
  lemma {:induction false} UpdateFirstRejected(values: map<string, Json>, updates: seq<(string, Json)>,
                                               save: map<string, Json> -> Option<string>, j: nat)
    requires forall m :: save(m).None?
    requires j < |updates|
    requires forall i :: 0 <= i < j ==> Rejection(values, updates[i].0, updates[i].1).None?
    requires Rejection(values, updates[j].0, updates[j].1).Some?
    ensures Update(values, updates, save).error == Rejection(values, updates[j].0, updates[j].1)
    ensures Update(values, updates, save).values == Assign(values, updates[..j])
  {
    var (key, v) := updates[0];
    var first := Set(values, key, v, save(values[key := v]));
    if j == 0 {
      assert updates[..0] == [];
    } else {
      assert Rejection(values, key, v).None?;
      assert first == Change(values[key := v], None);
      assert first.values.Keys == values.Keys;
      var rest := updates[1..];
      forall i | 0 <= i < j - 1
        ensures Rejection(first.values, rest[i].0, rest[i].1).None?
      {
        assert rest[i] == updates[i + 1];
      }
      assert rest[j - 1] == updates[j];
      UpdateFirstRejected(first.values, rest, save, j - 1);
      assert updates[..j][0] == updates[0] && updates[..j][1..] == rest[..j - 1];
    }
  }

  /** `reset_to_defaults`: every field back to its default, then saved. */
  function Reset(saveError: Option<string>): (r: Change)
    ensures r.values == Defaults && Valid(r.values)
    ensures r.error.None? <==> saveError.None?
  {
    DefaultsValid();
    Change(Defaults, if saveError.Some? then Some(SaveFailed(saveError.value)) else None)
  }

  /** The declared defaults pass their own validation. */
  lemma DefaultsValid()
    ensures Valid(Defaults)
  {
    forall k | k in Defaults
      ensures Validate(k, Defaults[k]).None?
    {
      if k in CheckedDefaults {
        CheckedDefaultValid(k);
      } else {
      }
    }
  }

  lemma CheckedDefaultValid(k: string)
    requires k in CheckedDefaults
    ensures Validate(k, CheckedDefaults[k]).None?
  {
  }

  /** Three defaults as a fresh configuration reports them. */
  lemma DefaultLookups(default: Json)
    ensures Get(Defaults, WindowWidthKey, default) == JInt(1200)
    ensures Get(Defaults, ThemeKey, default) == JStr("auto")
    ensures Get(Defaults, RefreshIntervalKey, default) == JInt(1000)
  {
    CheckedInDefaults(WindowWidthKey);
    CheckedInDefaults(ThemeKey);
    CheckedInDefaults(RefreshIntervalKey);
  }

  /** A checked field's default is the one `Defaults` holds. */
  lemma CheckedInDefaults(k: string)
    requires k in CheckedDefaults
    ensures k in Defaults && Defaults[k] == CheckedDefaults[k]
  {
  }

  /** What the config file holds when read. */
  datatype ConfigFile = FileMissing | FileUnreadable | FileJson(content: Json)

  /**
   * `_load_config`: an object whose members are all fields overrides those
   * fields' defaults (values unchecked); a missing file, an unreadable one,
   * a non-object or an unknown member yields the defaults.
   */
  function Load(file: ConfigFile): (r: map<string, Json>)
    ensures r.Keys == Defaults.Keys
    ensures file.FileJson? && file.content.JObject? && file.content.members.Keys <= Defaults.Keys ==>
      (forall k :: k in file.content.members ==> r[k] == file.content.members[k]) &&
      (forall k :: k in Defaults && k !in file.content.members ==> r[k] == Defaults[k])
    ensures !(file.FileJson? && file.content.JObject? && file.content.members.Keys <= Defaults.Keys) ==>
      r == Defaults
  {
    match file
    case FileJson(JObject(members)) =>
      if members.Keys <= Defaults.Keys then Merge(Defaults, members) else Defaults
    case _ => Defaults
  }

  /** `_save_config`: the file holds every field (`asdict`). */
  function Saved(values: map<string, Json>): ConfigFile {
    FileJson(JObject(values))
  }

  /**
   * `_load_config` together with its effect on the file: a missing file is
   * written with the defaults (`_save_config`), unless that write fails,
   * which is only logged. Every other file is left as it is.
   */
  function Startup(file: ConfigFile, writeFails: bool): (r: (map<string, Json>, ConfigFile))
    ensures r.0 == Load(file)
    ensures file.FileMissing? ==> r.0 == Defaults
    ensures r.1 != file ==> file.FileMissing? && r.1 == Saved(Defaults)
    ensures file.FileMissing? && !writeFails ==> r.1 == Saved(Defaults)
  {
    if file.FileMissing? && !writeFails then (Defaults, Saved(Defaults)) else (Load(file), file)
  }

  /** After a first run has written the defaults, later starts read them back and write nothing. */
  lemma FirstRunStable(writeFails: bool)
    ensures var first := Startup(FileMissing, false);
      Startup(first.1, writeFails) == (Defaults, first.1)
  {
    SaveLoadRoundTrip(Defaults);
  }

  /** Loading what was saved gives the same settings back. */
  lemma SaveLoadRoundTrip(values: map<string, Json>)
    requires values.Keys == Defaults.Keys
    ensures Load(Saved(values)) == values
  {
    var r := Load(Saved(values));
    assert forall k :: k in values ==> r[k] == values[k];
  }

  /** After a successful `set`, a restart reads the new value back from the file. */
  lemma SetSurvivesRestart(values: map<string, Json>, key: string, v: Json)
    requires values.Keys == Defaults.Keys
    requires key in values && Validate(key, v).None?
    ensures var c := Set(values, key, v, None);
      c.error.None? && Get(Load(Saved(c.values)), key, JNull) == v
  {
    SaveLoadRoundTrip(Set(values, key, v, None).values);
  }

  /** Loaded values are not validated: a file can put an invalid value, such as an unknown theme, into effect. */
  lemma LoadSkipsValidation(members: map<string, Json>, key: string)
    requires members.Keys <= Defaults.Keys
    requires key in members && Validate(key, members[key]).Some?
    ensures !Valid(Load(FileJson(JObject(members))))
  {
    var r := Load(FileJson(JObject(members)));
    assert r[key] == members[key];
  }

  /** For instance, the theme `neon`. */
  lemma LoadsUnknownTheme()
    ensures !Valid(Load(FileJson(JObject(map[ThemeKey := JStr("neon")]))))
  {
    LoadSkipsValidation(map[ThemeKey := JStr("neon")], ThemeKey);
  }

  /** `update` is not atomic: an accepted entry stays applied when a later one is rejected. */
  lemma UpdateNotAtomic(values: map<string, Json>)
    requires WindowWidthKey in values && ThemeKey in values
    ensures var r := Update(values, [(WindowWidthKey, JInt(1400)), (ThemeKey, JStr("neon"))], _ => None);
      r.error == Some(ThemeMessage) && Get(r.values, WindowWidthKey, JNull) == JInt(1400)
  {
    var save: map<string, Json> -> Option<string> := _ => None;
    var updates := [(WindowWidthKey, JInt(1400)), (ThemeKey, JStr("neon"))];
    var first := Set(values, WindowWidthKey, JInt(1400), None);
    UpdateStep(values, updates, save);
    assert first == Change(values[WindowWidthKey := JInt(1400)], None);
    assert updates[1..] == [(ThemeKey, JStr("neon"))];
    UnknownThemeStops(first.values, save);
  }

  /** An unknown theme stops `update` at once, with the theme message and nothing changed. */
  lemma UnknownThemeStops(values: map<string, Json>, save: map<string, Json> -> Option<string>)
    requires ThemeKey in values
    ensures Update(values, [(ThemeKey, JStr("neon"))], save) == Change(values, Some(ThemeMessage))
  {
    var neon := JStr("neon");
    assert neon !in Themes;
    assert Validate(ThemeKey, neon) == Some(ThemeMessage);
    assert Set(values, ThemeKey, neon, save(values[ThemeKey := neon])) == Change(values, Some(ThemeMessage));
    UpdateStep(values, [(ThemeKey, neon)], save);
  }

  /** One round of `update`'s loop. */
  lemma UpdateStep(values: map<string, Json>, updates: seq<(string, Json)>, save: map<string, Json> -> Option<string>)
    requires |updates| > 0
    ensures var first := Set(values, updates[0].0, updates[0].1, save(values[updates[0].0 := updates[0].1]));
      Update(values, updates, save) == if first.error.Some? then first else Update(first.values, updates[1..], save)
  {
  }

  /** When every entry names a field and passes validation and every save succeeds, `update` applies them all. */
  lemma {:induction false} UpdateAllAccepted(values: map<string, Json>, updates: seq<(string, Json)>)
    requires forall j :: 0 <= j < |updates| ==> updates[j].0 in values && Validate(updates[j].0, updates[j].1).None?
    ensures Update(values, updates, _ => None) == Change(Assign(values, updates), None)
  {
    if |updates| > 0 {
      var first := Set(values, updates[0].0, updates[0].1, None);
      assert first.values.Keys == values.Keys;
      UpdateAllAccepted(first.values, updates[1..]);
    }
  }
}

=== FILE: config_manager.dfy ===
/**
 * The untyped settings store: a dictionary of eight defaults, a working
 * copy merged with the file's contents at start, and unchecked `get`,
 * `set`, `update`, `reset` and `import`. Maps are values here, so every
 * copy the source makes is independent by construction.
 */
module ConfigManager {
  import opened Common
  import opened JsonValue

  /** The eight entries of `default_config`. */
  const ManagerDefaults: map<string, Json> := map[
    "autostart" := JBool(false),
    "notifications_enabled" := JBool(true),
    "critical_notifications" := JBool(true),
    "performance_notifications" := JBool(true),
    "security_notifications" := JBool(true),
    "debug_mode" := JBool(false),
    "log_level" := JStr("INFO"),
    "data_retention_days" := JInt(30)]

  const InvalidFormatMessage := "Invalid configuration format"
  /** What opening a missing file raises (the path that follows it is not modelled). */
  const MissingFileMessage := "[Errno 2] No such file or directory"

  datatype Store = Store(defaultConfig: map<string, Json>, config: map<string, Json>)

  /** A file as read: absent, unreadable (with the exception's text), or parsed. */
  datatype SettingsFile = Absent | Unreadable(msg: string) | Parsed(content: Json)

  /**
   * Construction: the defaults, overridden by every member of the file when
   * it holds an object. A missing or unreadable file, or one holding
   * anything but an object, leaves the defaults.
   */
  function Create(file: SettingsFile): (r: Store)
    ensures r.defaultConfig == ManagerDefaults
    ensures r.config.Keys >= ManagerDefaults.Keys
    ensures file.Parsed? && file.content.JObject? ==>
      r.config.Keys == ManagerDefaults.Keys + file.content.members.Keys &&
      (forall k :: k in file.content.members ==> r.config[k] == file.content.members[k]) &&
      (forall k :: k in ManagerDefaults && k !in file.content.members ==> r.config[k] == ManagerDefaults[k])
    ensures !(file.Parsed? && file.content.JObject?) ==> r.config == ManagerDefaults
  {
    match file
    case Parsed(JObject(members)) => Store(ManagerDefaults, Merge(ManagerDefaults, members))
    case _ => Store(ManagerDefaults, ManagerDefaults)
  }

  /** `get_setting`: the stored value, or `default` for an absent key. */
  function GetSetting(s: Store, key: string, default: Json): (r: Json)
    ensures key in s.config ==> r == s.config[key]
    ensures key !in s.config ==> r == default
  {
    if key in s.config then s.config[key] else default
  }

  /** `set_setting`: unchecked assignment; the key may be new. */
  function SetSetting(s: Store, key: string, v: Json): (r: Store)
    ensures r.defaultConfig == s.defaultConfig
    ensures r.config.Keys == s.config.Keys + {key}
    ensures GetSetting(r, key, JNull) == v
    ensures forall k, d :: k != key ==> GetSetting(r, k, d) == GetSetting(s, k, d)
  {
    s.(config := s.config[key := v])
  }

  /** `update_config`: a right-biased merge with no checks. */
  function UpdateConfig(s: Store, updates: map<string, Json>): (r: Store)
    ensures r.defaultConfig == s.defaultConfig
    ensures forall k, d :: k in updates ==> GetSetting(r, k, d) == updates[k]
    ensures forall k, d :: k !in updates ==> GetSetting(r, k, d) == GetSetting(s, k, d)
  {
    s.(config := Merge(s.config, updates))
  }

  /** `reset_to_defaults`: the working copy becomes `default_config` again. */
  function ResetToDefaults(s: Store): (r: Store)
    ensures r.defaultConfig == s.defaultConfig && r.config == s.defaultConfig
  {
    s.(config := s.defaultConfig)
  }

  /**
   * `export_config` and `save_config`: the file holds the working copy, so
   * a store created from it reads back every stored setting, and is the
   * same store when the working copy has every default key.
   */
  function Export(s: Store): (r: SettingsFile)
    ensures forall k, d :: k in s.config ==> GetSetting(Create(r), k, d) == s.config[k]
    ensures s.config.Keys >= ManagerDefaults.Keys ==> Create(r).config == s.config
  {
    Parsed(JObject(s.config))
  }

  /**
   * `import_config`: an object is merged like `update_config`; anything
   * else raises "Invalid configuration format", and an unreadable file
   * or missing file raises its own error; either way nothing changes.
   */
  function Import(s: Store, file: SettingsFile): (r: (Store, Option<string>))
    ensures r.0.defaultConfig == s.defaultConfig
    ensures r.1.None? <==> file.Parsed? && file.content.JObject?
    ensures r.1.None? ==> r.0 == UpdateConfig(s, file.content.members)
    ensures r.1.Some? ==> r.0 == s
    ensures file.Parsed? && !file.content.JObject? ==> r.1 == Some(InvalidFormatMessage)
  {
    match file
    case Parsed(JObject(members)) => (UpdateConfig(s, members), None)
    case Parsed(_) => (s, Some(InvalidFormatMessage))
    case Unreadable(msg) => (s, Some(msg))
    case Absent => (s, Some(MissingFileMessage))
  }

  /** Importing an exported store reproduces it, when it has every key the importer has. */
  lemma ExportImportRoundTrip(from: Store, into: Store)
    requires into.config.Keys <= from.config.Keys
    ensures Import(into, Export(from)).1.None?
    ensures Import(into, Export(from)).0.config == from.config
  {
  }

  /** The operations a caller can apply to the store. */
  datatype Op =
    | SetOp(key: string, v: Json)
    | UpdateOp(updates: map<string, Json>)
    | ImportOp(file: SettingsFile)
    | ResetOp

  function Apply(s: Store, op: Op): Store {
    match op
    case SetOp(k, v) => SetSetting(s, k, v)
    case UpdateOp(u) => UpdateConfig(s, u)
    case ImportOp(f) => Import(s, f).0
    case ResetOp => ResetToDefaults(s)
  }

  function ApplyAll(s: Store, ops: seq<Op>): (r: Store)
    decreases |ops|
  {
    if |ops| == 0 then s else ApplyAll(Apply(s, ops[0]), ops[1..])
  }

  /**
   * `default_config` is never changed by any sequence of operations, so a
   * reset after any history brings back exactly the eight defaults.
   */
  lemma DefaultsNeverChange(file: SettingsFile, ops: seq<Op>)
    ensures ApplyAll(Create(file), ops).defaultConfig == ManagerDefaults
    ensures ResetToDefaults(ApplyAll(Create(file), ops)).config == ManagerDefaults
  {
    DefaultsKept(Create(file), ops);
  }

  lemma {:induction false} DefaultsKept(s: Store, ops: seq<Op>)
    ensures ApplyAll(s, ops).defaultConfig == s.defaultConfig
    decreases |ops|
  {
    if |ops| > 0 {
      DefaultsKept(Apply(s, ops[0]), ops[1..]);
    }
  }
}

=== FILE: devices.dfy ===
/**
 * Device discovery: turning the line output of `smartctl --scan` and
 * `nvme list` into lists of device paths.
 */
module Devices {
  import opened Common
  import opened PyText
  import opened PySeq

  const SataPrefix := "/dev/sd"
  const NvmePrefix := "/dev/nvme"

  /** The first field of `line` is a device path beginning with `prefix`. */
  predicate ListsDevice(line: string, prefix: string) {
    FirstToken(line).Some? && StartsWith(FirstToken(line).value, prefix)
  }

  /**
   * The first fields, in order, of the lines whose first field begins with
   * `prefix`: the loop shape shared by both scans.
   */
  function DevicesWithPrefix(lines: seq<string>, prefix: string): (r: seq<string>)
    ensures |r| <= |lines|
    ensures |r| == 0 <==> forall i :: 0 <= i < |lines| ==> !ListsDevice(lines[i], prefix)
    ensures forall k :: 0 <= k < |r| ==> StartsWith(r[k], prefix)
  {
    if |lines| == 0 then []
    else
      var rest := DevicesWithPrefix(lines[1..], prefix);
      if ListsDevice(lines[0], prefix) then [FirstToken(lines[0]).value] + rest
      else
        NoneListedStep(lines, prefix);
        rest
  }

  /** When the first line lists nothing, no line does exactly when no later line does. */
  lemma NoneListedStep(lines: seq<string>, prefix: string)
    requires |lines| > 0 && !ListsDevice(lines[0], prefix)
    ensures (forall i :: 0 <= i < |lines| ==> !ListsDevice(lines[i], prefix)) <==>
      (forall i :: 0 <= i < |lines| - 1 ==> !ListsDevice(lines[1..][i], prefix))
  {
    assert forall i :: 1 <= i < |lines| ==> lines[i] == lines[1..][i - 1];
  }

  /** `ListsDevice` for one prefix, as the predicate `Positions` filters by. */
  function Listing(prefix: string): string -> bool {
    (line: string) => ListsDevice(line, prefix)
  }

  /**
   * The devices are the first fields of the lines that list one, one device
   * per such line, in line order: `Positions` gives, for each device, the
   * line it came from.
   */
  lemma DevicesAtListings(lines: seq<string>, prefix: string)
    ensures var r, pos := DevicesWithPrefix(lines, prefix), Positions(lines, Listing(prefix), 0);
      && |r| == |pos|
      && (forall k :: 0 <= k < |r| ==> ListsDevice(lines[pos[k]], prefix) && r[k] == FirstToken(lines[pos[k]]).value)
      && (forall i :: 0 <= i < |lines| && ListsDevice(lines[i], prefix) ==> i in pos)
      && (forall k, l :: 0 <= k < l < |pos| ==> pos[k] < pos[l])
  {
    DevicesFrom(lines, prefix, 0);
    assert lines[0..] == lines;
    PositionsMembers(lines, Listing(prefix), 0);
    var pos := Positions(lines, Listing(prefix), 0);
    forall k | 0 <= k < |pos|
      ensures ListsDevice(lines[pos[k]], prefix)
    {
      assert DeviceOfLine(lines, prefix, pos[k], DevicesWithPrefix(lines, prefix)[k]);
    }
    forall i | 0 <= i < |lines| && ListsDevice(lines[i], prefix)
      ensures i in pos
    {
      assert Listing(prefix)(lines[i]);
    }
  }

  /** Every line that lists a device contributes its first field. */
  lemma ListedDevicesFound(lines: seq<string>, prefix: string)
    ensures forall i :: 0 <= i < |lines| && ListsDevice(lines[i], prefix) ==>
      FirstToken(lines[i]).value in DevicesWithPrefix(lines, prefix)
  {
    DevicesAtListings(lines, prefix);
    var r, pos := DevicesWithPrefix(lines, prefix), Positions(lines, Listing(prefix), 0);
    forall i | 0 <= i < |lines| && ListsDevice(lines[i], prefix)
      ensures FirstToken(lines[i]).value in r
    {
      var k :| 0 <= k < |pos| && pos[k] == i;
      assert r[k] == FirstToken(lines[i]).value;
    }
  }

  /** The devices listed from line `i` on are the first fields of the listing lines from `i` on. */
  lemma {:induction false} DevicesFrom(lines: seq<string>, prefix: string, i: nat)
    requires i <= |lines|
    ensures var r, pos := DevicesWithPrefix(lines[i..], prefix), Positions(lines, Listing(prefix), i);
      && |r| == |pos|
      && forall k :: 0 <= k < |r| ==> DeviceOfLine(lines, prefix, pos[k], r[k])
    decreases |lines| - i
  {
    if i < |lines| {
      DevicesFrom(lines, prefix, i + 1);
      PositionsSplit(lines, Listing(prefix), i);
      DevicesStep(lines[i..], prefix);
      assert lines[i..][0] == lines[i] && lines[i..][1..] == lines[i + 1..];
      var r, rest := DevicesWithPrefix(lines[i..], prefix), DevicesWithPrefix(lines[i + 1..], prefix);
      var pos, prest := Positions(lines, Listing(prefix), i), Positions(lines, Listing(prefix), i + 1);
      if ListsDevice(lines[i], prefix) {
        assert Listing(prefix)(lines[i]);
        assert r == [FirstToken(lines[i]).value] + rest && pos == [i] + prest;
        forall k | 0 <= k < |r|
          ensures DeviceOfLine(lines, prefix, pos[k], r[k])
        {
          if k > 0 {
            assert r[k] == rest[k - 1] && pos[k] == prest[k - 1];
          }
        }
      } else {
        assert !Listing(prefix)(lines[i]);
        assert r == rest && pos == prest;
      }
    } else {
      assert lines[i..] == [];
    }
  }

  /** Line `j` lists a device and `d` is its first field. */
  predicate DeviceOfLine(lines: seq<string>, prefix: string, j: nat, d: string) {
    j < |lines| && ListsDevice(lines[j], prefix) && d == FirstToken(lines[j]).value
  }

  /** One step of the scan loop: the first line's device, if it lists one, then the rest. */
  lemma DevicesStep(lines: seq<string>, prefix: string)
    requires |lines| > 0
    ensures DevicesWithPrefix(lines, prefix) ==
      (if ListsDevice(lines[0], prefix) then [FirstToken(lines[0]).value] else []) + DevicesWithPrefix(lines[1..], prefix)
  {
  }

  /** SATA disks: lines of `smartctl --scan` whose first field starts with `/dev/sd`. */
  function SataDevices(lines: seq<string>): (r: seq<string>)
    ensures forall k :: 0 <= k < |r| ==> StartsWith(r[k], SataPrefix)
    ensures forall i :: 0 <= i < |lines| && ListsDevice(lines[i], SataPrefix) ==> FirstToken(lines[i]).value in r
    ensures |r| == 0 <==> forall i :: 0 <= i < |lines| ==> !ListsDevice(lines[i], SataPrefix)
  {
    ListedDevicesFound(lines, SataPrefix);
    DevicesWithPrefix(lines, SataPrefix)
  }

  /**
   * NVMe disks, parsed as `nvme list` output is: every line is stripped;
   * blank lines, the `Node…` header and `-…` separator lines are skipped;
   * of the rest, first fields starting with `/dev/nvme` are kept.
   */
  function NvmeDevices(lines: seq<string>): seq<string> {
    if |lines| == 0 then []
    else
      var line := Strip(lines[0]);
      var rest := NvmeDevices(lines[1..]);
      if line == [] || StartsWith(line, "Node") || StartsWith(line, "-") then rest
      else if ListsDevice(line, NvmePrefix) then [FirstToken(line).value] + rest
      else rest
  }

  /**
   * The NVMe scan yields `/dev/nvme` paths only, the first field of every
   * line that lists one, and nothing only when no line does.
   */
  lemma NvmeDevicesListed(lines: seq<string>)
    ensures forall k :: 0 <= k < |NvmeDevices(lines)| ==> StartsWith(NvmeDevices(lines)[k], NvmePrefix)
    ensures forall i :: 0 <= i < |lines| && ListsDevice(lines[i], NvmePrefix) ==> FirstToken(lines[i]).value in NvmeDevices(lines)
    ensures |NvmeDevices(lines)| == 0 <==> forall i :: 0 <= i < |lines| ==> !ListsDevice(lines[i], NvmePrefix)
  {
    NvmeDevicesIgnoreHeaders(lines);
    ListedDevicesFound(lines, NvmePrefix);
  }

  /** A non-blank line's first field begins with its first character. */
  lemma FirstTokenHead(line: string)
    requires line != [] && !IsSpace(line[0])
    ensures FirstToken(line).Some? && FirstToken(line).value[0] == line[0]
  {
  }

  /** The NVMe parser's verdict on one line: the device path it contributes, if any. */
  function NvmeLine(raw: string): Option<string> {
    var line := Strip(raw);
    if line == [] || StartsWith(line, "Node") || StartsWith(line, "-") then None
    else if ListsDevice(line, NvmePrefix) then Some(FirstToken(line).value)
    else None
  }

  /** A header or separator line never names an NVMe device. */
  lemma HeaderNotDevice(line: string)
    requires line != [] && !IsSpace(line[0])
    requires StartsWith(line, "Node") || StartsWith(line, "-")
    ensures !ListsDevice(line, NvmePrefix)
  {
    FirstTokenHead(line);
    assert line[0] == 'N' || line[0] == '-';
    assert NvmePrefix[0] == '/';
  }

  /** On a single line, skipping headers agrees with the plain first-field test. */
  lemma NvmeLineAgrees(raw: string)
    ensures NvmeLine(raw) == (if ListsDevice(raw, NvmePrefix) then Some(FirstToken(raw).value) else None)
  {
    var line := Strip(raw);
    FirstTokenOfStrip(raw);
    assert ListsDevice(line, NvmePrefix) == ListsDevice(raw, NvmePrefix);
    if line != [] && (StartsWith(line, "Node") || StartsWith(line, "-")) {
      HeaderNotDevice(line);
    }
  }

  /**
   * Skipping blank, header and separator lines changes nothing: the NVMe
   * parser keeps exactly the lines whose first field starts with `/dev/nvme`.
   */
  lemma {:induction false} NvmeDevicesIgnoreHeaders(lines: seq<string>)
    ensures NvmeDevices(lines) == DevicesWithPrefix(lines, NvmePrefix)
  {
    if |lines| > 0 {
      NvmeDevicesIgnoreHeaders(lines[1..]);
      NvmeLineAgrees(lines[0]);
      assert NvmeDevices(lines) == (match NvmeLine(lines[0])
        case Some(d) => [d] + NvmeDevices(lines[1..])
        case None => NvmeDevices(lines[1..]));
    }
  }
}

=== FILE: execution.dfy ===
/**
 * The three ways a task's commands are carried out: one elevated batch
 * script, one command at a time, or one diagnostic per discovered device.
 * Each turns oracle outcomes into the `(success, output, error)` verdict.
 */
module Execution {
  import opened Common
  import opened PyText
  import opened MaintenanceTypes

  const SudoPrefix := "sudo "
  const PkexecPrefix := "pkexec "

  // ---------------------------------------------------------------------
  // Batch script
  // ---------------------------------------------------------------------

  const ScriptHeader: seq<string> := ["#!/bin/bash", "set -e", "echo 'Starting maintenance commands...'"]
  const ScriptFooter := "echo 'All commands completed successfully'"

  /** A command as written into the batch script: every `sudo ` removed, since the script runs elevated. */
  function CleanCommand(command: string): string {
    RemoveAll(command, SudoPrefix)
  }

  /** The three script lines for command number `n` (counting from 1). */
  function CommandBlock(n: nat, command: string): seq<string> {
    var clean := CleanCommand(command);
    ["echo 'Executing command " + NatToString(n) + ": " + clean + "'",
     clean,
     "echo 'Command " + NatToString(n) + " completed'"]
  }

  function CommandBlocks(commands: seq<string>, first: nat): (r: seq<string>)
    ensures |r| == 3 * |commands|
    ensures forall i :: 0 <= i < |commands| ==> r[3 * i + 1] == CleanCommand(commands[i])
  {
    if |commands| == 0 then []
    else CommandBlock(first, commands[0]) + CommandBlocks(commands[1..], first + 1)
  }

  /**
   * The lines of the temporary script: a `set -e` preamble, then for each
   * command an announcement, the command without `sudo `, a completion echo;
   * then a closing echo.
   */
  function ScriptLines(commands: seq<string>): (r: seq<string>)
    ensures |r| == 3 * |commands| + 4
    ensures r[..3] == ScriptHeader && r[|r| - 1] == ScriptFooter
    ensures forall i :: 0 <= i < |commands| ==> r[3 + 3 * i + 1] == CleanCommand(commands[i])
  {
    ScriptHeader + CommandBlocks(commands, 1) + [ScriptFooter]
  }

  /**
   * Runs the script once under elevation. Success is exit status zero; the
   * error is the captured stderr on failure and absent on success; an
   * exception or timeout yields `(false, "", message)`.
   */
  function RunBatch(commands: seq<string>, runScript: seq<string> -> Outcome): (x: Exec)
    ensures x.success <==> Succeeded(runScript(ScriptLines(commands)))
    ensures x.success <==> x.error.None?
    ensures runScript(ScriptLines(commands)).Exit? ==>
      x.output == runScript(ScriptLines(commands)).stdout &&
      (!x.success ==> x.error == Some(runScript(ScriptLines(commands)).stderr))
    ensures !runScript(ScriptLines(commands)).Exit? ==>
      x == Exec(false, "", Some(runScript(ScriptLines(commands)).msg))
  {
    match runScript(ScriptLines(commands))
    case Exit(code, out, err) => Exec(code == 0, out, if code == 0 then None else Some(err))
    case TimedOut(m) => Exec(false, "", Some(m))
    case Raised(m) => Exec(false, "", Some(m))
  }

  /** The builder's removal is one left-to-right pass: it can splice a new `sudo ` together. */
  lemma CleanCommandCanLeaveSudo()
    ensures CleanCommand("susudo do ") == "sudo "
  {
    var s := "susudo do ";
    assert s[..5][2] != SudoPrefix[2];
    assert s[1..][..5][1] != SudoPrefix[1];
    assert s[2..][..5] == SudoPrefix;
    assert s[7..] == "do ";
    assert RemoveAll("do ", SudoPrefix) == "do ";
    calc {
      CleanCommand(s);
      [s[0]] + RemoveAll(s[1..], SudoPrefix);
      [s[0]] + ([s[1]] + RemoveAll(s[2..], SudoPrefix));
      [s[0]] + ([s[1]] + RemoveAll(s[7..], SudoPrefix));
    }
  }

  // ---------------------------------------------------------------------
  // One command at a time
  // ---------------------------------------------------------------------

  /**
   * The command line actually run for a task: unchanged unless the task
   * needs elevation; then a leading `sudo ` becomes `pkexec `, and any other
   * command not already starting with `pkexec ` gets it prepended.
   */
  function Elevate(command: string, requiresSudo: bool): (r: string)
    ensures !requiresSudo ==> r == command
    ensures requiresSudo ==> StartsWith(r, PkexecPrefix)
    ensures requiresSudo && StartsWith(command, PkexecPrefix) ==> r == command
    ensures requiresSudo && StartsWith(command, SudoPrefix) ==> r == PkexecPrefix + command[|SudoPrefix|..]
    ensures requiresSudo && !StartsWith(command, SudoPrefix) && !StartsWith(command, PkexecPrefix) ==>
      r == PkexecPrefix + command
  {
    if !requiresSudo then command
    else if StartsWith(command, SudoPrefix) then
      assert command[0] == SudoPrefix[0] != PkexecPrefix[0];
      PkexecPrefix + command[|SudoPrefix|..]
    else if StartsWith(command, PkexecPrefix) then command
    else PkexecPrefix + command
  }

  /** Rewriting an already rewritten command changes nothing. */
  lemma ElevateIdempotent(command: string)
    ensures Elevate(Elevate(command, true), true) == Elevate(command, true)
  {
    var r := Elevate(command, true);
    assert r[0] == 'p';
  }

  /** The error text the per-command loop records for a failed command. */
  function FailureMessage(command: string, o: Outcome): string
    requires !Succeeded(o)
  {
    match o
    case Exit(_, _, err) => "Command failed: " + err
    case TimedOut(_) => "Command timed out: " + command
    case Raised(m) => "Command failed: " + m
  }

  /** The output text appended for one command. */
  function Transcript(command: string, o: Outcome): string {
    match o
    case Exit(code, out, err) =>
      if code != 0 then "Command: " + command + "\nError: " + err + "\n"
      else "Command: " + command + "\nOutput: " + out + "\n"
    case TimedOut(_) => "Command: " + command + "\nError: Timeout\n"
    case Raised(m) => "Command: " + command + "\nError: " + m + "\n"
  }

  /**
   * The whole output text of the per-command loop: each command's
   * transcript, first command first.
   */
  function Transcripts(sent: seq<string>, outs: seq<Outcome>): string
    requires |sent| == |outs|
  {
    if |sent| == 0 then "" else Transcript(sent[0], outs[0]) + Transcripts(sent[1..], outs[1..])
  }

  /** Appending a command appends its transcript. */
  lemma {:induction false} TranscriptsSnoc(sent: seq<string>, outs: seq<Outcome>)
    requires |sent| == |outs| > 0
    ensures var n := |sent| - 1;
      Transcripts(sent, outs) == Transcripts(sent[..n], outs[..n]) + Transcript(sent[n], outs[n])
  {
    var n := |sent| - 1;
    if n > 0 {
      TranscriptsSnoc(sent[1..], outs[1..]);
      assert sent[1..][..n - 1] == sent[..n][1..] && outs[1..][..n - 1] == outs[..n][1..];
      assert sent[1..][n - 1] == sent[n] && outs[1..][n - 1] == outs[n];
      assert sent[..n][0] == sent[0] && outs[..n][0] == outs[0];
    } else {
      assert sent[..n] == [] && outs[..n] == [];
    }
  }

  /** `j` is the last position whose outcome is a failure. */
  predicate IsLastFailure(outs: seq<Outcome>, j: int) {
    0 <= j < |outs| && !Succeeded(outs[j]) && forall k :: j < k < |outs| ==> Succeeded(outs[k])
  }

  /**
   * What the per-command loop promises of its verdict `x` on the commands
   * sent and their outcomes: it succeeds iff every command succeeded, it
   * carries an error iff it failed, and that error is the last failure's.
   */
  predicate LoopVerdict(sent: seq<string>, outs: seq<Outcome>, x: Exec)
    requires |sent| == |outs|
  {
    && (x.success <==> forall i :: 0 <= i < |outs| ==> Succeeded(outs[i]))
    && (x.success <==> x.error.None?)
    && (!x.success ==> exists j :: 0 <= j < |outs| && IsLastFailure(outs, j) && x.error == Some(FailureMessage(sent[j], outs[j])))
  }

  /** One pass of the loop body: log the command, and on failure record its message. */
  function EachStep(acc: Exec, command: string, o: Outcome): Exec {
    var output := acc.output + Transcript(command, o);
    if Succeeded(o) then Exec(acc.success, output, acc.error)
    else Exec(false, output, Some(FailureMessage(command, o)))
  }

  /**
   * The per-command loop over already rewritten commands and their outcomes.
   * Every command is attempted whatever happened before; the task fails iff
   * some command failed, and the recorded error is the last failure's.
   */
  function RunEach(sent: seq<string>, outs: seq<Outcome>): (x: Exec)
    requires |sent| == |outs|
    ensures LoopVerdict(sent, outs, x)
    decreases |sent|
  {
    if |sent| == 0 then Exec(true, "", None)
    else
      var n := |sent| - 1;
      var acc := RunEach(sent[..n], outs[..n]);
      VerdictStep(sent, outs, acc);
      EachStep(acc, sent[n], outs[n])
  }

  /** A loop body pass keeps the verdict true of one more command. */
  lemma VerdictStep(sent: seq<string>, outs: seq<Outcome>, acc: Exec)
    requires |sent| == |outs| > 0
    requires var n := |sent| - 1; LoopVerdict(sent[..n], outs[..n], acc)
    ensures var n := |sent| - 1; LoopVerdict(sent, outs, EachStep(acc, sent[n], outs[n]))
  {
    var n := |sent| - 1;
    assert forall i :: 0 <= i < n ==> outs[..n][i] == outs[i];
    if Succeeded(outs[n]) {
      LastFailureExtends(sent, outs, acc.error);
    } else {
      assert IsLastFailure(outs, n);
    }
  }

  /** The loop's output is every command's transcript, first command first. */
  lemma {:induction false} RunEachOutput(sent: seq<string>, outs: seq<Outcome>)
    requires |sent| == |outs|
    ensures RunEach(sent, outs).output == Transcripts(sent, outs)
    decreases |sent|
  {
    if |sent| > 0 {
      var n := |sent| - 1;
      RunEachOutput(sent[..n], outs[..n]);
      TranscriptsSnoc(sent, outs);
    }
  }

  /** A last failure among the first n outcomes stays last when a success follows. */
  lemma LastFailureExtends(sent: seq<string>, outs: seq<Outcome>, err: Option<string>)
    requires |sent| == |outs| > 0 && Succeeded(outs[|outs| - 1])
    requires var n := |outs| - 1;
      err.Some? ==> exists j :: IsLastFailure(outs[..n], j) && err == Some(FailureMessage(sent[..n][j], outs[..n][j]))
    ensures err.Some? ==> exists j :: IsLastFailure(outs, j) && err == Some(FailureMessage(sent[j], outs[j]))
  {
    var n := |outs| - 1;
    if err.Some? {
      var j :| IsLastFailure(outs[..n], j) && err == Some(FailureMessage(sent[..n][j], outs[..n][j]));
      assert IsLastFailure(outs, j);
    }
  }

  /**
   * The commands a task actually sends, in order: all of them unchanged
   * for a task without elevation, all of them behind `pkexec ` otherwise.
   */
  function SentCommands(commands: seq<string>, requiresSudo: bool): (r: seq<string>)
    ensures |r| == |commands|
    ensures forall i :: 0 <= i < |r| ==> r[i] == Elevate(commands[i], requiresSudo)
    ensures !requiresSudo ==> r == commands
    ensures requiresSudo ==> forall i :: 0 <= i < |r| ==> StartsWith(r[i], PkexecPrefix)
  {
    if |commands| == 0 then []
    else [Elevate(commands[0], requiresSudo)] + SentCommands(commands[1..], requiresSudo)
  }

  /** Rewriting the commands a second time sends the same commands. */
  lemma SentCommandsIdempotent(commands: seq<string>)
    ensures SentCommands(SentCommands(commands, true), true) == SentCommands(commands, true)
  {
    var once := SentCommands(commands, true);
    forall i | 0 <= i < |once|
      ensures SentCommands(once, true)[i] == once[i]
    {
      ElevateIdempotent(commands[i]);
    }
  }

  /** What the runner answers for each command, in order. */
  function Outcomes(sent: seq<string>, run: string -> Outcome): (r: seq<Outcome>)
    ensures |r| == |sent|
    ensures forall i :: 0 <= i < |r| ==> r[i] == run(sent[i])
  {
    if |sent| == 0 then [] else [run(sent[0])] + Outcomes(sent[1..], run)
  }

  /** Executes the task's commands individually through the runner. */
  function RunCommands(commands: seq<string>, requiresSudo: bool, run: string -> Outcome): Exec {
    var sent := SentCommands(commands, requiresSudo);
    RunEach(sent, Outcomes(sent, run))
  }

  // ---------------------------------------------------------------------
  // One diagnostic per device
  // ---------------------------------------------------------------------

  /** The position of the first outcome that is a timeout or exception, if any. */
  predicate IsFirstAbort(outs: seq<Outcome>, k: int) {
    0 <= k < |outs| && !outs[k].Exit? && forall i :: 0 <= i < k ==> outs[i].Exit?
  }

  /** The running verdict keeps its error exactly when it has failed. */
  predicate Coherent(x: Exec) {
    x.success <==> x.error.None?
  }

  /**
   * Runs the diagnostic for each device in turn. A non-zero exit fails the
   * task and records its stderr but the loop goes on; a timeout or exception
   * ends the loop and becomes the error.
   */
  function CheckEach(acc: Exec, devs: seq<string>, outs: seq<Outcome>): (x: Exec)
    requires |devs| == |outs|
    requires Coherent(acc)
    ensures Coherent(x)
    ensures x.success <==> acc.success && forall i :: 0 <= i < |outs| ==> Succeeded(outs[i])
    ensures forall k :: IsFirstAbort(outs, k) ==> x.error == Some(outs[k].msg)
    decreases |devs|
  {
    if |devs| == 0 then acc
    else
      assert forall i :: 1 <= i < |outs| ==> outs[i] == outs[1..][i - 1];
      match outs[0]
      case Exit(code, out, err) =>
        var next := Exec(acc.success && code == 0,
                         acc.output + "Device: " + devs[0] + "\n" + out + "\n",
                         if code == 0 then acc.error else Some(err));
        var x := CheckEach(next, devs[1..], outs[1..]);
        assert forall k :: IsFirstAbort(outs, k) ==> IsFirstAbort(outs[1..], k - 1);
        x
      case TimedOut(m) =>
        assert IsFirstAbort(outs, 0);
        Exec(false, acc.output, Some(m))
      case Raised(m) =>
        assert IsFirstAbort(outs, 0);
        Exec(false, acc.output, Some(m))
  }

  /**
   * When every diagnostic exits, a failed check reports the stderr of the
   * last device whose exit status was non-zero, or keeps the error it came
   * in with when all of them passed.
   */
  lemma {:induction false} CheckEachLastFailure(acc: Exec, devs: seq<string>, outs: seq<Outcome>)
    requires |devs| == |outs| && Coherent(acc)
    requires forall i :: 0 <= i < |outs| ==> outs[i].Exit?
    ensures var x := CheckEach(acc, devs, outs);
      !x.success ==>
        (exists j :: IsLastFailure(outs, j) && x.error == Some(outs[j].stderr)) ||
        (x.error == acc.error && forall i :: 0 <= i < |outs| ==> Succeeded(outs[i]))
    decreases |devs|
  {
    if |devs| > 0 {
      var o := outs[0];
      var next := Exec(acc.success && o.code == 0,
                       acc.output + "Device: " + devs[0] + "\n" + o.stdout + "\n",
                       if o.code == 0 then acc.error else Some(o.stderr));
      assert forall i :: 1 <= i < |outs| ==> outs[i] == outs[1..][i - 1];
      CheckEachLastFailure(next, devs[1..], outs[1..]);
      var x := CheckEach(acc, devs, outs);
      assert x == CheckEach(next, devs[1..], outs[1..]);
      if !x.success {
        if exists j :: IsLastFailure(outs[1..], j) && x.error == Some(outs[1..][j].stderr) {
          var j :| IsLastFailure(outs[1..], j) && x.error == Some(outs[1..][j].stderr);
          assert IsLastFailure(outs, j + 1);
        } else if o.code != 0 {
          assert IsLastFailure(outs, 0);
        }
      }
    }
  }

  /** Runs `prefix + device` for every discovered device. */
  function CheckDevices(devs: seq<string>, prefix: string, run: string -> Outcome): Exec {
    var sent := seq(|devs|, i requires 0 <= i < |devs| => prefix + devs[i]);
    CheckEach(Exec(true, "", None), devs, Outcomes(sent, run))
  }
}

=== FILE: json_value.dfy ===
/**
 * The values a configuration holds: whatever `json.load` can produce,
 * which is also what the callers pass to the setters. Python's `bool` is a
 * subclass of `int`, so the numeric views below accept booleans too.
 */
module JsonValue {
  import opened Common

  datatype Json =
    | JNull
    | JBool(b: bool)
    | JInt(i: int)
    | JFloat(f: real)
    | JStr(s: string)
    | JList(items: seq<Json>)
    | JObject(members: map<string, Json>)

  /** `isinstance(v, int)`, with the integer it denotes (`True` is 1). */
  function AsInt(v: Json): (r: Option<int>)
    ensures r.Some? <==> v.JInt? || v.JBool?
  {
    match v
    case JInt(i) => Some(i)
    case JBool(b) => Some(if b then 1 else 0)
    case _ => None
  }

  /** `isinstance(v, (int, float))`, with the number it denotes. */
  function AsNumber(v: Json): (r: Option<real>)
    ensures r.Some? <==> v.JInt? || v.JBool? || v.JFloat?
    ensures AsInt(v).Some? ==> r == Some(AsInt(v).value as real)
  {
    match v
    case JFloat(f) => Some(f)
    case JInt(i) => Some(i as real)
    case JBool(b) => Some(if b then 1.0 else 0.0)
    case _ => None
  }

  /** Python's `dict.update`: the right-hand entries win, every other left-hand entry stays. */
  function Merge(base: map<string, Json>, updates: map<string, Json>): (r: map<string, Json>)
    ensures r.Keys == base.Keys + updates.Keys
    ensures forall k :: k in updates ==> r[k] == updates[k]
    ensures forall k :: k in base && k !in updates ==> r[k] == base[k]
  {
    base + updates
  }
}

=== FILE: maintenance.dfy ===
/**
 * The maintenance manager: the catalog with its runtime fields, the result
 * history, the capability flags and the two files it writes, together with
 * `run_task`, the startup device scan, scheduling and history access.
 * Every command, scan, clock reading and duration is an input.
 */
module Maintenance {
  import opened Common
  import opened PyText
  import opened PySeq
  import opened MaintenanceTypes
  import opened Registry
  import opened Devices
  import opened Execution
  import opened Persistence

  datatype Manager = Manager(
    tasks: seq<Task>,
    history: seq<MaintenanceResult>,
    flags: Flags,
    stateFile: Option<StateDoc>,
    historyFile: Option<HistoryDoc>)

  /**
   * Everything one run observes from outside: the start time (stored as
   * `last_run`), the elapsed time, the time the result is stamped with, the
   * outcome of each shell command line, the outcome of a batch script given
   * its lines, and the two device listings.
   */
  datatype Env = Env(
    start: nat,
    duration: nat,
    finish: nat,
    run: string -> Outcome,
    runScript: seq<string> -> Outcome,
    sataScan: ScanOutcome,
    nvmeScan: ScanOutcome)

  const NoSataMessage := "No supported disks found for SMART health check."
  const NoNvmeMessage := "No NVMe devices found for health check."
  const SmartctlCommand := "pkexec smartctl -a "
  const NvmeCommand := "pkexec nvme smart-log "
  const FirmwareMarker := "0 local devices supported"
  const SmartctlMissingMarker := "Command 'smartctl' not found"

  /** The state file holds exactly the current `last_run` values and flags. */
  predicate StateInSync(m: Manager) {
    m.stateFile == Some(SaveState(m.tasks, m.flags))
  }

  /** `_save_last_run_state`. */
  function Save(m: Manager): Manager {
    m.(stateFile := Some(SaveState(m.tasks, m.flags)))
  }

  /** The message `MaintenanceError` carries once the public method has wrapped it. */
  function NotFound(action: string, id: string): string {
    "Failed to " + action + " '" + id + "': Task '" + id + "' not found"
  }

  /** The `result` text a finished task keeps. */
  function Verdict(success: bool, error: Option<string>): string {
    if success then "Success" else "Failed: " + ErrorText(error)
  }

  // ---------------------------------------------------------------------
  // run_task
  // ---------------------------------------------------------------------

  datatype Route = Batch | SataCheck | NvmeCheck | PerCommand

  /** Which execution path a task takes. */
  function RouteOf(t: Task): Route {
    if t.requiresSudo && |t.commands| > 1 && t.id != CheckDiskHealth && t.id != CheckNvmeHealth then Batch
    else if t.id == CheckDiskHealth then SataCheck
    else if t.id == CheckNvmeHealth then NvmeCheck
    else PerCommand
  }

  /** Marks the task running, stamps `last_run` and saves the state before anything runs. */
  function Begin(m: Manager, i: nat, start: nat): (r: Manager)
    requires i < |m.tasks|
    ensures StateInSync(r) && r.stateFile.value.lastRun.LastRunMap?
    ensures r.tasks == m.tasks[i := m.tasks[i].(status := Running, lastRun := Some(start))]
    ensures r.history == m.history && r.historyFile == m.historyFile && r.flags == m.flags
  {
    Save(m.(tasks := m.tasks[i := m.tasks[i].(status := Running, lastRun := Some(start))]))
  }

  /**
   * The SATA health check: list the disks, record whether any exist and
   * whether none do, save, and run `smartctl -a` on each. A failing listing
   * becomes the error and changes no flag.
   */
  function SataPath(m: Manager, run: string -> Outcome, scan: ScanOutcome): (r: (Manager, Exec))
    ensures Coherent(r.1)
    ensures r.0.tasks == m.tasks && r.0.history == m.history && r.0.historyFile == m.historyFile
    ensures r.0.flags == m.flags.(hasSataDevices := r.0.flags.hasSataDevices,
                                  noSmartDevicesFound := r.0.flags.noSmartDevicesFound)
    ensures StateInSync(m) ==> StateInSync(r.0)
  {
    match scan
    case ScanRaised(msg) => (m, Exec(false, "", Some(msg)))
    case Scanned(lines) =>
      var devs := SataDevices(lines);
      if |devs| == 0 then
        (Save(m.(flags := m.flags.(hasSataDevices := false, noSmartDevicesFound := true))),
         Exec(false, "", Some(NoSataMessage)))
      else
        (Save(m.(flags := m.flags.(hasSataDevices := true, noSmartDevicesFound := false))),
         CheckDevices(devs, SmartctlCommand, run))
  }

  /** The NVMe health check: as the SATA one, but only `has_nvme_devices` is recorded. */
  function NvmePath(m: Manager, run: string -> Outcome, scan: ScanOutcome): (r: (Manager, Exec))
    ensures Coherent(r.1)
    ensures r.0.tasks == m.tasks && r.0.history == m.history && r.0.historyFile == m.historyFile
    ensures r.0.flags == m.flags.(hasNvmeDevices := r.0.flags.hasNvmeDevices)
    ensures StateInSync(m) ==> StateInSync(r.0)
  {
    match scan
    case ScanRaised(msg) => (m, Exec(false, "", Some(msg)))
    case Scanned(lines) =>
      var devs := NvmeDevices(lines);
      if |devs| == 0 then
        (Save(m.(flags := m.flags.(hasNvmeDevices := false))), Exec(false, "", Some(NoNvmeMessage)))
      else
        (Save(m.(flags := m.flags.(hasNvmeDevices := true))), CheckDevices(devs, NvmeCommand, run))
  }

  function Dispatch(m: Manager, t: Task, env: Env): (r: (Manager, Exec))
    ensures Coherent(r.1)
    ensures r.0.tasks == m.tasks && r.0.history == m.history && r.0.historyFile == m.historyFile
    ensures StateInSync(m) ==> StateInSync(r.0)
    ensures t.id != CheckDiskHealth && t.id != CheckNvmeHealth ==> r.0 == m
    ensures t.id == CheckDiskHealth ==>
      r.0.flags == m.flags.(hasSataDevices := r.0.flags.hasSataDevices, noSmartDevicesFound := r.0.flags.noSmartDevicesFound)
    ensures t.id == CheckNvmeHealth ==> r.0.flags == m.flags.(hasNvmeDevices := r.0.flags.hasNvmeDevices)
  {
    match RouteOf(t)
    case Batch => (m, RunBatch(t.commands, env.runScript))
    case SataCheck => SataPath(m, env.run, env.sataScan)
    case NvmeCheck => NvmePath(m, env.run, env.nvmeScan)
    case PerCommand => (m, RunCommands(t.commands, t.requiresSudo, env.run))
  }

  /** After the firmware update, the flag records whether the tool reported no supported device. */
  function FirmwareCheck(m: Manager, id: string, x: Exec): (r: Manager)
    ensures r.tasks == m.tasks && r.history == m.history && r.historyFile == m.historyFile
    ensures StateInSync(m) ==> StateInSync(r)
    ensures id != UpdateFirmware ==> r == m
    ensures id == UpdateFirmware ==> r.flags.firmwareNoSupportedHardware == Contains(x.output, FirmwareMarker)
  {
    if id == UpdateFirmware then
      Save(m.(flags := m.flags.(firmwareNoSupportedHardware := Contains(x.output, FirmwareMarker))))
    else m
  }

  /** Whether a run's error or output shows that `smartctl` is not installed. */
  predicate ReportsSmartctlMissing(output: string, error: Option<string>) {
    (error.Some? && Contains(error.value, SmartctlMissingMarker)) || Contains(output, SmartctlMissingMarker)
  }

  /** After the disk health check, the flag records whether `smartctl` was reported missing. */
  function SmartctlCheck(m: Manager, id: string, x: Exec): (r: Manager)
    ensures r.tasks == m.tasks && r.history == m.history && r.historyFile == m.historyFile
    ensures StateInSync(m) ==> StateInSync(r)
    ensures id != CheckDiskHealth ==> r == m
    ensures id == CheckDiskHealth ==> r.flags.smartctlNotFound == ReportsSmartctlMissing(x.output, x.error)
  {
    if id == CheckDiskHealth then
      Save(m.(flags := m.flags.(smartctlNotFound := ReportsSmartctlMissing(x.output, x.error))))
    else m
  }

  /** Sets the final status and result, appends the result to the history and saves the history. */
  function Finish(m: Manager, i: nat, x: Exec, env: Env): (r: (Manager, MaintenanceResult))
    requires i < |m.tasks|
  {
    var t := m.tasks[i].(status := if x.success then Completed else Failed,
                         result := Some(Verdict(x.success, x.error)));
    var res := MaintenanceResult(m.tasks[i].id, x.success, x.output, x.error, env.duration, env.finish);
    var h := m.history + [res];
    (m.(tasks := m.tasks[i := t], history := h, historyFile := Some(SaveHistory(h))), res)
  }

  /**
   * `Finish` records the run: one result naming the task, with the run's
   * verdict and times, appended to the history, which is saved; the task's
   * status and result set from the verdict; nothing else touched.
   */
  lemma FinishRecords(m: Manager, i: nat, x: Exec, env: Env)
    requires i < |m.tasks|
    ensures var (m', res) := Finish(m, i, x, env);
      && res.taskId == m.tasks[i].id && res.success == x.success && res.error == x.error
      && res.duration == env.duration && res.timestamp == env.finish
      && m'.history == m.history + [res] && m'.historyFile == Some(SaveHistory(m'.history))
      && |m'.tasks| == |m.tasks| && Ids(m'.tasks) == Ids(m.tasks)
      && m'.tasks[i].status == (if x.success then Completed else Failed)
      && m'.tasks[i].result == Some(Verdict(x.success, x.error))
      && m'.tasks[i].lastRun == m.tasks[i].lastRun
      && m'.flags == m.flags && m'.stateFile == m.stateFile
      && forall k :: 0 <= k < |m.tasks| && k != i ==> m'.tasks[k] == m.tasks[k]
  {
  }

  /**
   * What a completed `run_task` of the task at `i` leaves behind: one new
   * result for that task, stamped with the run's times, whose success and
   * error agree; the task finished with the matching status and result text
   * and `last_run` set to the start; no other task touched; the history file
   * rewritten and the state file holding the current `last_run` values and flags.
   */
  predicate Recorded(m: Manager, m': Manager, i: nat, res: MaintenanceResult, env: Env)
    requires i < |m.tasks|
  {
    && res.taskId == m.tasks[i].id
    && res.duration == env.duration && res.timestamp == env.finish
    && (res.success <==> res.error.None?)
    && m'.history == m.history + [res]
    && m'.historyFile == Some(SaveHistory(m'.history))
    && |m'.tasks| == |m.tasks|
    && m'.tasks[i] == m.tasks[i].(status := if res.success then Completed else Failed,
                                  lastRun := Some(env.start),
                                  result := Some(Verdict(res.success, res.error)))
    && (forall j :: 0 <= j < |m.tasks| && j != i ==> m'.tasks[j] == m.tasks[j])
    && StateInSync(m')
  }

  /** The three steps after dispatch: flag sniffing, then recording. */
  function Complete(m: Manager, i: nat, x: Exec, env: Env): (r: (Manager, MaintenanceResult))
    requires i < |m.tasks|
  {
    Finish(SmartctlCheck(FirmwareCheck(m, m.tasks[i].id, x), m.tasks[i].id, x), i, x, env)
  }

  /** A run of the task at `i`, from `Begin` to `Finish`. */
  function Perform(m: Manager, i: nat, env: Env): (r: (Manager, MaintenanceResult))
    requires i < |m.tasks|
    ensures r.1.taskId == m.tasks[i].id
  {
    var m1 := Begin(m, i, env.start);
    var d := Dispatch(m1, m1.tasks[i], env);
    Complete(d.0, i, d.1, env)
  }

  lemma PerformRecorded(m: Manager, i: nat, env: Env)
    requires i < |m.tasks|
    ensures Recorded(m, Perform(m, i, env).0, i, Perform(m, i, env).1, env)
  {
    var m1 := Begin(m, i, env.start);
    var d := Dispatch(m1, m1.tasks[i], env);
    CompleteRecords(m, d.0, i, d.1, env);
  }

  lemma CompleteRecords(m: Manager, m2: Manager, i: nat, x: Exec, env: Env)
    requires i < |m.tasks| && Coherent(x) && StateInSync(m2)
    requires m2.tasks == m.tasks[i := m.tasks[i].(status := Running, lastRun := Some(env.start))]
    requires m2.history == m.history
    ensures Recorded(m, Complete(m2, i, x, env).0, i, Complete(m2, i, x, env).1, env)
  {
    var m3 := SmartctlCheck(FirmwareCheck(m2, m2.tasks[i].id, x), m2.tasks[i].id, x);
    var m4 := Finish(m3, i, x, env).0;
    SaveStateIgnoresRuntimeFields(m3.tasks, m4.tasks, m3.flags);
  }

  /**
   * `run_task`. An unknown id fails with the wrapped not-found message and
   * changes nothing; a known one always yields a result for that task, even
   * when its commands fail (`RunTaskRecorded` says what is recorded).
   */
  function RunTask(m: Manager, id: string, env: Env): (r: (Manager, Result<MaintenanceResult>))
    ensures !HasId(m.tasks, id) ==> r.0 == m && r.1 == Err(NotFound("run task", id))
    ensures HasId(m.tasks, id) ==> r.1.Ok? && r.1.value.taskId == id
  {
    if !HasId(m.tasks, id) then (m, Err(NotFound("run task", id)))
    else
      var p := Perform(m, IndexOf(m.tasks, id), env);
      (p.0, Ok(p.1))
  }

  /** A run of a known task is recorded as `Recorded` describes, whatever its commands did. */
  lemma RunTaskRecorded(m: Manager, id: string, env: Env)
    requires HasId(m.tasks, id)
    ensures Recorded(m, RunTask(m, id, env).0, IndexOf(m.tasks, id), RunTask(m, id, env).1.value, env)
  {
    PerformRecorded(m, IndexOf(m.tasks, id), env);
  }

  /**
   * What a caller sequencing runs relies on: a run that fails changed
   * nothing, one that succeeds added exactly its result to the history, and
   * no task was added, removed or redefined.
   */
  lemma RunTaskStep(m: Manager, id: string, env: Env)
    ensures var r := RunTask(m, id, env);
      && (r.1.Err? ==> r.0 == m)
      && (r.1.Ok? ==> r.0.history == m.history + [r.1.value] && r.1.value.taskId == id)
      && (HasId(m.tasks, id) ==> r.1.Ok?)
      && SameDefinitions(r.0.tasks, m.tasks)
  {
    var r := RunTask(m, id, env);
    if HasId(m.tasks, id) {
      var i := IndexOf(m.tasks, id);
      RunTaskRecorded(m, id, env);
      forall j | 0 <= j < |m.tasks|
        ensures SameDefinition(r.0.tasks[j], m.tasks[j])
      {
        if j != i {
          assert r.0.tasks[j] == m.tasks[j];
        }
      }
    }
  }

  /**
   * The tool-derived capability flags after a run: the firmware flag is
   * recomputed only by `update_firmware`, from its output, and
   * `smartctl_not_found` only by `check_disk_health`, from its output or error.
   */
  lemma RunTaskFlags(m: Manager, id: string, env: Env)
    requires HasId(m.tasks, id)
    ensures var r := RunTask(m, id, env); var f := r.0.flags; var res := r.1.value;
      && (id == UpdateFirmware ==> (f.firmwareNoSupportedHardware <==> Contains(res.output, FirmwareMarker)))
      && (id != UpdateFirmware ==> f.firmwareNoSupportedHardware == m.flags.firmwareNoSupportedHardware)
      && (id == CheckDiskHealth ==> (f.smartctlNotFound <==> ReportsSmartctlMissing(res.output, res.error)))
      && (id != CheckDiskHealth ==> f.smartctlNotFound == m.flags.smartctlNotFound)
  {
    RunTaskUnfolds(m, id, env);
  }

  /**
   * The device flags after a run: the SATA ones change only under
   * `check_disk_health`, the NVMe one only under `check_nvme_health`.
   */
  lemma RunTaskDeviceFlags(m: Manager, id: string, env: Env)
    requires HasId(m.tasks, id)
    ensures var f := RunTask(m, id, env).0.flags;
      && (id != CheckDiskHealth ==>
            f.noSmartDevicesFound == m.flags.noSmartDevicesFound && f.hasSataDevices == m.flags.hasSataDevices)
      && (id != CheckNvmeHealth ==> f.hasNvmeDevices == m.flags.hasNvmeDevices)
  {
    RunTaskUnfolds(m, id, env);
  }

  /** A run of a known task, step by step: begin, dispatch, the two flag checks, finish. */
  lemma RunTaskUnfolds(m: Manager, id: string, env: Env)
    requires HasId(m.tasks, id)
    ensures var i := IndexOf(m.tasks, id);
      var m1 := Begin(m, i, env.start);
      var d := Dispatch(m1, m1.tasks[i], env);
      var m3 := SmartctlCheck(FirmwareCheck(d.0, id, d.1), id, d.1);
      var c := Finish(m3, i, d.1, env);
      && m1.tasks[i].id == id
      && RunTask(m, id, env) == (c.0, Ok(c.1))
      && c.0.flags == m3.flags && c.1.output == d.1.output && c.1.error == d.1.error
  {
    var i := IndexOf(m.tasks, id);
    var m1 := Begin(m, i, env.start);
    assert m1.tasks[i].id == id;
  }

  /** Some line of a device listing names a device with the given prefix. */
  predicate AnyListed(lines: seq<string>, prefix: string) {
    exists i :: 0 <= i < |lines| && ListsDevice(lines[i], prefix)
  }

  /** Every device's diagnostic command exited with status 0. */
  predicate AllChecksPass(devs: seq<string>, command: string, run: string -> Outcome) {
    forall k :: 0 <= k < |devs| ==> Succeeded(run(command + devs[k]))
  }

  /**
   * The SATA health check. A listing that raises fails the run with its
   * message and leaves the device flags alone. Otherwise `has_sata_devices`
   * says whether a `/dev/sd…` disk was listed and `no_smart_devices_found`
   * says the opposite; with no disk the run fails with the fixed message and
   * is still recorded; the run succeeds exactly when a disk was listed and
   * every disk's `smartctl -a` exited 0.
   */
  lemma SataCheckOutcome(m: Manager, env: Env)
    requires HasId(m.tasks, CheckDiskHealth)
    ensures var r := RunTask(m, CheckDiskHealth, env); var f := r.0.flags; var res := r.1.value;
      && (env.sataScan.ScanRaised? ==>
            !res.success && res.error == Some(env.sataScan.msg) &&
            f.hasSataDevices == m.flags.hasSataDevices && f.noSmartDevicesFound == m.flags.noSmartDevicesFound)
      && (env.sataScan.Scanned? ==>
            (f.hasSataDevices <==> AnyListed(env.sataScan.lines, SataPrefix)) &&
            (f.noSmartDevicesFound <==> !AnyListed(env.sataScan.lines, SataPrefix)))
      && (env.sataScan.Scanned? && !AnyListed(env.sataScan.lines, SataPrefix) ==>
            !res.success && res.output == "" && res.error == Some(NoSataMessage))
      && (res.success <==>
            env.sataScan.Scanned? && AnyListed(env.sataScan.lines, SataPrefix) &&
            AllChecksPass(SataDevices(env.sataScan.lines), SmartctlCommand, env.run))
  {
    var i := IndexOf(m.tasks, CheckDiskHealth);
    var m1 := Begin(m, i, env.start);
    assert m1.tasks[i].id == CheckDiskHealth;
    assert RouteOf(m1.tasks[i]) == SataCheck;
    var d := SataPath(m1, env.run, env.sataScan);
    assert Dispatch(m1, m1.tasks[i], env) == d;
    if env.sataScan.Scanned? {
      var devs := SataDevices(env.sataScan.lines);
      if |devs| > 0 {
        DeviceChecksSucceed(devs, SmartctlCommand, env.run);
      }
    }
  }

  /** A device pass succeeds exactly when every device's command exited 0. */
  lemma DeviceChecksSucceed(devs: seq<string>, command: string, run: string -> Outcome)
    ensures CheckDevices(devs, command, run).success <==> AllChecksPass(devs, command, run)
  {
    var sent := seq(|devs|, i requires 0 <= i < |devs| => command + devs[i]);
    var outs := Outcomes(sent, run);
    assert forall k :: 0 <= k < |devs| ==> outs[k] == run(command + devs[k]);
  }

  /**
   * The NVMe health check: as the SATA one for `has_nvme_devices`, while
   * `no_smart_devices_found` is never touched.
   */
  lemma NvmeCheckOutcome(m: Manager, env: Env)
    requires HasId(m.tasks, CheckNvmeHealth)
    ensures var r := RunTask(m, CheckNvmeHealth, env); var f := r.0.flags; var res := r.1.value;
      && f.noSmartDevicesFound == m.flags.noSmartDevicesFound
      && (env.nvmeScan.ScanRaised? ==>
            !res.success && res.error == Some(env.nvmeScan.msg) && f.hasNvmeDevices == m.flags.hasNvmeDevices)
      && (env.nvmeScan.Scanned? ==> (f.hasNvmeDevices <==> AnyListed(env.nvmeScan.lines, NvmePrefix)))
      && (env.nvmeScan.Scanned? && !AnyListed(env.nvmeScan.lines, NvmePrefix) ==>
            !res.success && res.output == "" && res.error == Some(NoNvmeMessage))
      && (res.success <==>
            env.nvmeScan.Scanned? && AnyListed(env.nvmeScan.lines, NvmePrefix) &&
            AllChecksPass(NvmeDevices(env.nvmeScan.lines), NvmeCommand, env.run))
  {
    var i := IndexOf(m.tasks, CheckNvmeHealth);
    var m1 := Begin(m, i, env.start);
    assert m1.tasks[i].id == CheckNvmeHealth;
    assert RouteOf(m1.tasks[i]) == NvmeCheck;
    var d := NvmePath(m1, env.run, env.nvmeScan);
    assert Dispatch(m1, m1.tasks[i], env) == d;
    if env.nvmeScan.Scanned? {
      NvmeDevicesIgnoreHeaders(env.nvmeScan.lines);
      var devs := NvmeDevices(env.nvmeScan.lines);
      if |devs| > 0 {
        DeviceChecksSucceed(devs, NvmeCommand, env.run);
      }
    }
  }

  /**
   * A task on the batch route succeeds exactly when its generated script
   * exits 0, and the individual command runner is never consulted.
   */
  lemma BatchOutcome(m: Manager, id: string, env: Env, otherRun: string -> Outcome)
    requires HasId(m.tasks, id) && RouteOf(m.tasks[IndexOf(m.tasks, id)]) == Batch
    ensures var t := m.tasks[IndexOf(m.tasks, id)];
      RunTask(m, id, env).1.value.success <==> Succeeded(env.runScript(ScriptLines(t.commands)))
    ensures RunTask(m, id, env.(run := otherRun)) == RunTask(m, id, env)
  {
    var i := IndexOf(m.tasks, id);
    var m1 := Begin(m, i, env.start);
    assert m1.tasks[i].commands == m.tasks[i].commands && RouteOf(m1.tasks[i]) == Batch;
  }

  /**
   * A task on the per-command route succeeds exactly when every command,
   * after the elevation rewrite, exited 0; the batch runner is never consulted.
   */
  lemma PerCommandOutcome(m: Manager, id: string, env: Env, otherScript: seq<string> -> Outcome)
    requires HasId(m.tasks, id) && RouteOf(m.tasks[IndexOf(m.tasks, id)]) == PerCommand
    ensures var t := m.tasks[IndexOf(m.tasks, id)];
      RunTask(m, id, env).1.value.success <==>
        forall k :: 0 <= k < |t.commands| ==> Succeeded(env.run(Elevate(t.commands[k], t.requiresSudo)))
    ensures RunTask(m, id, env.(runScript := otherScript)) == RunTask(m, id, env)
  {
    var i := IndexOf(m.tasks, id);
    var t := m.tasks[i];
    var m1 := Begin(m, i, env.start);
    assert m1.tasks[i].commands == t.commands && m1.tasks[i].requiresSudo == t.requiresSudo;
    assert RouteOf(m1.tasks[i]) == PerCommand;
    var sent := SentCommands(t.commands, t.requiresSudo);
    var outs := Outcomes(sent, env.run);
    assert forall k :: 0 <= k < |t.commands| ==> outs[k] == env.run(Elevate(t.commands[k], t.requiresSudo));
  }

  /**
   * In the shipped catalog every elevated task with several commands runs as
   * a batch, so the per-command route only ever runs the non-elevated
   * browser-cache cleanup and the `sudo`/`pkexec` rewrite is never applied.
   */
  lemma RegistryRoutes()
    ensures forall i :: 0 <= i < |Tasks()| ==> (RouteOf(Tasks()[i]) == PerCommand <==> Tasks()[i].id == CleanBrowserCache)
    ensures forall i :: 0 <= i < |Tasks()| && RouteOf(Tasks()[i]) == PerCommand ==> !Tasks()[i].requiresSudo
  {
    CatalogCommandCounts();
    RoutesOf(Tasks());
  }

  /** Every shipped task other than the NVMe check has more than one command. */
  lemma CatalogCommandCounts()
    ensures forall i :: 0 <= i < |Tasks()| && Tasks()[i].id != CheckNvmeHealth ==> |Tasks()[i].commands| > 1
  {
    var ts := Tasks();
    assert ts == [UpdatePackagesTask(), CleanPackageCacheTask(), CleanTempFilesTask(), CleanLogsTask(),
                  CleanBrowserCacheTask(), OptimizeSwapTask(), DefragmentFilesystemTask(),
                  UpdateFirmwareTask(), CheckDiskHealthTask(), CheckNvmeHealthTask()];
  }

  /** The routes of any catalog whose tasks, the NVMe check aside, all have several commands. */
  lemma RoutesOf(cat: seq<Task>)
    requires IsCatalog(cat)
    requires forall i :: 0 <= i < |cat| && cat[i].id != CheckNvmeHealth ==> |cat[i].commands| > 1
    ensures forall i :: 0 <= i < |cat| ==> (RouteOf(cat[i]) == PerCommand <==> cat[i].id == CleanBrowserCache)
    ensures forall i :: 0 <= i < |cat| && RouteOf(cat[i]) == PerCommand ==> !cat[i].requiresSudo
  {
    assert CleanBrowserCache[6] != CheckDiskHealth[6] && CleanBrowserCache[6] != CheckNvmeHealth[6];
  }

  // ---------------------------------------------------------------------
  // Startup
  // ---------------------------------------------------------------------

  /** Whether a startup listing found a device of its class; a listing that raised found none. */
  function ScanFound(scan: ScanOutcome, nvme: bool): (b: bool)
    ensures b <==> scan.Scanned? && AnyListed(scan.lines, if nvme then NvmePrefix else SataPrefix)
  {
    match scan
    case ScanRaised(_) => false
    case Scanned(lines) =>
      if nvme then NvmeDevicesIgnoreHeaders(lines); |NvmeDevices(lines)| > 0
      else |SataDevices(lines)| > 0
  }

  /**
   * `scan_storage_devices`: each class's flag says whether its listing named
   * a device; a listing that raises clears only its own flag. The state file
   * is then rewritten; nothing else changes.
   */
  function ScanStorageDevices(m: Manager, sata: ScanOutcome, nvme: ScanOutcome): (r: Manager)
    ensures r.tasks == m.tasks && r.history == m.history && r.historyFile == m.historyFile
    ensures r.flags == m.flags.(hasSataDevices := r.flags.hasSataDevices, hasNvmeDevices := r.flags.hasNvmeDevices)
    ensures r.flags.hasSataDevices <==> sata.Scanned? && AnyListed(sata.lines, SataPrefix)
    ensures r.flags.hasNvmeDevices <==> nvme.Scanned? && AnyListed(nvme.lines, NvmePrefix)
    ensures StateInSync(r)
  {
    Save(m.(flags := m.flags.(hasSataDevices := ScanFound(sata, false), hasNvmeDevices := ScanFound(nvme, true))))
  }

  /**
   * The manager as constructed: the catalog, the history loaded from its
   * file, `last_run` and flags loaded from the state file, then a device
   * scan, after which the state file holds what was loaded and scanned.
   * The history file is not written.
   */
  function Initial(stateDoc: Option<StateDoc>, historyDoc: Option<HistoryDoc>,
                   sata: ScanOutcome, nvme: ScanOutcome): (r: Manager)
    ensures SameDefinitions(r.tasks, Tasks()) && Ids(r.tasks) == RegistryIds
    ensures forall i :: 0 <= i < |r.tasks| ==>
      r.tasks[i].status == Pending && r.tasks[i].nextRun.None? && r.tasks[i].result.None?
    ensures r.tasks == LoadState(Tasks(), NoFlags, stateDoc).0
    ensures r.flags == LoadState(Tasks(), NoFlags, stateDoc).1.(hasSataDevices := r.flags.hasSataDevices,
                                                               hasNvmeDevices := r.flags.hasNvmeDevices)
    ensures r.history == LoadHistory(historyDoc)
    ensures StateInSync(r) && r.historyFile == historyDoc
    ensures r.flags.hasSataDevices <==> sata.Scanned? && AnyListed(sata.lines, SataPrefix)
    ensures r.flags.hasNvmeDevices <==> nvme.Scanned? && AnyListed(nvme.lines, NvmePrefix)
  {
    var loaded := LoadState(Tasks(), NoFlags, stateDoc);
    LoadedCatalog(Tasks(), stateDoc);
    ScanStorageDevices(Manager(loaded.0, LoadHistory(historyDoc), loaded.1, stateDoc, historyDoc), sata, nvme)
  }

  /** Loading a state file into the catalog changes no definition and no id, and only `last_run`. */
  lemma LoadedCatalog(cat: seq<Task>, doc: Option<StateDoc>)
    requires IsCatalog(cat)
    ensures var l := LoadState(cat, NoFlags, doc).0;
      && SameDefinitions(l, cat) && Ids(l) == RegistryIds
      && forall i :: 0 <= i < |l| ==> l[i].status == Pending && l[i].nextRun.None? && l[i].result.None?
  {
    var l := LoadState(cat, NoFlags, doc).0;
    assert Ids(l) == RegistryIds by {
      assert |Ids(l)| == |RegistryIds|;
      forall i | 0 <= i < |l|
        ensures Ids(l)[i] == RegistryIds[i]
      {
        assert l[i].id == cat[i].id;
      }
    }
  }

  /**
   * A manager restarted from the files another one wrote gets back every
   * task's `last_run`, the last 100 results and the three flags the device
   * scan does not recompute.
   */
  lemma RestartRestores(m: Manager, sata: ScanOutcome, nvme: ScanOutcome)
    requires Ids(m.tasks) == RegistryIds
    ensures var n := Initial(Some(SaveState(m.tasks, m.flags)), Some(SaveHistory(m.history)), sata, nvme);
      && |n.tasks| == |m.tasks|
      && (forall i :: 0 <= i < |m.tasks| ==> n.tasks[i].lastRun == m.tasks[i].lastRun)
      && n.history == Tail(m.history, HistoryCap)
      && n.flags.firmwareNoSupportedHardware == m.flags.firmwareNoSupportedHardware
      && n.flags.smartctlNotFound == m.flags.smartctlNotFound
      && n.flags.noSmartDevicesFound == m.flags.noSmartDevicesFound
  {
    RestartRestoresFrom(m, Tasks(), Some(SaveState(m.tasks, m.flags)));
    HistoryRoundTrip(m.history);
  }

  lemma RestartRestoresFrom(m: Manager, cat: seq<Task>, doc: Option<StateDoc>)
    requires Ids(m.tasks) == RegistryIds && IsCatalog(cat) && doc == Some(SaveState(m.tasks, m.flags))
    ensures var l := LoadState(cat, NoFlags, doc);
      && |l.0| == |m.tasks|
      && (forall i :: 0 <= i < |m.tasks| ==> l.0[i].lastRun == m.tasks[i].lastRun)
      && l.1 == m.flags
  {
    RegistryIdsDistinct();
    assert DistinctIds(m.tasks) by {
      forall i, j | 0 <= i < j < |m.tasks|
        ensures m.tasks[i].id != m.tasks[j].id
      {
        assert Ids(m.tasks)[i] == RegistryIds[i] && Ids(m.tasks)[j] == RegistryIds[j];
      }
    }
    StateRoundTrip(m.tasks, m.flags, cat, NoFlags);
  }

  // ---------------------------------------------------------------------
  // Scheduling and history
  // ---------------------------------------------------------------------

  /**
   * `schedule_task`: an unknown id fails with the wrapped not-found message;
   * otherwise only that task changes, to pending with `next_run` set.
   */
  function Schedule(m: Manager, id: string, at: nat): (r: Result<Manager>)
    ensures r.Ok? <==> HasId(m.tasks, id)
    ensures r.Err? ==> r.msg == NotFound("schedule task", id)
    ensures r.Ok? ==> var i := IndexOf(m.tasks, id);
      && |r.value.tasks| == |m.tasks|
      && r.value.tasks[i].nextRun == Some(at) && r.value.tasks[i].status == Pending
      && SameDefinition(r.value.tasks[i], m.tasks[i])
      && r.value.tasks[i].lastRun == m.tasks[i].lastRun && r.value.tasks[i].result == m.tasks[i].result
      && (forall j :: 0 <= j < |m.tasks| && j != i ==> r.value.tasks[j] == m.tasks[j])
      && r.value.history == m.history && r.value.flags == m.flags
      && r.value.stateFile == m.stateFile && r.value.historyFile == m.historyFile
  {
    if !HasId(m.tasks, id) then Err(NotFound("schedule task", id))
    else
      var i := IndexOf(m.tasks, id);
      Ok(m.(tasks := m.tasks[i := m.tasks[i].(nextRun := Some(at), status := Pending)]))
  }

  /**
   * `cancel_scheduled_task`: an unknown id fails with the wrapped not-found
   * message; otherwise only that task's `next_run` is cleared.
   */
  function Cancel(m: Manager, id: string): (r: Result<Manager>)
    ensures r.Ok? <==> HasId(m.tasks, id)
    ensures r.Err? ==> r.msg == NotFound("cancel scheduled task", id)
    ensures r.Ok? ==> var i := IndexOf(m.tasks, id);
      && |r.value.tasks| == |m.tasks|
      && r.value.tasks[i].nextRun.None?
      && (forall j :: 0 <= j < |m.tasks| ==> r.value.tasks[j] == m.tasks[j].(nextRun := r.value.tasks[j].nextRun))
      && (forall j :: 0 <= j < |m.tasks| && j != i ==> r.value.tasks[j] == m.tasks[j])
      && r.value.history == m.history && r.value.flags == m.flags
      && r.value.stateFile == m.stateFile && r.value.historyFile == m.historyFile
  {
    if !HasId(m.tasks, id) then Err(NotFound("cancel scheduled task", id))
    else
      var i := IndexOf(m.tasks, id);
      Ok(m.(tasks := m.tasks[i := m.tasks[i].(nextRun := None)]))
  }

  /**
   * Cancelling right after scheduling leaves the task pending with no
   * `next_run` and everything else as it was; cancelling twice is cancelling once.
   */
  lemma CancelAfterSchedule(m: Manager, id: string, at: nat)
    requires HasId(m.tasks, id)
    ensures Schedule(m, id, at).Ok?
    ensures var i := IndexOf(m.tasks, id);
      Cancel(Schedule(m, id, at).value, id) == Ok(m.(tasks := m.tasks[i := m.tasks[i].(status := Pending, nextRun := None)]))
    ensures Cancel(m, id).Ok? && Cancel(Cancel(m, id).value, id) == Cancel(m, id)
  {
    var i := IndexOf(m.tasks, id);
    var s := Schedule(m, id, at).value;
    assert HasId(s.tasks, id) && IndexOf(s.tasks, id) == i by {
      assert s.tasks[i].id == id;
      assert forall k :: 0 <= k < i ==> s.tasks[k] == m.tasks[k];
      IndexOfUnique(s.tasks, id, i);
    }
    assert s.tasks[i := s.tasks[i].(nextRun := None)] ==
           m.tasks[i := m.tasks[i].(status := Pending, nextRun := None)];
    var c := Cancel(m, id).value;
    assert HasId(c.tasks, id) && IndexOf(c.tasks, id) == i by {
      assert c.tasks[i].id == id;
      IndexOfUnique(c.tasks, id, i);
    }
    assert c.tasks[i := c.tasks[i].(nextRun := None)] == c.tasks;
  }

  /** The first position holding `id` is `IndexOf`. */
  lemma IndexOfUnique(tasks: seq<Task>, id: string, i: nat)
    requires i < |tasks| && tasks[i].id == id && forall k :: 0 <= k < i ==> tasks[k].id != id
    ensures HasId(tasks, id) && IndexOf(tasks, id) == i
  {
    var j := IndexOf(tasks, id);
    assert !(j < i) && !(i < j);
  }

  /** `get_task_history(limit)`: the last `limit` results in order, or all of them for `limit == 0`. */
  function GetTaskHistory(m: Manager, limit: int): (r: seq<MaintenanceResult>)
    ensures |r| <= |m.history| && r == m.history[|m.history| - |r|..]
    ensures limit > 0 ==> |r| == Min(limit, |m.history|)
    ensures limit == 0 ==> r == m.history
  {
    if |m.history| == 0 then [] else Tail(m.history, limit)
  }

  /** `clear_task_history`: the history and its file are gone; nothing else changes. */
  function ClearHistory(m: Manager): (r: Manager)
    ensures r.history == [] && r.historyFile.None?
    ensures r.tasks == m.tasks && r.flags == m.flags && r.stateFile == m.stateFile
  {
    m.(history := [], historyFile := None)
  }

  /**
   * The most recent results, up to 100, survive a restart: asking a
   * restarted manager for them gives what the old one would have given.
   */
  lemma RecentHistorySurvivesRestart(m: Manager, limit: int, stateDoc: Option<StateDoc>,
                                     sata: ScanOutcome, nvme: ScanOutcome)
    requires 0 < limit <= HistoryCap
    ensures GetTaskHistory(Initial(stateDoc, Some(SaveHistory(m.history)), sata, nvme), limit) ==
            GetTaskHistory(m, limit)
  {
    var n := Initial(stateDoc, Some(SaveHistory(m.history)), sata, nvme);
    HistoryRoundTrip(m.history);
    TailOfTail(m.history, HistoryCap, limit);
  }

  /** After clearing, a restart from the (absent) history file starts empty. */
  lemma ClearedHistoryStaysEmpty(m: Manager, limit: int, sata: ScanOutcome, nvme: ScanOutcome)
    ensures GetTaskHistory(ClearHistory(m), limit) == []
    ensures Initial(m.stateFile, ClearHistory(m).historyFile, sata, nvme).history == []
  {
  }
}

=== FILE: maintenance_types.dfy ===
/**
 * The records of the maintenance engine: task definitions with their
 * mutable runtime fields, execution results, capability flags, and the
 * outcomes the operating system reports for the commands the engine runs.
 */
module MaintenanceTypes {
  import opened Common

  datatype TaskStatus = Pending | Running | Completed | Failed | Skipped

  datatype Priority = Low | Medium | High | Critical

  /** A catalog entry. Timestamps are caller-supplied seconds. */
  datatype Task = Task(
    id: string,
    name: string,
    description: string,
    category: string,
    priority: Priority,
    estimatedDuration: string,
    commands: seq<string>,
    status: TaskStatus,
    lastRun: Option<nat>,
    nextRun: Option<nat>,
    result: Option<string>,
    requiresSudo: bool)

  /** One execution attempt. `duration` is the caller-supplied elapsed time. */
  datatype MaintenanceResult = MaintenanceResult(
    taskId: string,
    success: bool,
    output: string,
    error: Option<string>,
    duration: nat,
    timestamp: nat)

  /** The five persisted capability flags. */
  datatype Flags = Flags(
    firmwareNoSupportedHardware: bool,
    smartctlNotFound: bool,
    noSmartDevicesFound: bool,
    hasSataDevices: bool,
    hasNvmeDevices: bool)

  const NoFlags := Flags(false, false, false, false, false)

  /**
   * What running one command line reports: an exit status with captured
   * text, a timeout, or any other exception, each with the text `str(e)` gives.
   */
  datatype Outcome =
    | Exit(code: int, stdout: string, stderr: string)
    | TimedOut(msg: string)
    | Raised(msg: string)

  /** The result of a device-listing command: its output lines, or the exception it raised. */
  datatype ScanOutcome = Scanned(lines: seq<string>) | ScanRaised(msg: string)

  /** The running verdict the three execution paths accumulate: `(success, output, error)`. */
  datatype Exec = Exec(success: bool, output: string, error: Option<string>)

  predicate Succeeded(o: Outcome) {
    o.Exit? && o.code == 0
  }

  /** Python's f-string rendering of an optional message (`None` prints as `None`). */
  function ErrorText(e: Option<string>): string {
    match e
    case Some(m) => m
    case None => "None"
  }

  /** Task ids, in registry order. */
  const UpdatePackages := "update_packages"
  const CleanPackageCache := "clean_package_cache"
  const CleanTempFiles := "clean_temp_files"
  const CleanLogs := "clean_logs"
  const CleanBrowserCache := "clean_browser_cache"
  const OptimizeSwap := "optimize_swap"
  const DefragmentFilesystem := "defragment_filesystem"
  const UpdateFirmware := "update_firmware"
  const CheckDiskHealth := "check_disk_health"
  const CheckNvmeHealth := "check_nvme_health"

  /** The task ids are pairwise distinct. */
  predicate DistinctIds(tasks: seq<Task>) {
    forall i, j :: 0 <= i < j < |tasks| ==> tasks[i].id != tasks[j].id
  }

  /** Python's `task_id in self.tasks`. */
  predicate HasId(tasks: seq<Task>, id: string) {
    exists i :: 0 <= i < |tasks| && tasks[i].id == id
  }

  /** The position of the task stored under `id`. */
  function IndexOf(tasks: seq<Task>, id: string): (i: nat)
    requires HasId(tasks, id)
    ensures i < |tasks| && tasks[i].id == id
    ensures forall k :: 0 <= k < i ==> tasks[k].id != id
  {
    if tasks[0].id == id then 0
    else
      assert HasId(tasks[1..], id) by {
        var k :| 0 <= k < |tasks| && tasks[k].id == id;
        assert tasks[1..][k - 1] == tasks[k];
      }
      1 + IndexOf(tasks[1..], id)
  }

  /** The ids in order. */
  function Ids(tasks: seq<Task>): (r: seq<string>)
    ensures |r| == |tasks|
    ensures forall i :: 0 <= i < |tasks| ==> r[i] == tasks[i].id
  {
    if |tasks| == 0 then [] else [tasks[0].id] + Ids(tasks[1..])
  }

  /** Everything except the five runtime fields. */
  predicate SameDefinition(a: Task, b: Task) {
    && a.id == b.id && a.name == b.name && a.description == b.description
    && a.category == b.category && a.priority == b.priority
    && a.estimatedDuration == b.estimatedDuration && a.commands == b.commands
    && a.requiresSudo == b.requiresSudo
  }

  predicate SameDefinitions(a: seq<Task>, b: seq<Task>) {
    |a| == |b| && forall i :: 0 <= i < |a| ==> SameDefinition(a[i], b[i])
  }

  /** Catalogs with the same definitions hold the same ids in the same order. */
  lemma SameDefinitionsIds(a: seq<Task>, b: seq<Task>)
    requires SameDefinitions(a, b)
    ensures Ids(a) == Ids(b)
  {
  }
}

=== FILE: performance_analyzer.dfy ===
/**
 * The performance analyzer's rules: the ratio-band severity classifier,
 * the threshold checks that turn one snapshot of monitor readings into
 * an ordered list of issues, the recommendation list, and the 24-hour
 * retention of the stored samples. A monitor reading that raises is `None`.
 */
module PerformanceAnalyzer {
  import opened Common
  import opened SystemMonitor

  datatype Severity = Low | Medium | High | Critical

  function Rank(s: Severity): nat {
    match s
    case Low => 0
    case Medium => 1
    case High => 2
    case Critical => 3
  }

  datatype IssueType =
    | CpuHighUsage | MemoryHighUsage | DiskHighUsage | DiskSlowIo | NetworkSlow
    | ProcessHog | TemperatureHigh | SwapHighUsage | BootTimeSlow | SystemLoadHigh

  /**
   * A reported issue: `value` is the figure the rule compared and `limit`
   * the figure it was compared with. The display strings (title,
   * description, advice) are fixed texts and formatted numbers, not modelled.
   */
  datatype Issue = Issue(kind: IssueType, severity: Severity, component: string, value: real, limit: real)

  const CpuUsageLimit := 90.0
  const MemoryUsageLimit := 85.0
  const DiskUsageLimit := 90.0
  const SwapUsageLimit := 50.0
  const TemperatureLimit := 80.0
  const LoadPerCore := 2.0
  /** 100 MiB per second of combined reads and writes. */
  const DiskIoLimit: real := (100 * 1024 * 1024) as real
  const NetworkSpeedLimit := 100.0
  const ProcessCpuLimit := 90.0
  const ProcessMemoryLimit := 10.0

  /**
   * `_determine_severity`: the ratio of value to threshold, banded at 2.0,
   * 1.5 and 1.2. A zero threshold raises `ZeroDivisionError` (`None`).
   */
  function Classify(current: real, threshold: real): (r: Option<Severity>)
    ensures r.None? <==> threshold == 0.0
    ensures threshold > 0.0 ==>
      && (r == Some(Critical) <==> current >= 2.0 * threshold)
      && (r == Some(High) <==> 1.5 * threshold <= current < 2.0 * threshold)
      && (r == Some(Medium) <==> 1.2 * threshold <= current < 1.5 * threshold)
      && (r == Some(Low) <==> current < 1.2 * threshold)
  {
    if threshold == 0.0 then None
    else
      var ratio := current / threshold;
      RatioBands(current, threshold);
      if ratio >= 2.0 then Some(Critical)
      else if ratio >= 1.5 then Some(High)
      else if ratio >= 1.2 then Some(Medium)
      else Some(Low)
  }

  /** Against a positive threshold, comparing the ratio is comparing the value with the scaled threshold. */
  lemma RatioAtLeast(current: real, threshold: real, c: real)
    requires threshold > 0.0
    ensures current / threshold >= c <==> current >= c * threshold
  {
    var ratio := current / threshold;
    assert current == ratio * threshold;
    if ratio >= c {
      assert (ratio - c) * threshold >= 0.0;
    } else {
      assert (c - ratio) * threshold > 0.0;
    }
  }

  lemma RatioBands(current: real, threshold: real)
    ensures threshold > 0.0 ==>
      && (current / threshold >= 2.0 <==> current >= 2.0 * threshold)
      && (current / threshold >= 1.5 <==> current >= 1.5 * threshold)
      && (current / threshold >= 1.2 <==> current >= 1.2 * threshold)
  {
    if threshold > 0.0 {
      RatioAtLeast(current, threshold, 2.0);
      RatioAtLeast(current, threshold, 1.5);
      RatioAtLeast(current, threshold, 1.2);
    }
  }

  /** For a fixed positive threshold, a larger value is never rated less severe. */
  lemma ClassifyMonotone(a: real, b: real, threshold: real)
    requires threshold > 0.0 && a <= b
    ensures Rank(Classify(a, threshold).value) <= Rank(Classify(b, threshold).value)
  {
  }

  /** Rules whose severity comes from the ratio classifier. */
  predicate RatedKind(kind: IssueType) {
    kind == CpuHighUsage || kind == TemperatureHigh || kind == SystemLoadHigh
    || kind == MemoryHighUsage || kind == SwapHighUsage || kind == DiskHighUsage
  }

  /** What every reported issue satisfies: it is over its limit and rated as the rule says. */
  predicate WellFormed(i: Issue) {
    && i.value > i.limit
    && (RatedKind(i.kind) ==> Classify(i.value, i.limit) == Some(i.severity))
    && (i.kind == DiskSlowIo ==> i.severity == Medium && i.limit == DiskIoLimit)
    && (i.kind == NetworkSlow ==> i.severity == Low && i.limit == NetworkSpeedLimit)
    && (i.kind == ProcessHog ==> (i.severity == High && i.limit == ProcessCpuLimit)
                                 || (i.severity == Medium && i.limit == ProcessMemoryLimit))
  }

  predicate AllWellFormed(s: seq<Issue>) {
    forall k :: 0 <= k < |s| ==> WellFormed(s[k])
  }

  /** The analysis stage that reports an issue kind, in the order the stages run. */
  function Stage(kind: IssueType): nat {
    match kind
    case CpuHighUsage => 0
    case TemperatureHigh => 0
    case SystemLoadHigh => 0
    case MemoryHighUsage => 1
    case SwapHighUsage => 1
    case DiskHighUsage => 2
    case DiskSlowIo => 2
    case NetworkSlow => 3
    case ProcessHog => 4
    case BootTimeSlow => 5
  }

  predicate InStage(s: seq<Issue>, stage: nat) {
    forall k :: 0 <= k < |s| ==> Stage(s[k].kind) == stage
  }

  /** The kinds of issue a list reports. */
  function Kinds(s: seq<Issue>): (r: set<IssueType>)
    ensures forall k :: 0 <= k < |s| ==> s[k].kind in r
  {
    if |s| == 0 then {} else {s[0].kind} + Kinds(s[1..])
  }

  lemma {:induction false} KindsAppend(a: seq<Issue>, b: seq<Issue>)
    ensures Kinds(a + b) == Kinds(a) + Kinds(b)
  {
    if |a| > 0 {
      assert (a + b)[1..] == a[1..] + b;
      KindsAppend(a[1..], b);
    } else {
      assert a + b == b;
    }
  }

  /** A list from one stage reports only that stage's kinds. */
  lemma {:induction false} KindsOfStage(s: seq<Issue>, stage: nat)
    requires InStage(s, stage)
    ensures forall kind :: kind in Kinds(s) ==> Stage(kind) == stage
  {
    if |s| > 0 {
      assert forall k :: 0 <= k < |s[1..]| ==> s[1..][k] == s[k + 1];
      KindsOfStage(s[1..], stage);
    }
  }

  /** A list whose issues all come from stage `first` or later reports only kinds of those stages. */
  lemma {:induction false} KindsFromStage(s: seq<Issue>, first: nat)
    requires forall k :: 0 <= k < |s| ==> Stage(s[k].kind) >= first
    ensures forall kind :: kind in Kinds(s) ==> Stage(kind) >= first
  {
    if |s| > 0 {
      assert forall k :: 0 <= k < |s[1..]| ==> s[1..][k] == s[k + 1];
      KindsFromStage(s[1..], first);
    }
  }

  /** A ratio-rated check: one issue when the value is over a non-zero limit. */
  function Check(kind: IssueType, component: string, value: real, limit: real): (r: seq<Issue>)
    requires RatedKind(kind)
    ensures |r| <= 1
    ensures |r| == 1 <==> value > limit && limit != 0.0
    ensures Kinds(r) == if |r| == 1 then {kind} else {}
    ensures forall k :: 0 <= k < |r| ==> r[k].kind == kind && r[k].component == component && WellFormed(r[k])
  {
    if value > limit && limit != 0.0 then [Issue(kind, Classify(value, limit).value, component, value, limit)] else []
  }

  /** The temperature rule; a zero reading counts as no reading, as Python's truth test makes it. */
  function TemperatureIssues(c: CpuInfo): (r: seq<Issue>)
    ensures |r| <= 1 && AllWellFormed(r) && InStage(r, 0)
    ensures Kinds(r) == if c.temperature.Some? && c.temperature.value > TemperatureLimit then {TemperatureHigh} else {}
  {
    if c.temperature.Some? && c.temperature.value != 0.0
    then Check(TemperatureHigh, "CPU", c.temperature.value, TemperatureLimit) else []
  }

  /**
   * The load rule, against twice the core count: an unknown count raises
   * before the comparison, a zero one when the severity is worked out.
   */
  function LoadIssues(c: CpuInfo): (r: seq<Issue>)
    ensures |r| <= 1 && AllWellFormed(r) && InStage(r, 0)
    ensures Kinds(r) ==
      if c.coreCount.Some? && c.coreCount.value != 0 && c.load1 > c.coreCount.value as real * LoadPerCore
      then {SystemLoadHigh} else {}
  {
    if c.coreCount.Some?
    then Check(SystemLoadHigh, "System", c.load1, c.coreCount.value as real * LoadPerCore) else []
  }

  /**
   * `_analyze_cpu_performance`: usage over 90; a present, non-zero
   * temperature over 80; a 1-minute load over twice the core count. An
   * unknown core count raises (`TypeError`), and so does a zero one once
   * the load is positive; either way the issues found before are kept.
   */
  function CpuIssues(cpu: Option<CpuInfo>): (r: seq<Issue>)
    ensures |r| <= 3 && AllWellFormed(r) && InStage(r, 0)
    ensures CpuHighUsage in Kinds(r) <==> cpu.Some? && cpu.value.usagePercent > CpuUsageLimit
    ensures TemperatureHigh in Kinds(r) <==>
      cpu.Some? && cpu.value.temperature.Some? && cpu.value.temperature.value > TemperatureLimit
    ensures SystemLoadHigh in Kinds(r) <==>
      cpu.Some? && cpu.value.coreCount.Some? && cpu.value.coreCount.value != 0 &&
      cpu.value.load1 > cpu.value.coreCount.value as real * LoadPerCore
  {
    match cpu
    case None => []
    case Some(c) =>
      var usage := Check(CpuHighUsage, "CPU", c.usagePercent, CpuUsageLimit);
      var temperature := TemperatureIssues(c);
      var load := LoadIssues(c);
      KindsAppend(usage, temperature);
      KindsAppend(usage + temperature, load);
      usage + temperature + load
  }

  /** `_analyze_memory_performance`: memory over 85 and swap over 50, both rated. */
  function MemoryIssues(memory: Option<MemoryInfo>): (r: seq<Issue>)
    ensures |r| <= 2 && AllWellFormed(r) && InStage(r, 1)
    ensures MemoryHighUsage in Kinds(r) <==> memory.Some? && memory.value.usagePercent > MemoryUsageLimit
    ensures SwapHighUsage in Kinds(r) <==> memory.Some? && memory.value.swapUsagePercent > SwapUsageLimit
  {
    match memory
    case None => []
    case Some(m) =>
      var usage := Check(MemoryHighUsage, "Memory", m.usagePercent, MemoryUsageLimit);
      var swap := Check(SwapHighUsage, "Memory", m.swapUsagePercent, SwapUsageLimit);
      KindsAppend(usage, swap);
      usage + swap
  }

  function DiskComponent(d: DiskInfo): string { "Disk (" + d.mountpoint + ")" }

  /** The checks for one disk: usage over 90 (rated), then over 100 MiB/s of I/O (medium). */
  function DiskIssuesOf(d: DiskInfo): (r: seq<Issue>)
    ensures |r| <= 2 && AllWellFormed(r) && InStage(r, 2)
    ensures forall k :: 0 <= k < |r| ==> r[k].component == DiskComponent(d)
    ensures DiskHighUsage in Kinds(r) <==> d.usagePercent > DiskUsageLimit
    ensures DiskSlowIo in Kinds(r) <==> d.readBytesPerSec + d.writeBytesPerSec > DiskIoLimit
  {
    var usage := Check(DiskHighUsage, DiskComponent(d), d.usagePercent, DiskUsageLimit);
    var io := d.readBytesPerSec + d.writeBytesPerSec;
    var slow := if io > DiskIoLimit then [Issue(DiskSlowIo, Medium, DiskComponent(d), io, DiskIoLimit)] else [];
    KindsAppend(usage, slow);
    assert Kinds(slow) == if io > DiskIoLimit then {DiskSlowIo} else {};
    usage + slow
  }

  /** One network rule: a known interface speed over 100 Mbps is a low-severity issue. */
  function NetworkIssuesOf(n: NetworkInfo): (r: seq<Issue>)
    ensures |r| <= 1 && AllWellFormed(r) && InStage(r, 3)
    ensures |r| == 1 <==> n.speedMbps.Some? && n.speedMbps.value > NetworkSpeedLimit
    ensures forall k :: 0 <= k < |r| ==> r[k].component == "Network (" + n.iface + ")"
  {
    if n.speedMbps.Some? && n.speedMbps.value > NetworkSpeedLimit
    then [Issue(NetworkSlow, Low, "Network (" + n.iface + ")", n.speedMbps.value, NetworkSpeedLimit)]
    else []
  }

  /** The process rules: over 90 percent CPU is high, over 10 percent of memory medium; both may fire. */
  function ProcessIssuesOf(p: ProcessInfo): (r: seq<Issue>)
    ensures |r| <= 2 && AllWellFormed(r) && InStage(r, 4)
    ensures (exists k :: 0 <= k < |r| && r[k].severity == High) <==> p.cpuPercent > ProcessCpuLimit
    ensures (exists k :: 0 <= k < |r| && r[k].severity == Medium) <==> p.memoryPercent > ProcessMemoryLimit
  {
    var component := "Process (" + p.name + ")";
    var cpu := if p.cpuPercent > ProcessCpuLimit then [Issue(ProcessHog, High, component, p.cpuPercent, ProcessCpuLimit)] else [];
    var memory :=
      if p.memoryPercent > ProcessMemoryLimit then [Issue(ProcessHog, Medium, component, p.memoryPercent, ProcessMemoryLimit)] else [];
    assert |cpu| == 1 ==> (cpu + memory)[0] == cpu[0];
    assert |memory| == 1 ==> (cpu + memory)[|cpu|] == memory[0];
    cpu + memory
  }

  /** The checks of one stage applied to every item, in order. */
  function Concat<T>(s: seq<T>, f: T -> seq<Issue>): (r: seq<Issue>)
    ensures forall k :: 0 <= k < |r| ==> exists i :: 0 <= i < |s| && r[k] in f(s[i])
  {
    if |s| == 0 then []
    else
      var rest := Concat(s[1..], f);
      var r := f(s[0]) + rest;
      forall k | 0 <= k < |r|
        ensures exists i :: 0 <= i < |s| && r[k] in f(s[i])
      {
        if k >= |f(s[0])| {
          var i :| 0 <= i < |s[1..]| && rest[k - |f(s[0])|] in f(s[1..][i]);
          assert s[1..][i] == s[i + 1];
        } else {
          assert r[k] in f(s[0]);
        }
      }
      r
  }

  /** Every issue one item raises is in the stage's list. */
  lemma {:induction false} ConcatKeeps<T>(s: seq<T>, f: T -> seq<Issue>, i: nat, x: Issue)
    requires i < |s| && x in f(s[i])
    ensures x in Concat(s, f)
  {
    if i > 0 {
      assert s[1..][i - 1] == s[i];
      ConcatKeeps(s[1..], f, i - 1, x);
    }
  }

  /** A stage that raises at most `n` issues per item raises at most `n` per item in all. */
  lemma {:induction false} ConcatBound<T>(s: seq<T>, f: T -> seq<Issue>, n: nat)
    requires forall i :: 0 <= i < |s| ==> |f(s[i])| <= n
    ensures |Concat(s, f)| <= n * |s|
  {
    if |s| > 0 {
      assert forall i :: 0 <= i < |s[1..]| ==> s[1..][i] == s[i + 1];
      ConcatBound(s[1..], f, n);
    }
  }

  /** `_analyze_disk_performance`: every disk's issues, in disk order; none when the list cannot be read. */
  function DiskIssues(disks: Option<seq<DiskInfo>>): (r: seq<Issue>)
    ensures AllWellFormed(r) && InStage(r, 2)
    ensures disks.None? ==> r == []
    ensures disks.Some? ==> forall i, x :: 0 <= i < |disks.value| && x in DiskIssuesOf(disks.value[i]) ==> x in r
    ensures disks.Some? ==> forall k :: 0 <= k < |r| ==>
      exists i :: 0 <= i < |disks.value| && r[k] in DiskIssuesOf(disks.value[i])
  {
    if disks.None? then []
    else
      forall i, x | 0 <= i < |disks.value| && x in DiskIssuesOf(disks.value[i])
        ensures x in Concat(disks.value, DiskIssuesOf)
      {
        ConcatKeeps(disks.value, DiskIssuesOf, i, x);
      }
      Concat(disks.value, DiskIssuesOf)
  }

  /** `_analyze_network_performance`: every interface's issue, in order. */
  function NetworkIssues(networks: Option<seq<NetworkInfo>>): (r: seq<Issue>)
    ensures AllWellFormed(r) && InStage(r, 3)
    ensures networks.None? ==> r == []
    ensures networks.Some? ==> forall i, x :: 0 <= i < |networks.value| && x in NetworkIssuesOf(networks.value[i]) ==> x in r
    ensures networks.Some? ==> forall k :: 0 <= k < |r| ==>
      exists i :: 0 <= i < |networks.value| && r[k] in NetworkIssuesOf(networks.value[i])
  {
    if networks.None? then []
    else
      forall i, x | 0 <= i < |networks.value| && x in NetworkIssuesOf(networks.value[i])
        ensures x in Concat(networks.value, NetworkIssuesOf)
      {
        ConcatKeeps(networks.value, NetworkIssuesOf, i, x);
      }
      Concat(networks.value, NetworkIssuesOf)
  }

  /** `_analyze_process_performance`: the rules over the ten busiest processes only. */
  function ProcessIssues(processes: Option<seq<ProcessInfo>>): (r: seq<Issue>)
    ensures AllWellFormed(r) && InStage(r, 4)
    ensures |r| <= 2 * DefaultTopLimit
    ensures processes.None? ==> r == []
    ensures processes.Some? ==> var top := TopProcesses(processes.value, DefaultTopLimit);
      forall i, x :: 0 <= i < |top| && x in ProcessIssuesOf(top[i]) ==> x in r
    ensures processes.Some? ==> var top := TopProcesses(processes.value, DefaultTopLimit);
      forall k :: 0 <= k < |r| ==> exists i :: 0 <= i < |top| && r[k] in ProcessIssuesOf(top[i])
  {
    if processes.None? then []
    else
      var top := TopProcesses(processes.value, DefaultTopLimit);
      ConcatBound(top, ProcessIssuesOf, 2);
      forall i, x | 0 <= i < |top| && x in ProcessIssuesOf(top[i])
        ensures x in Concat(top, ProcessIssuesOf)
      {
        ConcatKeeps(top, ProcessIssuesOf, i, x);
      }
      Concat(top, ProcessIssuesOf)
  }

  /** One reading of every monitor source the analysis consults. */
  datatype Snapshot = Snapshot(cpu: Option<CpuInfo>, memory: Option<MemoryInfo>, disks: Option<seq<DiskInfo>>,
                               networks: Option<seq<NetworkInfo>>, processes: Option<seq<ProcessInfo>>)

  /** Issues whose stages never go backwards. */
  predicate StageOrdered(s: seq<Issue>) {
    forall i, j :: 0 <= i < j < |s| ==> Stage(s[i].kind) <= Stage(s[j].kind)
  }

  /** The disk, network and process stages, in that order. */
  function LaterIssues(snap: Snapshot): (r: seq<Issue>)
    ensures AllWellFormed(r) && StageOrdered(r)
    ensures forall k :: 0 <= k < |r| ==> Stage(r[k].kind) >= 2
    ensures forall x :: x in r <==>
      x in DiskIssues(snap.disks) || x in NetworkIssues(snap.networks) || x in ProcessIssues(snap.processes)
  {
    var disk := DiskIssues(snap.disks);
    var network := NetworkIssues(snap.networks);
    var process := ProcessIssues(snap.processes);
    StagesAppend(disk, network, 2, 3);
    StagesAppend(disk + network, process, 3, 4);
    disk + network + process
  }

  /**
   * The issue list of `analyze_system_performance`: CPU, memory, disk,
   * network and process issues, in that order; the system-load stage adds
   * nothing. Each stage swallows its own failure.
   */
  function Issues(snap: Snapshot): (r: seq<Issue>)
    ensures AllWellFormed(r)
    ensures StageOrdered(r)
    ensures forall x :: x in r <==> x in CpuIssues(snap.cpu) || x in MemoryIssues(snap.memory) || x in LaterIssues(snap)
  {
    var cpu := CpuIssues(snap.cpu);
    var memory := MemoryIssues(snap.memory);
    var later := LaterIssues(snap);
    StagesAppend(cpu, memory, 0, 1);
    StagesAfter(cpu + memory, later);
    cpu + memory + later
  }

  /** Appending a later stage to an ordered list keeps it ordered. */
  lemma StagesAppend(a: seq<Issue>, b: seq<Issue>, last: nat, next: nat)
    requires StageOrdered(a) && forall k :: 0 <= k < |a| ==> Stage(a[k].kind) <= last
    requires InStage(b, next) && last <= next
    ensures StageOrdered(a + b) && forall k :: 0 <= k < |a + b| ==> Stage((a + b)[k].kind) <= next
  {
  }

  lemma StagesAfter(a: seq<Issue>, b: seq<Issue>)
    requires StageOrdered(a) && forall k :: 0 <= k < |a| ==> Stage(a[k].kind) <= 1
    requires StageOrdered(b) && forall k :: 0 <= k < |b| ==> Stage(b[k].kind) >= 2
    ensures StageOrdered(a + b)
  {
  }

  /**
   * The combined list reports a CPU or memory kind exactly when that
   * stage does: no other stage reports one, and nothing is lost.
   */
  lemma IssuesReportCpuAndMemory(snap: Snapshot)
    ensures forall kind :: Stage(kind) == 0 ==> (kind in Kinds(Issues(snap)) <==> kind in Kinds(CpuIssues(snap.cpu)))
    ensures forall kind :: Stage(kind) == 1 ==> (kind in Kinds(Issues(snap)) <==> kind in Kinds(MemoryIssues(snap.memory)))
  {
    var cpu := CpuIssues(snap.cpu);
    var memory := MemoryIssues(snap.memory);
    var later := LaterIssues(snap);
    assert Issues(snap) == cpu + memory + later;
    KindsAppend(cpu, memory);
    KindsAppend(cpu + memory, later);
    KindsFromStage(later, 2);
    KindsOfStage(memory, 1);
    KindsOfStage(cpu, 0);
  }

  /** A disk over 90 percent always shows up in the issue list, rated and named by its mount point. */
  lemma FullDiskReported(snap: Snapshot, i: nat)
    requires snap.disks.Some? && i < |snap.disks.value| && snap.disks.value[i].usagePercent > DiskUsageLimit
    ensures var d := snap.disks.value[i];
      Issue(DiskHighUsage, Classify(d.usagePercent, DiskUsageLimit).value, DiskComponent(d), d.usagePercent, DiskUsageLimit)
        in Issues(snap)
  {
    var d := snap.disks.value[i];
    var x := Issue(DiskHighUsage, Classify(d.usagePercent, DiskUsageLimit).value, DiskComponent(d), d.usagePercent, DiskUsageLimit);
    assert DiskIssuesOf(d)[0] == x;
    ConcatKeeps(snap.disks.value, DiskIssuesOf, i, x);
    assert x in LaterIssues(snap);
  }

  /** A disk moving more than 100 MiB per second always shows up as a medium slow-I/O issue. */
  lemma SlowDiskReported(snap: Snapshot, i: nat)
    requires snap.disks.Some? && i < |snap.disks.value|
    requires var d := snap.disks.value[i]; d.readBytesPerSec + d.writeBytesPerSec > DiskIoLimit
    ensures SlowIssue(snap.disks.value[i]) in Issues(snap)
  {
    var disks := snap.disks.value;
    SlowIssueOf(disks[i]);
    DiskIssueListed(disks, i, SlowIssue(disks[i]));
    LaterIssueListed(snap, SlowIssue(disks[i]));
  }

  /** An issue one disk raises is in the disk stage's list. */
  lemma DiskIssueListed(disks: seq<DiskInfo>, i: nat, x: Issue)
    requires i < |disks| && x in DiskIssuesOf(disks[i])
    ensures x in DiskIssues(Some(disks))
  {
  }

  /** An issue of the disk, network or process stage is in the combined list. */
  lemma LaterIssueListed(snap: Snapshot, x: Issue)
    requires x in DiskIssues(snap.disks) || x in NetworkIssues(snap.networks) || x in ProcessIssues(snap.processes)
    ensures x in Issues(snap)
  {
    assert x in LaterIssues(snap);
  }

  /** The issue a disk whose combined read and write rate is too high raises. */
  function SlowIssue(d: DiskInfo): (x: Issue) {
    Issue(DiskSlowIo, Medium, DiskComponent(d), d.readBytesPerSec + d.writeBytesPerSec, DiskIoLimit)
  }

  /** The slow-I/O rule for one disk, as its checks report it. */
  lemma SlowIssueOf(d: DiskInfo)
    requires d.readBytesPerSec + d.writeBytesPerSec > DiskIoLimit
    ensures SlowIssue(d) in DiskIssuesOf(d)
  {
    var usage := Check(DiskHighUsage, DiskComponent(d), d.usagePercent, DiskUsageLimit);
    assert DiskIssuesOf(d) == usage + [SlowIssue(d)];
  }

  /** An interface with a known speed over 100 always shows up as a low-severity network issue. */
  lemma FastNetworkReported(snap: Snapshot, i: nat)
    requires snap.networks.Some? && i < |snap.networks.value|
    requires var n := snap.networks.value[i]; n.speedMbps.Some? && n.speedMbps.value > NetworkSpeedLimit
    ensures var n := snap.networks.value[i];
      Issue(NetworkSlow, Low, "Network (" + n.iface + ")", n.speedMbps.value, NetworkSpeedLimit) in Issues(snap)
  {
    var n := snap.networks.value[i];
    var x := Issue(NetworkSlow, Low, "Network (" + n.iface + ")", n.speedMbps.value, NetworkSpeedLimit);
    assert NetworkIssuesOf(n)[0] == x;
    assert x in NetworkIssues(snap.networks);
  }

  /**
   * Each of the ten busiest processes is reported as high severity when
   * over 90 percent CPU, and as medium when over 10 percent of memory.
   */
  lemma BusyProcessReported(snap: Snapshot, k: nat)
    requires snap.processes.Some? && k < |TopProcesses(snap.processes.value, DefaultTopLimit)|
    ensures var p := TopProcesses(snap.processes.value, DefaultTopLimit)[k];
      p.cpuPercent > ProcessCpuLimit ==>
        Issue(ProcessHog, High, "Process (" + p.name + ")", p.cpuPercent, ProcessCpuLimit) in Issues(snap)
    ensures var p := TopProcesses(snap.processes.value, DefaultTopLimit)[k];
      p.memoryPercent > ProcessMemoryLimit ==>
        Issue(ProcessHog, Medium, "Process (" + p.name + ")", p.memoryPercent, ProcessMemoryLimit) in Issues(snap)
  {
    var p := TopProcesses(snap.processes.value, DefaultTopLimit)[k];
    var own := ProcessIssuesOf(p);
    var hog := Issue(ProcessHog, High, "Process (" + p.name + ")", p.cpuPercent, ProcessCpuLimit);
    var big := Issue(ProcessHog, Medium, "Process (" + p.name + ")", p.memoryPercent, ProcessMemoryLimit);
    if p.cpuPercent > ProcessCpuLimit {
      assert own[0] == hog;
      assert hog in ProcessIssues(snap.processes);
    }
    if p.memoryPercent > ProcessMemoryLimit {
      assert own[|own| - 1] == big;
      assert big in ProcessIssues(snap.processes);
    }
  }

  /** Every process issue in the list is about one of the ten busiest processes. */
  lemma ProcessIssuesFromTop(snap: Snapshot, x: Issue)
    requires x in Issues(snap) && x.kind == ProcessHog
    ensures snap.processes.Some?
    ensures var top := TopProcesses(snap.processes.value, DefaultTopLimit);
      exists i :: 0 <= i < |top| && x in ProcessIssuesOf(top[i])
  {
    OutsideStage(CpuIssues(snap.cpu), 0, x);
    OutsideStage(MemoryIssues(snap.memory), 1, x);
    OutsideStage(DiskIssues(snap.disks), 2, x);
    OutsideStage(NetworkIssues(snap.networks), 3, x);
    assert x in ProcessIssues(snap.processes);
  }

  /** An issue of another stage's kind is not in a one-stage list. */
  lemma OutsideStage(s: seq<Issue>, stage: nat, x: Issue)
    requires InStage(s, stage) && Stage(x.kind) != stage
    ensures x !in s
  {
  }

  datatype Recommendation = OptimizeCpu | OptimizeMemory | CleanDisk(mountpoint: string) | UpdatePackages | EnableMonitoring

  const CpuAdviceLimit := 70.0
  const MemoryAdviceLimit := 80.0
  const DiskAdviceLimit := 85.0

  /** The index of the first disk over `limit`, if any. */
  function FirstOver(disks: seq<DiskInfo>, limit: real): (r: Option<nat>)
    ensures r.None? <==> forall i :: 0 <= i < |disks| ==> disks[i].usagePercent <= limit
    ensures r.Some? ==>
      r.value < |disks| && disks[r.value].usagePercent > limit &&
      forall i :: 0 <= i < r.value ==> disks[i].usagePercent <= limit
  {
    if |disks| == 0 then None
    else if disks[0].usagePercent > limit then Some(0)
    else
      var rest := FirstOver(disks[1..], limit);
      assert forall i :: 1 <= i < |disks| ==> disks[i] == disks[1..][i - 1];
      if rest.None? then None else Some(rest.value + 1)
  }

  /** The mount point of the first disk over 85 percent, which alone gets clean-up advice. */
  function DiskToClean(disks: seq<DiskInfo>): (r: Option<string>)
    ensures r.None? <==> forall i :: 0 <= i < |disks| ==> disks[i].usagePercent <= DiskAdviceLimit
    ensures r.Some? ==> exists i :: FirstOver(disks, DiskAdviceLimit) == Some(i) && r.value == disks[i].mountpoint
  {
    var first := FirstOver(disks, DiskAdviceLimit);
    if first.None? then None else Some(disks[first.value].mountpoint)
  }

  /** The position of each kind of advice in the list. */
  function Slot(x: Recommendation): nat {
    match x
    case OptimizeCpu => 0
    case OptimizeMemory => 1
    case CleanDisk(_) => 2
    case UpdatePackages => 3
    case EnableMonitoring => 4
  }

  predicate SlotOrdered(s: seq<Recommendation>) {
    forall i, j :: 0 <= i < j < |s| ==> Slot(s[i]) < Slot(s[j])
  }

  /**
   * `get_performance_recommendations`: CPU over 70, memory over 80, the
   * first disk over 85, always the package update, and the monitoring
   * advice when `systemd-analyze` is unusable; each kind at most once, in
   * that order. A failed reading of CPU, memory or disks yields no
   * recommendations at all.
   */
  function Recommendations(cpu: Option<CpuInfo>, memory: Option<MemoryInfo>, disks: Option<seq<DiskInfo>>,
                           systemdAnalyze: bool): (r: seq<Recommendation>)
    ensures cpu.None? || memory.None? || disks.None? ==> r == []
    ensures SlotOrdered(r)
  {
    if cpu.None? || memory.None? || disks.None? then []
    else
      var clean := DiskToClean(disks.value);
      (if cpu.value.usagePercent > CpuAdviceLimit then [OptimizeCpu] else [])
      + (if memory.value.usagePercent > MemoryAdviceLimit then [OptimizeMemory] else [])
      + (if clean.Some? then [CleanDisk(clean.value)] else [])
      + [UpdatePackages]
      + (if systemdAnalyze then [] else [EnableMonitoring])
  }

  /** With every reading in hand, the package update is always advised. */
  lemma RecommendationsAlwaysUpdate(cpu: CpuInfo, memory: MemoryInfo, disks: seq<DiskInfo>, systemdAnalyze: bool)
    ensures UpdatePackages in Recommendations(Some(cpu), Some(memory), Some(disks), systemdAnalyze)
  {
  }

  lemma RecommendationsCpu(cpu: CpuInfo, memory: MemoryInfo, disks: seq<DiskInfo>, systemdAnalyze: bool)
    ensures OptimizeCpu in Recommendations(Some(cpu), Some(memory), Some(disks), systemdAnalyze)
            <==> cpu.usagePercent > CpuAdviceLimit
  {
  }

  lemma RecommendationsMemory(cpu: CpuInfo, memory: MemoryInfo, disks: seq<DiskInfo>, systemdAnalyze: bool)
    ensures OptimizeMemory in Recommendations(Some(cpu), Some(memory), Some(disks), systemdAnalyze)
            <==> memory.usagePercent > MemoryAdviceLimit
  {
    var r := Recommendations(Some(cpu), Some(memory), Some(disks), systemdAnalyze);
    var clean := DiskToClean(disks);
    var front: seq<Recommendation> := if cpu.usagePercent > CpuAdviceLimit then [OptimizeCpu] else [];
    var middle: seq<Recommendation> := if clean.Some? then [CleanDisk(clean.value)] else [];
    var last: seq<Recommendation> := if systemdAnalyze then [] else [EnableMonitoring];
    if memory.usagePercent > MemoryAdviceLimit {
      assert r == front + [OptimizeMemory] + middle + [UpdatePackages] + last;
      assert r[|front|] == OptimizeMemory;
    } else {
      assert r == front + middle + [UpdatePackages] + last;
    }
  }

  lemma RecommendationsMonitoring(cpu: CpuInfo, memory: MemoryInfo, disks: seq<DiskInfo>, systemdAnalyze: bool)
    ensures EnableMonitoring in Recommendations(Some(cpu), Some(memory), Some(disks), systemdAnalyze) <==> !systemdAnalyze
  {
  }

  lemma RecommendationsCleanFirstFullDisk(cpu: CpuInfo, memory: MemoryInfo, disks: seq<DiskInfo>, systemdAnalyze: bool, m: string)
    ensures CleanDisk(m) in Recommendations(Some(cpu), Some(memory), Some(disks), systemdAnalyze) <==> DiskToClean(disks) == Some(m)
  {
  }

  /** Samples are kept for a day; timestamps are in microseconds, as `datetime` keeps them. */
  const RetentionWindow := 24 * 60 * 60 * 1000000

  datatype CpuSample = CpuSample(timestamp: int, usage: real, temperature: Option<real>)
  datatype MemorySample = MemorySample(timestamp: int, usage: real, swapUsage: real)
  /** Entries of the disk and network lists, which this module only ever filters. */
  datatype Sample = Sample(timestamp: int)

  datatype History = History(cpu: seq<CpuSample>, memory: seq<MemorySample>, disk: seq<Sample>, network: seq<Sample>)

  const EmptyHistory := History([], [], [], [])

  function CpuStamp(s: CpuSample): int { s.timestamp }
  function MemoryStamp(s: MemorySample): int { s.timestamp }
  function SampleStamp(s: Sample): int { s.timestamp }

  /** The entries stamped strictly after `cutoff`, in order. */
  function Retain<T>(s: seq<T>, stamp: T -> int, cutoff: int): (r: seq<T>)
    ensures forall k :: 0 <= k < |r| ==> stamp(r[k]) > cutoff
    ensures multiset(r) <= multiset(s)
  {
    if |s| == 0 then []
    else
      var rest := Retain(s[1..], stamp, cutoff);
      assert multiset(s) == multiset{s[0]} + multiset(s[1..]) by { assert s == [s[0]] + s[1..]; }
      if stamp(s[0]) > cutoff then [s[0]] + rest else rest
  }

  /** Every entry newer than the cutoff survives. */
  lemma {:induction false} RetainKeeps<T>(s: seq<T>, stamp: T -> int, cutoff: int, i: nat)
    requires i < |s| && stamp(s[i]) > cutoff
    ensures s[i] in Retain(s, stamp, cutoff)
  {
    if i > 0 {
      assert s[1..][i - 1] == s[i];
      RetainKeeps(s[1..], stamp, cutoff, i - 1);
    }
  }

  /** Filtering distributes over concatenation, so relative order is kept. */
  lemma {:induction false} RetainAppend<T>(a: seq<T>, b: seq<T>, stamp: T -> int, cutoff: int)
    ensures Retain(a + b, stamp, cutoff) == Retain(a, stamp, cutoff) + Retain(b, stamp, cutoff)
  {
    if |a| > 0 {
      assert (a + b)[1..] == a[1..] + b;
      RetainAppend(a[1..], b, stamp, cutoff);
    } else {
      assert a + b == b;
    }
  }

  /** An entry newer than the cutoff, appended, is the last one kept. */
  lemma RetainFresh<T>(s: seq<T>, x: T, stamp: T -> int, cutoff: int)
    requires stamp(x) > cutoff
    ensures var r := Retain(s + [x], stamp, cutoff); |r| > 0 && r[|r| - 1] == x
  {
    RetainAppend(s, [x], stamp, cutoff);
    assert Retain([x], stamp, cutoff) == [x];
  }

  /** Two filters in a row keep what the later cutoff alone keeps. */
  lemma {:induction false} RetainTwice<T>(s: seq<T>, stamp: T -> int, earlier: int, later: int)
    requires earlier <= later
    ensures Retain(Retain(s, stamp, earlier), stamp, later) == Retain(s, stamp, later)
  {
    if |s| > 0 {
      RetainTwice(s[1..], stamp, earlier, later);
      if stamp(s[0]) > earlier {
        assert ([s[0]] + Retain(s[1..], stamp, earlier))[1..] == Retain(s[1..], stamp, earlier);
      }
    }
  }

  /** Every list cut down to the entries newer than `cutoff`. */
  function Prune(h: History, cutoff: int): (r: History)
    ensures forall k :: 0 <= k < |r.cpu| ==> r.cpu[k].timestamp > cutoff
    ensures forall k :: 0 <= k < |r.memory| ==> r.memory[k].timestamp > cutoff
    ensures forall k :: 0 <= k < |r.disk| ==> r.disk[k].timestamp > cutoff
    ensures forall k :: 0 <= k < |r.network| ==> r.network[k].timestamp > cutoff
    ensures multiset(r.disk) <= multiset(h.disk) && multiset(r.network) <= multiset(h.network)
  {
    History(Retain(h.cpu, CpuStamp, cutoff), Retain(h.memory, MemoryStamp, cutoff),
            Retain(h.disk, SampleStamp, cutoff), Retain(h.network, SampleStamp, cutoff))
  }

  /**
   * `_store_historical_data`: append a CPU and a memory sample taken at
   * `now`, then keep in every list only what is newer than a day ago. If
   * either reading raises, nothing changes.
   */
  function StoreHistorical(h: History, now: int, cpu: Option<CpuInfo>, memory: Option<MemoryInfo>): (r: History)
    ensures cpu.None? || memory.None? ==> r == h
    ensures cpu.Some? && memory.Some? ==>
      && (forall k :: 0 <= k < |r.cpu| ==> r.cpu[k].timestamp > now - RetentionWindow)
      && (forall k :: 0 <= k < |r.memory| ==> r.memory[k].timestamp > now - RetentionWindow)
      && (forall k :: 0 <= k < |r.disk| ==> r.disk[k].timestamp > now - RetentionWindow)
      && (forall k :: 0 <= k < |r.network| ==> r.network[k].timestamp > now - RetentionWindow)
      && multiset(r.disk) <= multiset(h.disk) && multiset(r.network) <= multiset(h.network)
  {
    if cpu.None? || memory.None? then h
    else
      var cpuSample := CpuSample(now, cpu.value.usagePercent, cpu.value.temperature);
      var memorySample := MemorySample(now, memory.value.usagePercent, memory.value.swapUsagePercent);
      Prune(History(h.cpu + [cpuSample], h.memory + [memorySample], h.disk, h.network), now - RetentionWindow)
  }

  /** The CPU sample just taken is the newest CPU entry kept. */
  lemma StoreAppendsSamples(h: History, now: int, cpu: CpuInfo, memory: MemoryInfo)
    ensures var r := StoreHistorical(h, now, Some(cpu), Some(memory)).cpu;
      |r| > 0 && r[|r| - 1] == CpuSample(now, cpu.usagePercent, cpu.temperature)
  {
    var c := CpuSample(now, cpu.usagePercent, cpu.temperature);
    assert StoreHistorical(h, now, Some(cpu), Some(memory)).cpu == Retain(h.cpu + [c], CpuStamp, now - RetentionWindow);
    RetainFresh(h.cpu, c, CpuStamp, now - RetentionWindow);
  }

  /** The memory sample just taken is the newest memory entry kept. */
  lemma StoreAppendsMemorySample(h: History, now: int, cpu: CpuInfo, memory: MemoryInfo)
    ensures var r := StoreHistorical(h, now, Some(cpu), Some(memory)).memory;
      |r| > 0 && r[|r| - 1] == MemorySample(now, memory.usagePercent, memory.swapUsagePercent)
  {
    var m := MemorySample(now, memory.usagePercent, memory.swapUsagePercent);
    assert StoreHistorical(h, now, Some(cpu), Some(memory)).memory ==
      Retain(h.memory + [m], MemoryStamp, now - RetentionWindow);
    RetainFresh(h.memory, m, MemoryStamp, now - RetentionWindow);
  }

  /** A stored CPU sample younger than a day survives the next store. */
  lemma StoreKeepsRecent(h: History, now: int, cpu: CpuInfo, memory: MemoryInfo, i: nat)
    requires i < |h.cpu| && h.cpu[i].timestamp > now - RetentionWindow
    ensures h.cpu[i] in StoreHistorical(h, now, Some(cpu), Some(memory)).cpu
  {
    var s := h.cpu + [CpuSample(now, cpu.usagePercent, cpu.temperature)];
    assert s[i] == h.cpu[i];
    RetainKeeps(s, CpuStamp, now - RetentionWindow, i);
  }

  /**
   * `analyze_system_performance`: the issue list, and the history after
   * storing the snapshot's CPU and memory figures.
   */
  function AnalyzeSystemPerformance(h: History, now: int, snap: Snapshot): (r: (seq<Issue>, History))
    ensures AllWellFormed(r.0) && StageOrdered(r.0)
    ensures snap.cpu.Some? && snap.memory.Some? ==>
      forall k :: 0 <= k < |r.1.cpu| ==> r.1.cpu[k].timestamp > now - RetentionWindow
    ensures snap.cpu.None? ==> r.1 == h && CpuHighUsage !in Kinds(r.0)
  {
    IssuesReportCpuAndMemory(snap);
    (Issues(snap), StoreHistorical(h, now, snap.cpu, snap.memory))
  }
}

=== FILE: persistence.dfy ===
/**
 * The two files the engine keeps: the state document (per-task `last_run`
 * and the capability flags) and the history document (the most recent
 * results). Files are modelled as optional parsed documents; JSON syntax
 * and paths are not modelled.
 */
module Persistence {
  import opened Common
  import opened PySeq
  import opened MaintenanceTypes

  /** A timestamp field as found in a file: JSON null, an ISO-8601 text that parses, or some other value. */
  datatype RawStamp = NullStamp | IsoStamp(t: nat) | BadStamp(text: string)

  /** The `last_run` member of the state document. */
  datatype LastRunField = LastRunAbsent | LastRunMap(entries: map<string, RawStamp>) | LastRunNotMap

  /** A state file that is unreadable or not a JSON object, or the object's relevant members. */
  datatype StateDoc = StateUnreadable | StateDoc(lastRun: LastRunField, flags: map<string, bool>)

  const FirmwareNoSupportKey := "firmware_no_supported_hardware"
  const SmartctlNotFoundKey := "smartctl_not_found"
  const NoSmartDevicesKey := "no_smart_devices_found"
  const HasSataKey := "has_sata_devices"
  const HasNvmeKey := "has_nvme_devices"

  function FlagsDoc(f: Flags): map<string, bool> {
    map[FirmwareNoSupportKey := f.firmwareNoSupportedHardware,
        SmartctlNotFoundKey := f.smartctlNotFound,
        NoSmartDevicesKey := f.noSmartDevicesFound,
        HasSataKey := f.hasSataDevices,
        HasNvmeKey := f.hasNvmeDevices]
  }

  /** How one `last_run` is written: its ISO text, or null. */
  function StampOf(lastRun: Option<nat>): RawStamp {
    match lastRun
    case Some(s) => IsoStamp(s)
    case None => NullStamp
  }

  function LastRunDoc(tasks: seq<Task>): (m: map<string, RawStamp>)
    ensures forall i :: 0 <= i < |tasks| ==> tasks[i].id in m
    ensures forall k :: k in m ==> exists i :: 0 <= i < |tasks| && tasks[i].id == k
  {
    if |tasks| == 0 then map[]
    else
      var rest := LastRunDoc(tasks[..|tasks| - 1]);
      var t := tasks[|tasks| - 1];
      rest[t.id := StampOf(t.lastRun)]
  }

  /** What `_save_last_run_state` writes: every task's `last_run` (or null) and all five flags. */
  function SaveState(tasks: seq<Task>, flags: Flags): StateDoc {
    StateDoc(LastRunMap(LastRunDoc(tasks)), FlagsDoc(flags))
  }

  /**
   * The state document names every task and no other id, holds each task's
   * own stamp when ids are distinct, and gives the five flags back to any
   * loader.
   */
  lemma SaveStateContents(tasks: seq<Task>, flags: Flags)
    ensures var r := SaveState(tasks, flags);
      && r.StateDoc? && r.lastRun.LastRunMap?
      && (forall k :: k in r.lastRun.entries <==> exists i :: 0 <= i < |tasks| && tasks[i].id == k)
      && (DistinctIds(tasks) ==>
            forall i :: 0 <= i < |tasks| ==> r.lastRun.entries[tasks[i].id] == StampOf(tasks[i].lastRun))
      && forall ts, f :: LoadState(ts, f, Some(r)).1 == flags
  {
    FlagsDocRoundTrip(flags);
    if DistinctIds(tasks) {
      LastRunDocValues(tasks);
    }
  }

  function FlagOr(m: map<string, bool>, key: string): bool {
    if key in m then m[key] else false
  }

  /** A task's `last_run` after loading one stamp: set when it parses, cleared when a non-empty text does not. */
  function LoadStamp(current: Option<nat>, raw: RawStamp): Option<nat> {
    match raw
    case IsoStamp(t) => Some(t)
    case BadStamp(text) => if text == "" then current else None
    case NullStamp => current
  }

  /**
   * The loop over the file's `last_run` object: only `last_run` changes; an
   * id the file does not mention, a null or an empty text keeps it; a stamp
   * that parses sets it; any other text clears it.
   */
  function LoadLastRuns(tasks: seq<Task>, m: map<string, RawStamp>): (r: seq<Task>)
    ensures |r| == |tasks|
    ensures forall i :: 0 <= i < |tasks| ==> r[i] == tasks[i].(lastRun := r[i].lastRun)
    ensures forall i :: 0 <= i < |tasks| && tasks[i].id !in m ==> r[i] == tasks[i]
    ensures forall i :: 0 <= i < |tasks| && tasks[i].id in m && (m[tasks[i].id].NullStamp? || m[tasks[i].id] == BadStamp("")) ==>
      r[i] == tasks[i]
    ensures forall i :: 0 <= i < |tasks| && tasks[i].id in m && m[tasks[i].id].IsoStamp? ==>
      r[i].lastRun == Some(m[tasks[i].id].t)
    ensures forall i :: 0 <= i < |tasks| && tasks[i].id in m && m[tasks[i].id].BadStamp? && m[tasks[i].id].text != "" ==>
      r[i].lastRun.None?
  {
    seq(|tasks|, i requires 0 <= i < |tasks| =>
      tasks[i].(lastRun := if tasks[i].id in m then LoadStamp(tasks[i].lastRun, m[tasks[i].id]) else tasks[i].lastRun))
  }

  /**
   * `_load_last_run_state`: a missing or unreadable file, or a `last_run`
   * member that is not an object, loads nothing further; otherwise `last_run`
   * is set for known ids only and absent flags read as false.
   */
  function LoadState(tasks: seq<Task>, flags: Flags, doc: Option<StateDoc>): (r: (seq<Task>, Flags))
    ensures |r.0| == |tasks|
    ensures forall i :: 0 <= i < |tasks| ==> r.0[i] == tasks[i].(lastRun := r.0[i].lastRun)
    ensures (doc.None? || doc.value.StateUnreadable?) ==> r == (tasks, flags)
    ensures doc.Some? && doc.value.StateDoc? && doc.value.lastRun.LastRunNotMap? ==> r == (tasks, flags)
    ensures doc.Some? && doc.value.StateDoc? && !doc.value.lastRun.LastRunNotMap? ==>
      r.1 == Flags(FlagOr(doc.value.flags, FirmwareNoSupportKey), FlagOr(doc.value.flags, SmartctlNotFoundKey),
                   FlagOr(doc.value.flags, NoSmartDevicesKey), FlagOr(doc.value.flags, HasSataKey),
                   FlagOr(doc.value.flags, HasNvmeKey))
  {
    match doc
    case None => (tasks, flags)
    case Some(StateUnreadable) => (tasks, flags)
    case Some(StateDoc(lastRun, fm)) =>
      match lastRun
      case LastRunNotMap => (tasks, flags)
      case LastRunAbsent =>
        (tasks, Flags(FlagOr(fm, FirmwareNoSupportKey), FlagOr(fm, SmartctlNotFoundKey),
                      FlagOr(fm, NoSmartDevicesKey), FlagOr(fm, HasSataKey), FlagOr(fm, HasNvmeKey)))
      case LastRunMap(m) =>
        (LoadLastRuns(tasks, m),
         Flags(FlagOr(fm, FirmwareNoSupportKey), FlagOr(fm, SmartctlNotFoundKey),
               FlagOr(fm, NoSmartDevicesKey), FlagOr(fm, HasSataKey), FlagOr(fm, HasNvmeKey)))
  }

  /** With distinct ids, the document holds task `i`'s own stamp under its id. */
  lemma {:induction false} LastRunDocAt(tasks: seq<Task>, i: nat)
    requires DistinctIds(tasks)
    requires i < |tasks|
    ensures LastRunDoc(tasks)[tasks[i].id] == StampOf(tasks[i].lastRun)
  {
    var n := |tasks| - 1;
    if i < n {
      var prefix := tasks[..n];
      assert prefix[i] == tasks[i];
      assert tasks[i].id != tasks[n].id;
      LastRunDocAt(prefix, i);
    }
  }

  /** With distinct ids, the document holds each task's own stamp. */
  lemma LastRunDocValues(tasks: seq<Task>)
    requires DistinctIds(tasks)
    ensures forall i :: 0 <= i < |tasks| ==> LastRunDoc(tasks)[tasks[i].id] == StampOf(tasks[i].lastRun)
  {
    forall i | 0 <= i < |tasks|
      ensures LastRunDoc(tasks)[tasks[i].id] == StampOf(tasks[i].lastRun)
    {
      LastRunDocAt(tasks, i);
    }
  }

  /** The five flags come back from their document. */
  lemma FlagsDocRoundTrip(f: Flags)
    ensures var fm := FlagsDoc(f);
      Flags(FlagOr(fm, FirmwareNoSupportKey), FlagOr(fm, SmartctlNotFoundKey), FlagOr(fm, NoSmartDevicesKey),
            FlagOr(fm, HasSataKey), FlagOr(fm, HasNvmeKey)) == f
  {
    var fm := FlagsDoc(f);
    assert FlagOr(fm, FirmwareNoSupportKey) == f.firmwareNoSupportedHardware;
    assert FlagOr(fm, SmartctlNotFoundKey) == f.smartctlNotFound;
    assert FlagOr(fm, NoSmartDevicesKey) == f.noSmartDevicesFound;
    assert FlagOr(fm, HasSataKey) == f.hasSataDevices;
    assert FlagOr(fm, HasNvmeKey) == f.hasNvmeDevices;
  }

  /** The saved state depends on the tasks only through their ids and `last_run`. */
  lemma {:induction false} SaveStateIgnoresRuntimeFields(a: seq<Task>, b: seq<Task>, flags: Flags)
    requires |a| == |b| && forall i :: 0 <= i < |a| ==> a[i].id == b[i].id && a[i].lastRun == b[i].lastRun
    ensures SaveState(a, flags) == SaveState(b, flags)
  {
    LastRunDocAgree(a, b);
  }

  lemma {:induction false} LastRunDocAgree(a: seq<Task>, b: seq<Task>)
    requires |a| == |b| && forall i :: 0 <= i < |a| ==> a[i].id == b[i].id && a[i].lastRun == b[i].lastRun
    ensures LastRunDoc(a) == LastRunDoc(b)
  {
    if |a| > 0 {
      LastRunDocAgree(a[..|a| - 1], b[..|b| - 1]);
    }
  }

  /**
   * Saving then reloading into a freshly built catalog (same ids, no
   * `last_run`) reproduces every task's `last_run` and all five flags.
   */
  lemma StateRoundTrip(tasks: seq<Task>, flags: Flags, blank: seq<Task>, anyFlags: Flags)
    requires DistinctIds(tasks)
    requires |blank| == |tasks| && forall i :: 0 <= i < |tasks| ==> blank[i].id == tasks[i].id && blank[i].lastRun.None?
    ensures var r := LoadState(blank, anyFlags, Some(SaveState(tasks, flags)));
      r.1 == flags && forall i :: 0 <= i < |tasks| ==> r.0[i].lastRun == tasks[i].lastRun
  {
    var doc := SaveState(tasks, flags);
    var m := LastRunDoc(tasks);
    FlagsDocRoundTrip(flags);
    var r := LoadState(blank, anyFlags, Some(doc));
    assert r.0 == LoadLastRuns(blank, m);
    LastRunDocValues(tasks);
    forall i | 0 <= i < |tasks|
      ensures r.0[i].lastRun == tasks[i].lastRun
    {
      assert blank[i].id in m;
    }
  }

  // ---------------------------------------------------------------------
  // History
  // ---------------------------------------------------------------------

  /** The number of results the history file keeps. */
  const HistoryCap := 100

  /**
   * One history entry as found in the file: required members may be
   * missing; `output` and `duration` have defaults; `error` may be null.
   */
  datatype RawEntry = RawEntry(
    taskId: Option<string>,
    success: Option<bool>,
    output: Option<string>,
    error: Option<string>,
    duration: Option<nat>,
    timestamp: RawStamp)

  /** An unreadable history file, or the object's `history` member (absent or a list of entries). */
  datatype HistoryDoc = HistoryUnreadable | HistoryDoc(history: Option<seq<RawEntry>>)

  function EncodeEntry(r: MaintenanceResult): RawEntry {
    RawEntry(Some(r.taskId), Some(r.success), Some(r.output), r.error, Some(r.duration), IsoStamp(r.timestamp))
  }

  /** Rebuilds one result; a missing id, success flag or parseable timestamp is an error. */
  function DecodeEntry(e: RawEntry): Option<MaintenanceResult> {
    if e.taskId.None? || e.success.None? || !e.timestamp.IsoStamp? then None
    else Some(MaintenanceResult(e.taskId.value, e.success.value, e.output.GetOr(""), e.error,
                                e.duration.GetOr(0), e.timestamp.t))
  }

  /** Rebuilds every entry, or fails as a whole if any entry is malformed. */
  function DecodeAll(es: seq<RawEntry>): (r: Option<seq<MaintenanceResult>>)
    ensures r.Some? <==> forall i :: 0 <= i < |es| ==> DecodeEntry(es[i]).Some?
    ensures r.Some? ==> |r.value| == |es| && forall i :: 0 <= i < |es| ==> Some(r.value[i]) == DecodeEntry(es[i])
  {
    if |es| == 0 then Some([])
    else
      assert forall i :: 1 <= i < |es| ==> es[1..][i - 1] == es[i];
      match DecodeEntry(es[0])
      case None => None
      case Some(x) =>
        match DecodeAll(es[1..])
        case None => None
        case Some(rest) => Some([x] + rest)
  }

  /**
   * `_load_task_history`: all-or-nothing. A missing or unreadable file, or
   * any malformed entry, leaves the history empty.
   */
  function LoadHistory(doc: Option<HistoryDoc>): (h: seq<MaintenanceResult>)
    ensures doc.Some? && doc.value.HistoryDoc? && doc.value.history.Some? ==>
      ((exists i :: 0 <= i < |doc.value.history.value| && DecodeEntry(doc.value.history.value[i]).None?) ==> h == [])
  {
    match doc
    case Some(HistoryDoc(Some(es))) => DecodeAll(es).GetOr([])
    case _ => []
  }

  /** `_save_task_history`: only the last `HistoryCap` results are written. */
  function SaveHistory(h: seq<MaintenanceResult>): (d: HistoryDoc)
    ensures d.HistoryDoc? && d.history.Some? && |d.history.value| == Min(HistoryCap, |h|)
  {
    var kept := Tail(h, HistoryCap);
    HistoryDoc(Some(seq(|kept|, i requires 0 <= i < |kept| => EncodeEntry(kept[i]))))
  }

  /** Reloading a saved history yields exactly its last 100 results, in order. */
  lemma HistoryRoundTrip(h: seq<MaintenanceResult>)
    ensures LoadHistory(Some(SaveHistory(h))) == Tail(h, HistoryCap)
    ensures |LoadHistory(Some(SaveHistory(h)))| <= HistoryCap
  {
    var kept := Tail(h, HistoryCap);
    var es := SaveHistory(h).history.value;
    assert forall i :: 0 <= i < |es| ==> DecodeEntry(es[i]) == Some(kept[i]);
    var r := DecodeAll(es);
    assert r.value == kept;
  }
}

=== FILE: pyseq.dfy ===
/**
 * Python list slicing with an integer bound, and `list.sort(key=…, reverse=True)`.
 */
module PySeq {
  import opened Common

  /** Python's `s[:limit]`; a negative `limit` drops that many elements from the end. */
  function Head<T>(s: seq<T>, limit: int): (r: seq<T>)
    ensures |r| <= |s| && r == s[..|r|]
    ensures limit >= 0 ==> |r| == Min(limit, |s|)
    ensures limit < 0 ==> |r| == Max(0, |s| + limit)
  {
    if limit >= 0 then s[..Min(limit, |s|)] else s[..Max(0, |s| + limit)]
  }

  /**
   * Python's `s[-limit:]`. Because `-0 == 0`, a zero `limit` keeps the whole
   * list; a negative one drops `-limit` elements from the front.
   */
  function Tail<T>(s: seq<T>, limit: int): (r: seq<T>)
    ensures |r| <= |s| && r == s[|s| - |r|..]
    ensures limit > 0 ==> |r| == Min(limit, |s|)
    ensures limit == 0 ==> r == s
    ensures limit < 0 ==> |r| == Max(0, |s| + limit)
  {
    if limit > 0 then s[|s| - Min(limit, |s|)..]
    else if limit == 0 then s
    else s[Min(-limit, |s|)..]
  }

  /** Taking the last `limit` of the last `cap` is taking the last `limit`, when `limit <= cap`. */
  lemma TailOfTail<T>(s: seq<T>, cap: int, limit: int)
    requires 0 < limit <= cap
    ensures Tail(Tail(s, cap), limit) == Tail(s, limit)
  {
  }

  /** The elements are in non-increasing order of `key`. */
  predicate SortedDesc<T>(s: seq<T>, key: T -> real) {
    forall i, j :: 0 <= i < j < |s| ==> key(s[i]) >= key(s[j])
  }

  /** Inserts `x` after every element whose key is at least `key(x)`. */
  function InsertDesc<T>(x: T, s: seq<T>, key: T -> real): (r: seq<T>)
    requires SortedDesc(s, key)
    ensures SortedDesc(r, key)
    ensures |r| == |s| + 1
    ensures r[0] == x || (|s| > 0 && r[0] == s[0])
  {
    if |s| == 0 then [x]
    else if key(s[0]) >= key(x) then
      var rest := InsertDesc(x, s[1..], key);
      assert key(s[0]) >= key(rest[0]);
      assert forall k :: 0 <= k < |rest| ==> key(rest[0]) >= key(rest[k]);
      [s[0]] + rest
    else
      [x] + s
  }

  /** Insertion adds exactly `x`. */
  lemma {:induction false} InsertDescPermutes<T>(x: T, s: seq<T>, key: T -> real)
    requires SortedDesc(s, key)
    ensures multiset(InsertDesc(x, s, key)) == multiset(s) + multiset{x}
  {
    if |s| > 0 && key(s[0]) >= key(x) {
      InsertDescPermutes(x, s[1..], key);
      assert s == [s[0]] + s[1..];
    }
  }

  /**
   * Python's stable `sort(key=key, reverse=True)`: elements are taken in
   * order and each is placed after the earlier ones with an equal key.
   */
  function SortDesc<T>(s: seq<T>, key: T -> real): (r: seq<T>)
    ensures SortedDesc(r, key)
    ensures |r| == |s|
  {
    if |s| == 0 then []
    else InsertDesc(s[|s| - 1], SortDesc(s[..|s| - 1], key), key)
  }

  /** Sorting rearranges the elements: the result is a permutation of the input. */
  lemma {:induction false} SortDescPermutes<T>(s: seq<T>, key: T -> real)
    ensures multiset(SortDesc(s, key)) == multiset(s)
  {
    if |s| > 0 {
      SortDescPermutes(s[..|s| - 1], key);
      InsertDescPermutes(s[|s| - 1], SortDesc(s[..|s| - 1], key), key);
      assert s == s[..|s| - 1] + [s[|s| - 1]];
    }
  }

  /** The elements of `s` whose key is exactly `c`, in their order in `s`. */
  function WithKey<T>(s: seq<T>, key: T -> real, c: real): (r: seq<T>)
    ensures |r| <= |s|
  {
    if |s| == 0 then [] else (if key(s[0]) == c then [s[0]] else []) + WithKey(s[1..], key, c)
  }

  lemma {:induction false} WithKeyAppend<T>(s: seq<T>, x: T, key: T -> real, c: real)
    ensures WithKey(s + [x], key, c) == WithKey(s, key, c) + (if key(x) == c then [x] else [])
  {
    if |s| > 0 {
      assert (s + [x])[1..] == s[1..] + [x];
      WithKeyAppend(s[1..], x, key, c);
    } else {
      assert (s + [x])[1..] == [];
    }
  }

  lemma {:induction false} WithKeyNone<T>(s: seq<T>, key: T -> real, c: real)
    requires forall i :: 0 <= i < |s| ==> key(s[i]) < c
    ensures WithKey(s, key, c) == []
  {
    if |s| > 0 {
      WithKeyNone(s[1..], key, c);
    }
  }

  /** Insertion places `x` after every element with an equal key. */
  lemma {:induction false} InsertDescStable<T>(x: T, s: seq<T>, key: T -> real, c: real)
    requires SortedDesc(s, key)
    ensures WithKey(InsertDesc(x, s, key), key, c) == WithKey(s, key, c) + (if key(x) == c then [x] else [])
  {
    var r := InsertDesc(x, s, key);
    if |s| == 0 {
      assert r == [x];
      assert r[1..] == [];
    } else if key(s[0]) >= key(x) {
      var rest := InsertDesc(x, s[1..], key);
      assert r == [s[0]] + rest && r[1..] == rest;
      InsertDescStable(x, s[1..], key, c);
    } else {
      assert r == [x] + s && r[1..] == s;
      if key(x) == c {
        WithKeyNone(s, key, c);
      }
    }
  }

  /**
   * The sort is stable: for every key value, the elements carrying it keep
   * their relative order.
   */
  lemma {:induction false} SortDescStable<T>(s: seq<T>, key: T -> real, c: real)
    ensures WithKey(SortDesc(s, key), key, c) == WithKey(s, key, c)
  {
    if |s| > 0 {
      var init, x := s[..|s| - 1], s[|s| - 1];
      var tail: seq<T> := if key(x) == c then [x] else [];
      assert s == init + [x];
      calc {
        WithKey(SortDesc(s, key), key, c);
        WithKey(InsertDesc(x, SortDesc(init, key), key), key, c);
        { InsertDescStable(x, SortDesc(init, key), key, c); }
        WithKey(SortDesc(init, key), key, c) + tail;
        { SortDescStable(init, key, c); }
        WithKey(init, key, c) + tail;
        { WithKeyAppend(init, x, key, c); }
        WithKey(init + [x], key, c);
      }
    }
  }

  /**
   * The positions from `i` on, in order, of the elements `keep` accepts:
   * where the elements a filtering comprehension keeps come from.
   */
  function Positions<T>(s: seq<T>, keep: T -> bool, i: nat): (r: seq<nat>)
    requires i <= |s|
    ensures forall k :: 0 <= k < |r| ==> i <= r[k] < |s|
    decreases |s| - i
  {
    if i == |s| then []
    else (if keep(s[i]) then [i] else []) + Positions(s, keep, i + 1)
  }

  /** The filter keeps exactly the accepted positions from `i` on, in increasing order. */
  lemma PositionsMembers<T>(s: seq<T>, keep: T -> bool, i: nat)
    requires i <= |s|
    ensures var r := Positions(s, keep, i);
      && (forall k :: 0 <= k < |r| ==> keep(s[r[k]]))
      && (forall j :: i <= j < |s| && keep(s[j]) ==> j in r)
      && (forall k, l :: 0 <= k < l < |r| ==> r[k] < r[l])
  {
    PositionsSound(s, keep, i);
    PositionsComplete(s, keep, i);
    PositionsIncreasing(s, keep, i);
  }

  /** `Positions` at `i` is its own head followed by `Positions` at `i + 1`. */
  lemma PositionsSplit<T>(s: seq<T>, keep: T -> bool, i: nat)
    requires i < |s|
    ensures var head: seq<nat> := if keep(s[i]) then [i] else [];
      var rest := Positions(s, keep, i + 1);
      var r := Positions(s, keep, i);
      && r == head + rest
      && (forall k :: 0 <= k < |rest| ==> r[|head| + k] == rest[k])
      && (forall k :: 0 <= k < |head| ==> r[k] == i)
  {
  }

  lemma {:induction false} PositionsSound<T>(s: seq<T>, keep: T -> bool, i: nat)
    requires i <= |s|
    ensures var r := Positions(s, keep, i);
      forall k :: 0 <= k < |r| ==> keep(s[r[k]])
    decreases |s| - i
  {
    if i < |s| {
      PositionsSound(s, keep, i + 1);
      PositionsSplit(s, keep, i);
      var r := Positions(s, keep, i);
      var rest := Positions(s, keep, i + 1);
      var h := |r| - |rest|;
      forall k | 0 <= k < |r|
        ensures keep(s[r[k]])
      {
        if k >= h {
          assert r[k] == rest[k - h];
        } else {
          assert h == 1 && r[k] == i;
        }
      }
    }
  }

  lemma {:induction false} PositionsComplete<T>(s: seq<T>, keep: T -> bool, i: nat)
    requires i <= |s|
    ensures var r := Positions(s, keep, i);
      forall j :: i <= j < |s| && keep(s[j]) ==> j in r
    decreases |s| - i
  {
    if i < |s| {
      PositionsComplete(s, keep, i + 1);
      PositionsSplit(s, keep, i);
    }
  }

  lemma {:induction false} PositionsIncreasing<T>(s: seq<T>, keep: T -> bool, i: nat)
    requires i <= |s|
    ensures var r := Positions(s, keep, i);
      forall k, l :: 0 <= k < l < |r| ==> r[k] < r[l]
    decreases |s| - i
  {
    if i < |s| {
      PositionsIncreasing(s, keep, i + 1);
      PositionsSplit(s, keep, i);
      var r := Positions(s, keep, i);
      var rest := Positions(s, keep, i + 1);
      var h := |r| - |rest|;
      forall k, l | 0 <= k < l < |r|
        ensures r[k] < r[l]
      {
        if k >= h {
          assert r[k] == rest[k - h] && r[l] == rest[l - h];
        } else {
          assert r[l] == rest[l - h];
        }
      }
    }
  }
}

=== FILE: pytext.dfy ===
/**
 * The handful of Python `str` operations the modelled code relies on:
 * `startswith`, `endswith`, `in`, `strip`, the first field of `split()`,
 * `replace(old, '')`, decimal rendering of integers and the `int()` /
 * `float()` parsers restricted to ASCII decimal notation, with the
 * underscores Python allows between digits.
 */
module PyText {
  import opened Common

  predicate StartsWith(s: string, prefix: string) {
    |prefix| <= |s| && s[..|prefix|] == prefix
  }

  predicate EndsWith(s: string, suffix: string) {
    |suffix| <= |s| && s[|s| - |suffix|..] == suffix
  }

  /** Python's `sub in s`. */
  predicate Contains(s: string, sub: string)
    decreases |s|
  {
    StartsWith(s, sub) || (|s| > 0 && Contains(s[1..], sub))
  }

  /**
   * The characters `str.strip()` and `str.split()` treat as whitespace
   * (those for which `str.isspace()` holds): ASCII blanks and controls
   * 9-13 and 28-31, and the Unicode spaces and line separators.
   */
  predicate IsSpace(c: char) {
    || c == ' ' || (9 <= c as int <= 13) || (28 <= c as int <= 31)
    || c as int == 0x85 || c as int == 0xa0 || c as int == 0x1680
    || (0x2000 <= c as int <= 0x200a)
    || c as int == 0x2028 || c as int == 0x2029 || c as int == 0x202f
    || c as int == 0x205f || c as int == 0x3000
  }

  /** `s` with its leading whitespace removed (`lstrip`). */
  function SkipSpace(s: string): (r: string)
    ensures |r| <= |s| && r == s[|s| - |r|..]
    ensures r == [] || !IsSpace(r[0])
    ensures forall i :: 0 <= i < |s| - |r| ==> IsSpace(s[i])
  {
    if |s| > 0 && IsSpace(s[0]) then SkipSpace(s[1..]) else s
  }

  /** `s` with its trailing whitespace removed (`rstrip`). */
  function DropTrailing(s: string): (r: string)
    ensures |r| <= |s| && r == s[..|r|]
    ensures r == [] || !IsSpace(r[|r| - 1])
    ensures forall i :: |r| <= i < |s| ==> IsSpace(s[i])
  {
    if |s| > 0 && IsSpace(s[|s| - 1]) then DropTrailing(s[..|s| - 1]) else s
  }

  /** Python's `s.strip()`. */
  function Strip(s: string): (r: string)
    ensures r == [] || (!IsSpace(r[0]) && !IsSpace(r[|r| - 1]))
  {
    DropTrailing(SkipSpace(s))
  }

  predicate AllSpace(t: string) {
    forall k :: 0 <= k < |t| ==> IsSpace(t[k])
  }

  /** Stripping removes a run of whitespace at each end and keeps the middle as it is. */
  lemma StripKeepsMiddle(s: string)
    ensures exists a, b :: AllSpace(a) && AllSpace(b) && s == a + Strip(s) + b
  {
    var t := SkipSpace(s);
    TrimmedEnds(s, t, DropTrailing(t));
  }

  /** Dropping a blank head and then a blank tail leaves a middle piece. */
  lemma TrimmedEnds(s: string, t: string, r: string)
    requires |t| <= |s| && t == s[|s| - |t|..] && forall i :: 0 <= i < |s| - |t| ==> IsSpace(s[i])
    requires |r| <= |t| && r == t[..|r|] && forall i :: |r| <= i < |t| ==> IsSpace(t[i])
    ensures exists a, b :: AllSpace(a) && AllSpace(b) && s == a + r + b
  {
    var i := |s| - |t|;
    var a, b := s[..i], s[i + |r|..];
    assert s == a + r + b by {
      assert r == s[i..i + |r|];
    }
    assert AllSpace(a);
    assert AllSpace(b) by {
      forall k | 0 <= k < |b|
        ensures IsSpace(b[k])
      {
        assert b[k] == t[|r| + k];
      }
    }
  }

  /** A blank head does not change what `lstrip` leaves. */
  lemma {:induction false} SkipBlank(p: string, y: string)
    requires AllSpace(p)
    ensures SkipSpace(p + y) == SkipSpace(y)
  {
    if p != [] {
      assert (p + y)[0] == p[0];
      assert (p + y)[1..] == p[1..] + y;
      SkipBlank(p[1..], y);
    } else {
      assert p + y == y;
    }
  }

  /** A blank tail does not change what `rstrip` leaves. */
  lemma {:induction false} DropBlank(y: string, q: string)
    requires AllSpace(q)
    ensures DropTrailing(y + q) == DropTrailing(y)
  {
    if q != [] {
      var n := |q| - 1;
      assert (y + q)[|y + q| - 1] == q[n];
      assert (y + q)[..|y + q| - 1] == y + q[..n];
      DropBlank(y, q[..n]);
    } else {
      assert y + q == y;
    }
  }

  /** Stripping a middle piece framed by whitespace gives back that piece. */
  lemma StripOf(p: string, m: string, q: string)
    requires AllSpace(p) && AllSpace(q)
    requires m == [] || (!IsSpace(m[0]) && !IsSpace(m[|m| - 1]))
    ensures Strip(p + m + q) == m
  {
    assert p + m + q == p + (m + q);
    SkipBlank(p, m + q);
    if m == [] {
      assert m + q == q + [];
      SkipBlank(q, []);
    } else {
      assert (m + q)[0] == m[0];
      assert SkipSpace(m + q) == m + q;
    }
    DropBlank(m, q);
  }

  /** Whitespace added around a text does not change its strip. */
  lemma StripPadded(a: string, s: string, b: string)
    requires AllSpace(a) && AllSpace(b)
    ensures Strip(a + s + b) == Strip(s)
  {
    StripKeepsMiddle(s);
    var p, q :| AllSpace(p) && AllSpace(q) && s == p + Strip(s) + q;
    var m := Strip(s);
    Regroup(a, p, m, q, b);
    BlankJoin(a, p);
    BlankJoin(q, b);
    StripOf(a + p, m, q + b);
  }

  lemma Regroup(a: string, p: string, m: string, q: string, b: string)
    ensures a + (p + m + q) + b == (a + p) + m + (q + b)
  {
    calc {
      a + (p + m + q) + b;
      a + (p + (m + q)) + b;
      (a + p) + (m + q) + b;
      (a + p) + ((m + q) + b);
      (a + p) + (m + (q + b));
      (a + p) + m + (q + b);
    }
  }

  lemma BlankJoin(x: string, y: string)
    requires AllSpace(x) && AllSpace(y)
    ensures AllSpace(x + y)
  {
    forall k | 0 <= k < |x + y|
      ensures IsSpace((x + y)[k])
    {
      if k < |x| {
        assert (x + y)[k] == x[k];
      } else {
        assert (x + y)[k] == y[k - |x|];
      }
    }
  }

  /** The longest prefix of `s` without whitespace. */
  function TakeWord(s: string): (r: string)
    ensures |r| <= |s| && r == s[..|r|]
    ensures forall i :: 0 <= i < |r| ==> !IsSpace(r[i])
    ensures |r| < |s| ==> IsSpace(s[|r|])
  {
    if |s| == 0 || IsSpace(s[0]) then [] else [s[0]] + TakeWord(s[1..])
  }

  /** `s.split()[0]`, or None when `s.split()` is empty. */
  function FirstToken(s: string): (r: Option<string>)
    ensures r.Some? ==> |r.value| > 0 && forall i :: 0 <= i < |r.value| ==> !IsSpace(r.value[i])
    ensures r.None? <==> forall i :: 0 <= i < |s| ==> IsSpace(s[i])
  {
    var t := SkipSpace(s);
    if t == [] then None else Some(TakeWord(t))
  }

  /** Cutting a string just before trailing whitespace does not change its first word. */
  lemma {:induction false} TakeWordOfPrefix(p: string, t: string)
    requires |p| <= |t| && p == t[..|p|]
    requires |p| < |t| ==> IsSpace(t[|p|])
    ensures TakeWord(p) == TakeWord(t)
    decreases |p|
  {
    if |p| == 0 || IsSpace(p[0]) {
    } else {
      assert t[0] == p[0];
      TakeWordOfPrefix(p[1..], t[1..]);
    }
  }

  /** Stripping a line never changes the first field of its `split()`. */
  lemma FirstTokenOfStrip(s: string)
    ensures FirstToken(Strip(s)) == FirstToken(s)
  {
    var t := SkipSpace(s);
    var d := DropTrailing(t);
    if t != [] {
      assert d != [] && d[0] == t[0];
      assert SkipSpace(d) == d;
      TakeWordOfPrefix(d, t);
    } else {
      assert d == [];
    }
  }

  /**
   * Python's `s.replace(pat, '')`: a left-to-right scan that deletes
   * every non-overlapping occurrence of `pat` it meets.
   */
  function RemoveAll(s: string, pat: string): (r: string)
    requires |pat| > 0
    ensures |r| <= |s|
    ensures !Contains(s, pat) ==> r == s
    decreases |s|
  {
    if |s| < |pat| then s
    else if s[..|pat|] == pat then RemoveAll(s[|pat|..], pat)
    else [s[0]] + RemoveAll(s[1..], pat)
  }

  predicate IsDigit(c: char) { '0' <= c <= '9' }

  predicate AllDigits(s: string) { forall i :: 0 <= i < |s| ==> IsDigit(s[i]) }

  function DigitValue(c: char): nat
    requires IsDigit(c)
  {
    (c as int - '0' as int) as nat
  }

  function DigitChar(d: nat): (c: char)
    requires d < 10
    ensures IsDigit(c) && DigitValue(c) == d
  {
    ('0' as int + d) as char
  }

  /** The number a string of decimal digits denotes (most significant first). */
  function DigitsValue(s: string): nat
    requires AllDigits(s)
  {
    if |s| == 0 then 0 else DigitsValue(s[..|s| - 1]) * 10 + DigitValue(s[|s| - 1])
  }

  /** Python's `str(n)` for a non-negative integer. */
  function NatToString(n: nat): (r: string)
    ensures |r| > 0 && AllDigits(r)
  {
    if n < 10 then [DigitChar(n)] else NatToString(n / 10) + [DigitChar(n % 10)]
  }

  /** `int(str(n)) == n`: decimal rendering and digit reading are inverse. */
  lemma {:induction false} DigitsValueOfNatToString(n: nat)
    ensures DigitsValue(NatToString(n)) == n
  {
    if n >= 10 {
      var s := NatToString(n);
      assert s[..|s| - 1] == NatToString(n / 10);
      DigitsValueOfNatToString(n / 10);
    }
  }

  /**
   * A run of digits in which single underscores may separate digits, as
   * Python's numeric literals and `int()` / `float()` accept: `1_024`,
   * but not `_1`, `1_` or `1__0`.
   */
  predicate Grouped(s: string) {
    && |s| > 0 && IsDigit(s[0]) && IsDigit(s[|s| - 1])
    && (forall i :: 0 <= i < |s| ==> IsDigit(s[i]) || s[i] == '_')
    && (forall i :: 0 <= i < |s| - 1 ==> IsDigit(s[i]) || IsDigit(s[i + 1]))
  }

  /** `s` without its underscores. */
  function Ungroup(s: string): (r: string)
    ensures |r| <= |s|
    ensures (forall i :: 0 <= i < |s| ==> IsDigit(s[i]) || s[i] == '_') ==> AllDigits(r)
    ensures AllDigits(s) ==> r == s
  {
    if |s| == 0 then []
    else (if s[0] == '_' then [] else [s[0]]) + Ungroup(s[1..])
  }

  /** Removing underscores distributes over concatenation. */
  lemma {:induction false} UngroupAppend(a: string, b: string)
    ensures Ungroup(a + b) == Ungroup(a) + Ungroup(b)
    decreases |a|
  {
    if |a| > 0 {
      var h: string := if a[0] == '_' then [] else [a[0]];
      var c := a + b;
      assert c[0] == a[0] && c[1..] == a[1..] + b;
      calc {
        Ungroup(a + b);
        Ungroup(c);
        h + Ungroup(c[1..]);
        h + Ungroup(a[1..] + b);
        { UngroupAppend(a[1..], b); }
        h + (Ungroup(a[1..]) + Ungroup(b));
        (h + Ungroup(a[1..])) + Ungroup(b);
        Ungroup(a) + Ungroup(b);
      }
    } else {
      assert a + b == b;
    }
  }

  /** The number a grouped digit run denotes, its underscores ignored. */
  function GroupedValue(s: string): nat
    requires Grouped(s)
  {
    DigitsValue(Ungroup(s))
  }

  /** Python's `int(s)` on decimal notation: an optional sign and a grouped digit run. */
  function ParseInt(s: string): (r: Option<int>)
    ensures r.Some? <==> var t := Strip(s);
      Grouped(t) || (|t| > 0 && (t[0] == '-' || t[0] == '+') && Grouped(t[1..]))
    ensures r.Some? && Strip(s)[0] == '-' ==> r.value <= 0
    ensures r.Some? && Strip(s)[0] != '-' ==> r.value >= 0
  {
    var t := Strip(s);
    if |t| > 0 && (t[0] == '-' || t[0] == '+') then
      var body := t[1..];
      if Grouped(body) then
        Some(if t[0] == '-' then 0 - GroupedValue(body) as int else GroupedValue(body) as int)
      else None
    else if Grouped(t) then Some(GroupedValue(t))
    else None
  }

  function Pow10(k: nat): (r: nat)
    ensures r >= 1
  {
    if k == 0 then 1 else 10 * Pow10(k - 1)
  }

  /** An empty string or a grouped digit run: one side of a decimal point. */
  predicate MaybeGrouped(s: string) {
    s == [] || Grouped(s)
  }

  /**
   * Grouped digits, then optionally a point and more grouped digits, with
   * at least one digit overall.
   */
  function UnsignedDecimal(t: string): Option<real>
  {
    if exists i :: 0 <= i < |t| && t[i] == '.' then
      var p := IndexOfPoint(t);
      var whole := t[..p];
      var frac := t[p + 1..];
      if MaybeGrouped(whole) && MaybeGrouped(frac) && |whole| + |frac| > 0 then
        var w, f := Ungroup(whole), Ungroup(frac);
        Some(DigitsValue(w) as real + DigitsValue(f) as real / Pow10(|f|) as real)
      else None
    else if Grouped(t) then Some(GroupedValue(t) as real)
    else None
  }

  function IndexOfPoint(t: string): (p: nat)
    requires exists i :: 0 <= i < |t| && t[i] == '.'
    ensures p < |t| && t[p] == '.'
  {
    if t[0] == '.' then 0 else 1 + IndexOfPoint(t[1..])
  }

  /** Python's `float(s)` on decimal notation (no exponent, `inf` or `nan`). */
  function ParseFloat(s: string): (r: Option<real>)
    ensures ParseInt(s).Some? ==> r == Some(ParseInt(s).value as real)
    ensures r.Some? ==> |Strip(s)| > 0
  {
    var t := Strip(s);
    GroupedDecimal(t);
    if |t| > 0 && (t[0] == '-' || t[0] == '+') then
      GroupedDecimal(t[1..]);
      match UnsignedDecimal(t[1..])
      case Some(v) => Some(if t[0] == '-' then -v else v)
      case None => None
    else UnsignedDecimal(t)
  }

  /** A grouped digit run has no point, so it reads as a decimal with the same value. */
  lemma GroupedDecimal(t: string)
    ensures Grouped(t) ==> UnsignedDecimal(t) == Some(GroupedValue(t) as real)
    ensures UnsignedDecimal(t).Some? ==> |t| > 0
  {
    if Grouped(t) {
      assert forall i :: 0 <= i < |t| ==> t[i] != '.';
    }
  }

  /** Python's `int(x)` for a float `x`: truncation toward zero. */
  function TruncateToInt(x: real): (r: int)
    ensures x >= 0.0 ==> r as real <= x < r as real + 1.0
    ensures x < 0.0 ==> r as real - 1.0 < x <= r as real
  {
    if x >= 0.0 then x.Floor else -((-x).Floor)
  }
}

=== FILE: registry.dfy ===
/** The fixed catalog of maintenance tasks the engine starts from. */
module Registry {
  import opened Common
  import opened MaintenanceTypes

  /** A task that has never been run or scheduled. */
  predicate Untouched(t: Task) {
    t.status == Pending && t.lastRun.None? && t.nextRun.None? && t.result.None?
  }

  function NewTask(id: string, name: string, description: string, category: string,
                   priority: Priority, estimatedDuration: string, commands: seq<string>,
                   requiresSudo: bool): (t: Task)
    ensures Untouched(t) && t.id == id && t.requiresSudo == requiresSudo
  {
    Task(id, name, description, category, priority, estimatedDuration, commands,
         Pending, None, None, None, requiresSudo)
  }

  const RegistryIds: seq<string> := [
    UpdatePackages, CleanPackageCache, CleanTempFiles, CleanLogs, CleanBrowserCache,
    OptimizeSwap, DefragmentFilesystem, UpdateFirmware, CheckDiskHealth, CheckNvmeHealth]

  /** No id is registered twice. */
  lemma RegistryIdsDistinct()
    ensures forall i, j :: 0 <= i < j < |RegistryIds| ==> RegistryIds[i] != RegistryIds[j]
  {
    assert UpdatePackages[7] != UpdateFirmware[7];
    assert CleanPackageCache[6] != CleanBrowserCache[6];
    assert CheckDiskHealth[6] != CheckNvmeHealth[6];
  }

  /** The task categories. */
  const PackageManagement := "Package Management"
  const SystemCleanup := "System Cleanup"
  const UserCleanup := "User Cleanup"
  const SystemOptimization := "System Optimization"
  const SystemUpdates := "System Updates"
  const SystemHealth := "System Health"

  /*
   * Each task's texts and commands are named constants, so that a proof
   * about the catalog's shape does not have to carry every literal.
   */

  const UpdatePackagesName := "Update System Packages"
  const UpdatePackagesDescription := "Update all system packages to their latest versions"
  const UpdatePackagesDuration := "5-15 minutes"
  const UpdatePackagesCommands: seq<string> := [
    "sudo apt update",
    "sudo apt upgrade -y",
    "sudo apt autoremove -y"]

  function UpdatePackagesTask(): (t: Task)
    ensures Untouched(t) && t.id == UpdatePackages && t.requiresSudo
  {
    NewTask(UpdatePackages, UpdatePackagesName, UpdatePackagesDescription, PackageManagement, Medium,
            UpdatePackagesDuration, UpdatePackagesCommands, true)
  }

  const CleanPackageCacheName := "Clean Package Cache"
  const CleanPackageCacheDescription := "Remove old package cache files to free up disk space"
  const CleanPackageCacheDuration := "1-2 minutes"
  const CleanPackageCacheCommands: seq<string> := ["sudo apt autoclean", "sudo apt autoremove -y"]

  function CleanPackageCacheTask(): (t: Task)
    ensures Untouched(t) && t.id == CleanPackageCache && t.requiresSudo
  {
    NewTask(CleanPackageCache, CleanPackageCacheName, CleanPackageCacheDescription, PackageManagement, Low,
            CleanPackageCacheDuration, CleanPackageCacheCommands, true)
  }

  const CleanTempFilesName := "Clean Temporary Files"
  const CleanTempFilesDescription := "Remove temporary files and directories"
  const CleanTempFilesDuration := "1-3 minutes"
  const CleanTempFilesCommands: seq<string> := [
    "sudo rm -rf /tmp/*",
    "sudo rm -rf /var/tmp/*",
    "find /home -name \"*.tmp\" -delete",
    "find /home -name \"*.temp\" -delete"]

  function CleanTempFilesTask(): (t: Task)
    ensures Untouched(t) && t.id == CleanTempFiles && t.requiresSudo
  {
    NewTask(CleanTempFiles, CleanTempFilesName, CleanTempFilesDescription, SystemCleanup, Low,
            CleanTempFilesDuration, CleanTempFilesCommands, true)
  }

  const CleanLogsName := "Clean Old Log Files"
  const CleanLogsDescription := "Remove old log files to free up disk space"
  const CleanLogsDuration := "1-2 minutes"
  const CleanLogsCommands: seq<string> := [
    "sudo journalctl --vacuum-time=7d",
    "sudo find /var/log -name \"*.log.*\" -mtime +7 -delete",
    "sudo find /var/log -name \"*.gz\" -mtime +7 -delete"]

  function CleanLogsTask(): (t: Task)
    ensures Untouched(t) && t.id == CleanLogs && t.requiresSudo
  {
    NewTask(CleanLogs, CleanLogsName, CleanLogsDescription, SystemCleanup, Low,
            CleanLogsDuration, CleanLogsCommands, true)
  }

  const CleanBrowserCacheName := "Clean Browser Cache"
  const CleanBrowserCacheDescription := "Remove browser cache files to free up disk space"
  const CleanBrowserCacheDuration := "2-5 minutes"
  const CleanBrowserCacheCommands: seq<string> := [
    "rm -rf ~/.cache/mozilla/firefox/*/Cache*",
    "rm -rf ~/.cache/google-chrome/Default/Cache*",
    "rm -rf ~/.cache/chromium/Default/Cache*",
    "rm -rf ~/.cache/brave/Default/Cache*"]

  function CleanBrowserCacheTask(): (t: Task)
    ensures Untouched(t) && t.id == CleanBrowserCache && !t.requiresSudo
  {
    NewTask(CleanBrowserCache, CleanBrowserCacheName, CleanBrowserCacheDescription, UserCleanup, Low,
            CleanBrowserCacheDuration, CleanBrowserCacheCommands, false)
  }

  const OptimizeSwapName := "Optimize Swap Usage"
  const OptimizeSwapDescription := "Configure swap usage for better performance"
  const OptimizeSwapDuration := "1 minute"
  const OptimizeSwapCommands: seq<string> := [
    "sudo sysctl vm.swappiness=10",
    "echo \"vm.swappiness=10\" | sudo tee -a /etc/sysctl.conf"]

  function OptimizeSwapTask(): (t: Task)
    ensures Untouched(t) && t.id == OptimizeSwap && t.requiresSudo
  {
    NewTask(OptimizeSwap, OptimizeSwapName, OptimizeSwapDescription, SystemOptimization, Medium,
            OptimizeSwapDuration, OptimizeSwapCommands, true)
  }

  const DefragmentFilesystemName := "Defragment Filesystem"
  const DefragmentFilesystemDescription := "Defragment ext4 filesystem for better performance"
  const DefragmentFilesystemDuration := "10-30 minutes"
  const DefragmentFilesystemCommands: seq<string> := ["sudo e4defrag /", "sudo e4defrag /home"]

  function DefragmentFilesystemTask(): (t: Task)
    ensures Untouched(t) && t.id == DefragmentFilesystem && t.requiresSudo
  {
    NewTask(DefragmentFilesystem, DefragmentFilesystemName, DefragmentFilesystemDescription, SystemOptimization, Low,
            DefragmentFilesystemDuration, DefragmentFilesystemCommands, true)
  }

  const UpdateFirmwareName := "Update System Firmware"
  const UpdateFirmwareDescription := "Check for and install firmware updates"
  const UpdateFirmwareDuration := "5-20 minutes"
  const UpdateFirmwareCommands: seq<string> := [
    "sudo fwupdmgr refresh --force",
    "sudo fwupdmgr update"]

  function UpdateFirmwareTask(): (t: Task)
    ensures Untouched(t) && t.id == UpdateFirmware && t.requiresSudo
  {
    NewTask(UpdateFirmware, UpdateFirmwareName, UpdateFirmwareDescription, SystemUpdates, High,
            UpdateFirmwareDuration, UpdateFirmwareCommands, true)
  }

  const CheckDiskHealthName := "Check Disk Health"
  const CheckDiskHealthDescription := "Check disk health and SMART status"
  const CheckDiskHealthDuration := "2-5 minutes"
  const CheckDiskHealthCommands: seq<string> := [
    "sudo smartctl -a /dev/sda",
    "sudo smartctl -a /dev/sdb"]

  function CheckDiskHealthTask(): (t: Task)
    ensures Untouched(t) && t.id == CheckDiskHealth && t.requiresSudo
  {
    NewTask(CheckDiskHealth, CheckDiskHealthName, CheckDiskHealthDescription, SystemHealth, Medium,
            CheckDiskHealthDuration, CheckDiskHealthCommands, true)
  }

  const CheckNvmeHealthName := "Check NVMe Health"
  const CheckNvmeHealthDescription := "Check NVMe SSD health and SMART status"
  const CheckNvmeHealthDuration := "1-2 minutes"
  const CheckNvmeHealthCommands: seq<string> := ["nvme smart-log /dev/nvme0n1"]

  function CheckNvmeHealthTask(): (t: Task)
    ensures Untouched(t) && t.id == CheckNvmeHealth && t.requiresSudo
  {
    NewTask(CheckNvmeHealth, CheckNvmeHealthName, CheckNvmeHealthDescription, SystemHealth, Medium,
            CheckNvmeHealthDuration, CheckNvmeHealthCommands, true)
  }

  /**
   * The catalog in insertion order: ten tasks, each stored under its own id,
   * all pending with no timestamps or result, every one but the browser-cache
   * cleanup requiring elevation.
   */
  function Tasks(): (r: seq<Task>)
    ensures IsCatalog(r)
  {
    [ UpdatePackagesTask(),
      CleanPackageCacheTask(),
      CleanTempFilesTask(),
      CleanLogsTask(),
      CleanBrowserCacheTask(),
      OptimizeSwapTask(),
      DefragmentFilesystemTask(),
      UpdateFirmwareTask(),
      CheckDiskHealthTask(),
      CheckNvmeHealthTask() ]
  }

  /** What every client relies on about the catalog, without its texts and commands. */
  predicate IsCatalog(r: seq<Task>) {
    && |r| == |RegistryIds|
    && (forall i :: 0 <= i < |r| ==> r[i].id == RegistryIds[i])
    && (forall i :: 0 <= i < |r| ==> Untouched(r[i]))
    && (forall i :: 0 <= i < |r| ==> (r[i].requiresSudo <==> r[i].id != CleanBrowserCache))
  }
}

=== FILE: size_parse.dfy ===
/**
 * `_parse_size`: reading a `du -sh` size such as `1.2G`, `500M`, `16K`
 * or `4096` as a number of bytes, with 0 for anything unreadable.
 */
module SizeParse {
  import opened Common
  import opened PyText

  const Kibi := 1024
  const Mebi := 1024 * 1024
  const Gibi := 1024 * 1024 * 1024

  /** The byte multiplier a trailing unit letter stands for. */
  function UnitOf(c: char): (r: Option<nat>)
    ensures r.Some? <==> c == 'G' || c == 'M' || c == 'K'
    ensures r == Some(Gibi) <==> c == 'G'
    ensures r == Some(Mebi) <==> c == 'M'
    ensures r == Some(Kibi) <==> c == 'K'
  {
    if c == 'G' then Some(Gibi)
    else if c == 'M' then Some(Mebi)
    else if c == 'K' then Some(Kibi)
    else None
  }

  /** `int(number * unit)` for a parsed float `number`, or 0 when the text was not one. */
  function Scaled(number: Option<real>, unit: nat): (r: int)
    ensures number.None? ==> r == 0
    ensures number.Some? ==> var p := number.value * unit as real;
      && (p >= 0.0 ==> r as real <= p < r as real + 1.0)
      && (p < 0.0 ==> r as real - 1.0 < p <= r as real)
  {
    if number.None? then 0 else TruncateToInt(number.value * unit as real)
  }

  /**
   * The size in bytes: the stripped text's last letter, when it is `G`,
   * `M` or `K`, scales the float before it (truncated toward zero);
   * otherwise the whole text must be an integer. Anything else is 0.
   */
  function ParseSize(s: string): (r: int)
    ensures var t := Strip(s);
      |t| > 0 && UnitOf(t[|t| - 1]).Some? ==> r == Scaled(ParseFloat(t[..|t| - 1]), UnitOf(t[|t| - 1]).value)
    ensures var t := Strip(s);
      (|t| == 0 || UnitOf(t[|t| - 1]).None?) ==> r == ParseInt(t).GetOr(0)
  {
    var t := Strip(s);
    if |t| > 0 && UnitOf(t[|t| - 1]).Some? then Scaled(ParseFloat(t[..|t| - 1]), UnitOf(t[|t| - 1]).value)
    else ParseInt(t).GetOr(0)
  }

  /** Whitespace around the text, Unicode spaces included, does not change the size. */
  lemma PaddedSize(a: string, s: string, b: string)
    requires AllSpace(a) && AllSpace(b)
    ensures ParseSize(a + s + b) == ParseSize(s)
  {
    StripPadded(a, s, b);
  }

  /** A string that neither starts nor ends with whitespace is its own strip. */
  lemma StripUnchanged(s: string)
    requires s != [] && !IsSpace(s[0]) && !IsSpace(s[|s| - 1])
    ensures Strip(s) == s
  {
    assert SkipSpace(s) == s;
  }

  /** A digit string reads back, as an integer and as a float, as the number it denotes. */
  lemma ParsesDigits(n: nat)
    ensures ParseInt(NatToString(n)) == Some(n)
    ensures ParseFloat(NatToString(n)) == Some(n as real)
  {
    var d := NatToString(n);
    DigitsValueOfNatToString(n);
    assert Grouped(d);
    GroupedSize(d);
  }

  /** A plain byte count, as `du` prints below one kibibyte, reads back unchanged. */
  lemma PlainSizeRoundTrip(n: nat)
    ensures ParseSize(NatToString(n)) == n
  {
    var d := NatToString(n);
    DigitsValueOfNatToString(n);
    assert Grouped(d);
    GroupedSize(d);
  }

  /** A whole number of units reads back as that many bytes, for each of `K`, `M` and `G`. */
  lemma UnitSizeRoundTrip(n: nat, unit: char)
    requires unit == 'G' || unit == 'M' || unit == 'K'
    ensures ParseSize(NatToString(n) + [unit]) == n * UnitOf(unit).value
  {
    var d := NatToString(n);
    assert IsDigit(d[0]);
    SuffixSplits(d, unit);
    ParsesDigits(n);
    ScaledWhole(n, UnitOf(unit).value);
  }

  /**
   * An underscore between two digit runs is ignored, as Python's `int()`
   * ignores it: `1_024` is a size of 1024 bytes.
   */
  lemma UnderscoreIgnored(a: string, b: string)
    requires |a| > 0 && |b| > 0 && AllDigits(a) && AllDigits(b)
    ensures ParseInt(a + "_" + b) == Some(DigitsValue(a + b) as int)
    ensures ParseSize(a + "_" + b) == ParseSize(a + b) == DigitsValue(a + b)
  {
    var s, d := a + "_" + b, a + b;
    JoinedDigits(a, b);
    JoinedGroups(a, b);
    UngroupJoined(a, b);
    GroupedSize(s);
    GroupedSize(d);
  }

  /** A grouped digit run, on its own, is read by `int()` and by `_parse_size` as its value. */
  lemma GroupedSize(t: string)
    requires Grouped(t)
    ensures ParseInt(t) == Some(GroupedValue(t) as int)
    ensures ParseSize(t) == GroupedValue(t)
  {
    assert IsDigit(t[0]) && IsDigit(t[|t| - 1]);
    StripUnchanged(t);
  }

  /** Two digit runs joined are a digit run, hence grouped and their own ungrouping. */
  lemma JoinedDigits(a: string, b: string)
    requires |a| > 0 && |b| > 0 && AllDigits(a) && AllDigits(b)
    ensures Grouped(a + b) && Ungroup(a + b) == a + b
  {
    var d := a + b;
    forall i | 0 <= i < |d| ensures IsDigit(d[i]) {
      if i >= |a| { assert d[i] == b[i - |a|]; }
    }
  }

  /** Two digit runs joined by one underscore are a grouped run. */
  lemma JoinedGroups(a: string, b: string)
    requires |a| > 0 && |b| > 0 && AllDigits(a) && AllDigits(b)
    ensures Grouped(a + "_" + b)
  {
    var s := a + "_" + b;
    forall i | 0 <= i < |s| ensures IsDigit(s[i]) || s[i] == '_' {
      if i < |a| { assert s[i] == a[i]; } else if i > |a| { assert s[i] == b[i - |a| - 1]; }
    }
    forall i | 0 <= i < |s| - 1 ensures IsDigit(s[i]) || IsDigit(s[i + 1]) {
      if i < |a| { assert s[i] == a[i]; } else { assert s[i + 1] == b[i - |a|]; }
    }
    assert s[0] == a[0] && s[|s| - 1] == b[|b| - 1];
  }

  /** Dropping the joining underscore gives back the two runs. */
  lemma UngroupJoined(a: string, b: string)
    requires AllDigits(a) && AllDigits(b)
    ensures Ungroup(a + "_" + b) == a + b
  {
    UngroupAround(a, "_", b);
    UngroupUnderscore();
  }

  lemma UngroupUnderscore()
    ensures Ungroup("_") == []
  {
    var u: string := "_";
    assert u[0] == '_' && u[1..] == [];
  }

  lemma UngroupAround(a: string, u: string, b: string)
    ensures Ungroup(a + u + b) == Ungroup(a) + Ungroup(u) + Ungroup(b)
  {
    UngroupAppend(a + u, b);
    UngroupAppend(a, u);
  }

  /** A unit letter after a word is split off and applied to the word. */
  lemma SuffixSplits(d: string, unit: char)
    requires d != [] && !IsSpace(d[0])
    requires unit == 'G' || unit == 'M' || unit == 'K'
    ensures ParseSize(d + [unit]) == Scaled(ParseFloat(d), UnitOf(unit).value)
  {
    var s := d + [unit];
    StripUnchanged(s);
    assert s[..|s| - 1] == d;
  }

  /** Truncating a whole number of units loses nothing. */
  lemma ScaledWhole(n: nat, k: nat)
    ensures Scaled(Some(n as real), k) == n * k
  {
    assert n as real * k as real == (n * k) as real;
  }

  /**
   * A size ending in any other letter, such as `1.5T` or a lower-case
   * `500m`, is not read as a unit and not as an integer either: it is 0.
   */
  lemma UnknownUnitIsZero(s: string)
    requires var t := Strip(s); |t| > 0 && UnitOf(t[|t| - 1]).None? && !IsDigit(t[|t| - 1])
    ensures ParseSize(s) == 0
  {
    var t := Strip(s);
    StripUnchanged(t);
    assert !AllDigits(t);
    if |t| > 1 {
      assert t[1..][|t| - 2] == t[|t| - 1];
    }
  }

  /** Text with no digit at all is never a size: it reads as 0. */
  lemma NoDigitsIsZero(s: string)
    requires forall i :: 0 <= i < |s| ==> !IsDigit(s[i])
    ensures ParseSize(s) == 0
  {
    var t := Strip(s);
    assert forall i :: 0 <= i < |t| ==> !IsDigit(t[i]) by {
      StripIsSlice(s);
    }
    if |t| > 0 && UnitOf(t[|t| - 1]).Some? {
      NoDigitsNoFloat(t[..|t| - 1]);
    } else {
      NoDigitsNoInt(t);
    }
  }

  /** Stripping keeps a contiguous part of the text. */
  lemma StripIsSlice(s: string)
    ensures exists a, b :: 0 <= a <= b <= |s| && Strip(s) == s[a..b]
  {
    var u := SkipSpace(s);
    var a := |s| - |u|;
    var r := DropTrailing(u);
    assert r == s[a..a + |r|];
  }

  lemma NoDigitsNoInt(t: string)
    requires forall i :: 0 <= i < |t| ==> !IsDigit(t[i])
    ensures ParseInt(t) == None
  {
    var u := Strip(t);
    StripIsSlice(t);
    if |u| > 0 {
      assert !IsDigit(u[0]);
      if |u| > 1 {
        assert !IsDigit(u[1]);
      }
    }
  }

  lemma NoDigitsNoFloat(t: string)
    requires forall i :: 0 <= i < |t| ==> !IsDigit(t[i])
    ensures ParseFloat(t) == None
  {
    var u := Strip(t);
    StripIsSlice(t);
    NoDigitsNoDecimal(u);
    if |u| > 0 {
      NoDigitsNoDecimal(u[1..]);
    }
  }

  lemma NoDigitsNoDecimal(u: string)
    requires forall i :: 0 <= i < |u| ==> !IsDigit(u[i])
    ensures UnsignedDecimal(u) == None
  {
    if exists i :: 0 <= i < |u| && u[i] == '.' {
      var p := IndexOfPoint(u);
      var whole := u[..p];
      var frac := u[p + 1..];
      if |whole| > 0 {
        assert !IsDigit(whole[0]);
      } else if |frac| > 0 {
        assert !IsDigit(frac[0]);
      }
    } else if |u| > 0 {
      assert !IsDigit(u[0]);
    }
  }
}

=== FILE: statistics.dfy ===
/**
 * `get_task_statistics` and `_get_last_maintenance_time`: status counts
 * over the catalog, the overall and recent success rates, and the time of
 * the latest successful run in the history.
 */
module Statistics {
  import opened Common
  import opened PySeq
  import opened MaintenanceTypes
  import opened Registry
  import opened Persistence
  import opened Maintenance

  /** How many results `get_task_statistics` looks at for the recent rate. */
  const RecentWindow := 10

  datatype Stats = Stats(
    total: nat,
    completed: nat,
    failed: nat,
    pending: nat,
    successRate: real,
    recentSuccessRate: real,
    lastMaintenance: Option<nat>)

  /** The number of tasks with status `st`. */
  function CountStatus(tasks: seq<Task>, st: TaskStatus): (r: nat)
    ensures r <= |tasks|
    ensures r == 0 <==> forall i :: 0 <= i < |tasks| ==> tasks[i].status != st
    ensures r == |tasks| <==> forall i :: 0 <= i < |tasks| ==> tasks[i].status == st
  {
    if |tasks| == 0 then 0
    else
      assert forall i :: 1 <= i < |tasks| ==> tasks[i] == tasks[1..][i - 1];
      (if tasks[0].status == st then 1 else 0) + CountStatus(tasks[1..], st)
  }

  /** Every task has exactly one of the five statuses. */
  lemma {:induction false} StatusCountsPartition(tasks: seq<Task>)
    ensures CountStatus(tasks, Pending) + CountStatus(tasks, Running) + CountStatus(tasks, Completed)
          + CountStatus(tasks, Failed) + CountStatus(tasks, Skipped) == |tasks|
  {
    if |tasks| > 0 {
      StatusCountsPartition(tasks[1..]);
    }
  }

  /** The number of successful results. */
  function CountSuccesses(results: seq<MaintenanceResult>): (r: nat)
    ensures r <= |results|
    ensures r == 0 <==> forall i :: 0 <= i < |results| ==> !results[i].success
    ensures r == |results| <==> forall i :: 0 <= i < |results| ==> results[i].success
  {
    if |results| == 0 then 0
    else
      assert forall i :: 1 <= i < |results| ==> results[i] == results[1..][i - 1];
      (if results[0].success then 1 else 0) + CountSuccesses(results[1..])
  }

  /** `part / whole * 100`, or 0 when there is nothing to divide by. */
  function Percent(part: nat, whole: nat): (r: real)
    requires part <= whole
    ensures 0.0 <= r <= 100.0
    ensures r == 0.0 <==> part == 0
    ensures r == 100.0 <==> whole > 0 && part == whole
  {
    if whole > 0 then part as real / whole as real * 100.0 else 0.0
  }

  /**
   * `_get_last_maintenance_time`: the latest timestamp among the
   * successful results, or none when no result succeeded.
   */
  function LastMaintenance(h: seq<MaintenanceResult>): (r: Option<nat>)
    ensures r.None? <==> forall i :: 0 <= i < |h| ==> !h[i].success
    ensures r.Some? ==> exists i :: 0 <= i < |h| && h[i].success && h[i].timestamp == r.value
    ensures r.Some? ==> forall i :: 0 <= i < |h| && h[i].success ==> h[i].timestamp <= r.value
  {
    if |h| == 0 then None
    else
      var init := h[..|h| - 1];
      var x := h[|h| - 1];
      var rest := LastMaintenance(init);
      assert forall i :: 0 <= i < |h| - 1 ==> h[i] == init[i];
      if !x.success then rest
      else
        match rest
        case None => Some(x.timestamp)
        case Some(t) => if t >= x.timestamp then Some(t) else Some(x.timestamp)
  }

  /** `get_task_statistics`. */
  function GetTaskStatistics(m: Manager): (r: Stats)
    ensures r.total == |m.tasks|
    ensures r.completed + r.failed + r.pending <= r.total
    ensures r.completed == CountStatus(m.tasks, Completed) && r.failed == CountStatus(m.tasks, Failed)
    ensures r.pending == CountStatus(m.tasks, Pending)
    ensures 0.0 <= r.successRate <= 100.0 && 0.0 <= r.recentSuccessRate <= 100.0
    ensures r.successRate == 100.0 <==> |m.tasks| > 0 && forall i :: 0 <= i < |m.tasks| ==> m.tasks[i].status == Completed
    ensures r.recentSuccessRate == 0.0 <==>
      forall i :: 0 <= i < |GetTaskHistory(m, RecentWindow)| ==> !GetTaskHistory(m, RecentWindow)[i].success
    ensures r.lastMaintenance.None? <==> forall i :: 0 <= i < |m.history| ==> !m.history[i].success
  {
    var completed := CountStatus(m.tasks, Completed);
    StatusCountsPartition(m.tasks);
    var recent := GetTaskHistory(m, RecentWindow);
    Stats(|m.tasks|, completed, CountStatus(m.tasks, Failed), CountStatus(m.tasks, Pending),
          Percent(completed, |m.tasks|), Percent(CountSuccesses(recent), |recent|),
          LastMaintenance(m.history))
  }

  /**
   * A freshly constructed manager reports every task pending, a zero
   * success rate, and no last maintenance when it starts without a history.
   */
  lemma FreshStatistics(stateDoc: Option<StateDoc>, sata: ScanOutcome, nvme: ScanOutcome)
    ensures var s := GetTaskStatistics(Initial(stateDoc, None, sata, nvme));
      && s.total == |RegistryIds| && s.pending == s.total && s.completed == 0 && s.failed == 0
      && s.successRate == 0.0 && s.recentSuccessRate == 0.0 && s.lastMaintenance.None?
  {
    FreshIdle(stateDoc, sata, nvme);
    IdleStatistics(Initial(stateDoc, None, sata, nvme));
  }

  /** A fresh manager without a history file has the whole catalog pending and no history. */
  lemma FreshIdle(stateDoc: Option<StateDoc>, sata: ScanOutcome, nvme: ScanOutcome)
    ensures var n := Initial(stateDoc, None, sata, nvme);
      && |n.tasks| == |RegistryIds| && n.history == []
      && forall i :: 0 <= i < |n.tasks| ==> n.tasks[i].status == Pending
  {
    var n := Initial(stateDoc, None, sata, nvme);
    assert |Ids(n.tasks)| == |n.tasks|;
  }

  /** With every task pending and an empty history, nothing has completed or failed. */
  lemma IdleStatistics(m: Manager)
    requires forall i :: 0 <= i < |m.tasks| ==> m.tasks[i].status == Pending
    requires m.history == []
    ensures var s := GetTaskStatistics(m);
      && s.pending == s.total && s.completed == 0 && s.failed == 0
      && s.successRate == 0.0 && s.recentSuccessRate == 0.0 && s.lastMaintenance.None?
  {
  }

  /**
   * A run moves the last maintenance time forward to its own finish time
   * when it succeeds, and leaves it alone when it fails.
   */
  lemma LastMaintenanceAfterRun(m: Manager, id: string, env: Env)
    requires HasId(m.tasks, id)
    ensures var r := RunTask(m, id, env);
      r.1.Ok? &&
      LastMaintenance(r.0.history) ==
        if r.1.value.success then Some(Max(LastMaintenance(m.history).GetOr(0), env.finish))
        else LastMaintenance(m.history)
  {
    RunTaskRecorded(m, id, env);
    var r := RunTask(m, id, env);
    LastMaintenanceAppend(m.history, r.1.value);
  }

  /** Appending one result updates the last maintenance time by that result alone. */
  lemma LastMaintenanceAppend(h: seq<MaintenanceResult>, x: MaintenanceResult)
    ensures LastMaintenance(h + [x]) ==
      if x.success then Some(Max(LastMaintenance(h).GetOr(0), x.timestamp)) else LastMaintenance(h)
  {
    assert (h + [x])[..|h|] == h;
  }
}

=== FILE: system_monitor.dfy ===
/**
 * The parts of the system monitor that decide rather than measure: the
 * partition filter behind the disk list, the process lists (sort, then
 * truncate) and the health score. Every psutil reading is an input; a
 * reading that raises is `None`.
 */
module SystemMonitor {
  import opened Common
  import opened PyText
  import opened PySeq

  /** The CPU figures the analysis reads; `coreCount` is `None` when psutil cannot tell. */
  datatype CpuInfo = CpuInfo(usagePercent: real, coreCount: Option<int>, temperature: Option<real>, load1: real)

  datatype MemoryInfo = MemoryInfo(usagePercent: real, swapUsagePercent: real)

  datatype DiskInfo = DiskInfo(device: string, mountpoint: string, usagePercent: real,
                               readBytesPerSec: real, writeBytesPerSec: real)

  datatype NetworkInfo = NetworkInfo(iface: string, speedMbps: Option<real>)

  datatype ProcessInfo = ProcessInfo(pid: int, name: string, cpuPercent: real, memoryPercent: real,
                                     memoryMb: real, username: Option<string>)

  /** Usage and I/O rates of a mounted partition. */
  datatype DiskStats = DiskStats(usagePercent: real, readBytesPerSec: real, writeBytesPerSec: real)

  /** One entry of `psutil.disk_partitions()`, with its statistics or `None` when reading them raised. */
  datatype Partition = Partition(device: string, mountpoint: string, fstype: string, stats: Option<DiskStats>)

  const SkippedFsTypes: set<string> := {"tmpfs", "devtmpfs", "sysfs", "proc", "efivarfs"}
  const LoopPrefix := "/dev/loop"
  const ShmPrefix := "/dev/shm"
  const RunPrefix := "/run/"

  const DefaultTopLimit := 10
  const DefaultUserLimit := 50

  /** Pseudo and loop file systems that `get_disk_info` leaves out. */
  predicate Skipped(p: Partition) {
    p.fstype in SkippedFsTypes
    || StartsWith(p.device, LoopPrefix) || StartsWith(p.device, ShmPrefix) || StartsWith(p.device, RunPrefix)
  }

  /** A partition that ends up in the disk list. */
  predicate Listed(p: Partition) {
    !Skipped(p) && p.stats.Some?
  }

  function InfoOf(p: Partition): DiskInfo
    requires p.stats.Some?
  {
    DiskInfo(p.device, p.mountpoint, p.stats.value.usagePercent,
             p.stats.value.readBytesPerSec, p.stats.value.writeBytesPerSec)
  }

  /**
   * `get_disk_info`: the partitions, in order, that are not skipped and
   * whose statistics could be read; a partition whose read raises is passed over.
   */
  function DiskInfos(parts: seq<Partition>): (r: seq<DiskInfo>)
    ensures |r| <= |parts|
    ensures forall k :: 0 <= k < |r| ==> exists i :: 0 <= i < |parts| && Listed(parts[i]) && r[k] == InfoOf(parts[i])
    ensures forall i :: 0 <= i < |parts| && Listed(parts[i]) ==> InfoOf(parts[i]) in r
    ensures |r| == |parts| <==> forall i :: 0 <= i < |parts| ==> Listed(parts[i])
  {
    if |parts| == 0 then []
    else
      var rest := DiskInfos(parts[1..]);
      assert forall i :: 1 <= i < |parts| ==> parts[i] == parts[1..][i - 1];
      if Listed(parts[0]) then [InfoOf(parts[0])] + rest else rest
  }

  /**
   * The disk list holds one entry per listed partition, in partition order:
   * `Positions` gives, for each entry, the partition it describes.
   */
  lemma DiskInfosAtListed(parts: seq<Partition>)
    ensures var r, pos := DiskInfos(parts), Positions(parts, Listed, 0);
      && |r| == |pos|
      && (forall k :: 0 <= k < |r| ==> Listed(parts[pos[k]]) && r[k] == InfoOf(parts[pos[k]]))
      && (forall i :: 0 <= i < |parts| && Listed(parts[i]) ==> i in pos)
      && (forall k, l :: 0 <= k < l < |pos| ==> pos[k] < pos[l])
  {
    DiskInfosFrom(parts, 0);
    assert parts[0..] == parts;
    PositionsMembers(parts, Listed, 0);
    var r, pos := DiskInfos(parts), Positions(parts, Listed, 0);
    forall k | 0 <= k < |r|
      ensures Listed(parts[pos[k]]) && r[k] == InfoOf(parts[pos[k]])
    {
      assert InfoOfPart(parts, pos[k], r[k]);
    }
  }

  /** Partition `j` is listed and `d` describes it. */
  predicate InfoOfPart(parts: seq<Partition>, j: nat, d: DiskInfo) {
    j < |parts| && Listed(parts[j]) && d == InfoOf(parts[j])
  }

  /** The disk list built from partition `i` on describes the listed partitions from `i` on. */
  lemma {:induction false} DiskInfosFrom(parts: seq<Partition>, i: nat)
    requires i <= |parts|
    ensures var r, pos := DiskInfos(parts[i..]), Positions(parts, Listed, i);
      && |r| == |pos|
      && forall k :: 0 <= k < |r| ==> InfoOfPart(parts, pos[k], r[k])
    decreases |parts| - i
  {
    if i < |parts| {
      DiskInfosFrom(parts, i + 1);
      PositionsSplit(parts, Listed, i);
      DiskInfosStep(parts[i..]);
      assert parts[i..][0] == parts[i] && parts[i..][1..] == parts[i + 1..];
      var r, rest := DiskInfos(parts[i..]), DiskInfos(parts[i + 1..]);
      var pos, prest := Positions(parts, Listed, i), Positions(parts, Listed, i + 1);
      if Listed(parts[i]) {
        assert r == [InfoOf(parts[i])] + rest && pos == [i] + prest;
        forall k | 0 <= k < |r|
          ensures InfoOfPart(parts, pos[k], r[k])
        {
          if k > 0 {
            assert r[k] == rest[k - 1] && pos[k] == prest[k - 1];
          }
        }
      } else {
        assert r == rest && pos == prest;
      }
    } else {
      assert parts[i..] == [];
    }
  }

  /** One step of the partition loop: the first partition's entry, if listed, then the rest. */
  lemma DiskInfosStep(parts: seq<Partition>)
    requires |parts| > 0
    ensures DiskInfos(parts) == (if Listed(parts[0]) then [InfoOf(parts[0])] else []) + DiskInfos(parts[1..])
  {
  }

  /** No loop, shared-memory or `/run/` device, and no pseudo file system, ever reaches the disk list. */
  lemma DiskInfosExcludePseudo(parts: seq<Partition>)
    ensures forall k :: 0 <= k < |DiskInfos(parts)| ==>
      var d := DiskInfos(parts)[k].device;
      !StartsWith(d, LoopPrefix) && !StartsWith(d, ShmPrefix) && !StartsWith(d, RunPrefix)
  {
    var r := DiskInfos(parts);
    forall k | 0 <= k < |r|
      ensures !StartsWith(r[k].device, LoopPrefix) && !StartsWith(r[k].device, ShmPrefix) && !StartsWith(r[k].device, RunPrefix)
    {
      var i :| 0 <= i < |parts| && Listed(parts[i]) && r[k] == InfoOf(parts[i]);
    }
  }

  function CpuKey(p: ProcessInfo): real { p.cpuPercent }

  function MemoryKey(p: ProcessInfo): real { p.memoryMb }

  /**
   * `get_top_processes(limit)`: the readable processes sorted by CPU share,
   * highest first (ties in enumeration order), cut to `limit`.
   */
  function TopProcesses(procs: seq<ProcessInfo>, limit: int): (r: seq<ProcessInfo>)
    ensures SortedDesc(r, CpuKey)
    ensures limit >= 0 ==> |r| == Min(limit, |procs|)
    ensures multiset(r) <= multiset(procs)
  {
    var sorted := SortDesc(procs, CpuKey);
    SortDescPermutes(procs, CpuKey);
    PrefixSubMultiset(sorted, limit);
    Head(sorted, limit)
  }

  /** A prefix of a sequence uses each element no more often than the sequence does. */
  lemma PrefixSubMultiset<T>(s: seq<T>, limit: int)
    ensures multiset(Head(s, limit)) <= multiset(s)
  {
    var h := Head(s, limit);
    assert s == h + s[|h|..];
  }

  /**
   * Everything `get_top_processes` cuts off uses no more CPU than anything
   * it keeps.
   */
  lemma TopProcessesDominate(procs: seq<ProcessInfo>, limit: int, x: ProcessInfo, k: nat)
    requires x in multiset(procs) - multiset(TopProcesses(procs, limit))
    requires k < |TopProcesses(procs, limit)|
    ensures x.cpuPercent <= TopProcesses(procs, limit)[k].cpuPercent
  {
    var sorted := SortDesc(procs, CpuKey);
    var r := TopProcesses(procs, limit);
    SortDescPermutes(procs, CpuKey);
    var rest := sorted[|r|..];
    assert sorted == r + rest;
    assert multiset(sorted) == multiset(r) + multiset(rest);
    assert x in multiset(rest);
    var j :| 0 <= j < |rest| && rest[j] == x;
    assert sorted[|r| + j] == x && sorted[k] == r[k];
  }

  /** The processes whose owner is `user`, in order. */
  function OwnedBy(procs: seq<ProcessInfo>, user: string): (r: seq<ProcessInfo>)
    ensures forall k :: 0 <= k < |r| ==> r[k].username == Some(user)
  {
    if |procs| == 0 then []
    else
      var rest := OwnedBy(procs[1..], user);
      if procs[0].username == Some(user) then [procs[0]] + rest else rest
  }

  /** The filter only drops processes: what it keeps is drawn from its input. */
  lemma {:induction false} OwnedBySubset(procs: seq<ProcessInfo>, user: string)
    ensures multiset(OwnedBy(procs, user)) <= multiset(procs)
  {
    if |procs| > 0 {
      OwnedBySubset(procs[1..], user);
      assert procs == [procs[0]] + procs[1..];
    }
  }

  /** Every process of `user` survives the filter. */
  lemma {:induction false} OwnedByKeepsAll(procs: seq<ProcessInfo>, user: string, i: nat)
    requires i < |procs| && procs[i].username == Some(user)
    ensures procs[i] in OwnedBy(procs, user)
  {
    if i > 0 {
      assert procs[i] == procs[1..][i - 1];
      OwnedByKeepsAll(procs[1..], user, i - 1);
    }
  }

  /**
   * `get_user_processes(limit)`: the processes of `user` (the `USER`
   * variable, or "unknown"), sorted by resident memory, highest first, cut to `limit`.
   */
  function UserProcesses(procs: seq<ProcessInfo>, user: string, limit: int): (r: seq<ProcessInfo>)
    ensures forall k :: 0 <= k < |r| ==> r[k].username == Some(user)
    ensures SortedDesc(r, MemoryKey)
    ensures limit >= 0 ==> |r| == Min(limit, |OwnedBy(procs, user)|)
    ensures multiset(r) <= multiset(OwnedBy(procs, user))
    ensures multiset(r) <= multiset(procs)
  {
    var owned := OwnedBy(procs, user);
    var sorted := SortDesc(owned, MemoryKey);
    OwnedBySubset(procs, user);
    SortDescPermutes(owned, MemoryKey);
    PrefixSubMultiset(sorted, limit);
    var r := Head(sorted, limit);
    forall k | 0 <= k < |r|
      ensures r[k].username == Some(user)
    {
      assert r[k] == sorted[k] && sorted[k] in multiset(sorted);
      var j :| 0 <= j < |owned| && owned[j] == r[k];
    }
    r
  }

  /**
   * Every process of the user that `get_user_processes` cuts off uses no
   * more memory than anything it keeps.
   */
  lemma UserProcessesDominate(procs: seq<ProcessInfo>, user: string, limit: int, x: ProcessInfo, k: nat)
    requires x in multiset(OwnedBy(procs, user)) - multiset(UserProcesses(procs, user, limit))
    requires k < |UserProcesses(procs, user, limit)|
    ensures x.memoryMb <= UserProcesses(procs, user, limit)[k].memoryMb
  {
    var owned := OwnedBy(procs, user);
    var sorted := SortDesc(owned, MemoryKey);
    var r := UserProcesses(procs, user, limit);
    SortDescPermutes(owned, MemoryKey);
    assert r == Head(sorted, limit);
    var rest := sorted[|r|..];
    assert sorted == r + rest;
    assert multiset(sorted) == multiset(r) + multiset(rest);
    assert x in multiset(rest);
    var j :| 0 <= j < |rest| && rest[j] == x;
    assert sorted[|r| + j] == x && sorted[k] == r[k];
  }

  /** Points a CPU or memory reading costs: 30, 20 or 10 above 90, 80 or 70 percent. */
  function UsageDeduction(usage: real): (d: nat)
    ensures d <= 30
    ensures d == 0 <==> usage <= 70.0
  {
    if usage > 90.0 then 30 else if usage > 80.0 then 20 else if usage > 70.0 then 10 else 0
  }

  /** Points one disk costs: 20, 15 or 10 above 95, 90 or 80 percent. */
  function DiskDeduction(usage: real): (d: nat)
    ensures d <= 20
    ensures d == 0 <==> usage <= 80.0
  {
    if usage > 95.0 then 20 else if usage > 90.0 then 15 else if usage > 80.0 then 10 else 0
  }

  /** The summed disk deduction: zero exactly when no disk is above 80 percent. */
  function DiskDeductions(disks: seq<DiskInfo>): (d: nat)
    ensures d <= 20 * |disks|
    ensures d == 0 <==> forall i :: 0 <= i < |disks| ==> disks[i].usagePercent <= 80.0
  {
    if |disks| == 0 then 0
    else
      assert forall i :: 1 <= i < |disks| ==> disks[i] == disks[1..][i - 1];
      DiskDeduction(disks[0].usagePercent) + DiskDeductions(disks[1..])
  }

  const ErrorScore := 50.0

  /**
   * `get_system_health_score`: 100 less the CPU, memory and per-disk
   * deductions, floored at 0; 50 when any reading raises.
   */
  function HealthScore(cpu: Option<CpuInfo>, memory: Option<MemoryInfo>, disks: Option<seq<DiskInfo>>): (r: real)
    ensures 0.0 <= r <= 100.0
    ensures (cpu.None? || memory.None? || disks.None?) ==> r == ErrorScore
    ensures cpu.Some? && memory.Some? && disks.Some? ==>
      (r == 100.0 <==> cpu.value.usagePercent <= 70.0 && memory.value.usagePercent <= 70.0 &&
                       forall i :: 0 <= i < |disks.value| ==> disks.value[i].usagePercent <= 80.0)
  {
    if cpu.None? || memory.None? || disks.None? then ErrorScore
    else
      var score := 100.0 - UsageDeduction(cpu.value.usagePercent) as real
                         - UsageDeduction(memory.value.usagePercent) as real
                         - DiskDeductions(disks.value) as real;
      if score < 0.0 then 0.0 else score
  }

  /** A higher CPU reading never raises the score; the same holds for memory. */
  lemma HealthScoreAntitone(c1: CpuInfo, c2: CpuInfo, m1: MemoryInfo, m2: MemoryInfo, disks: seq<DiskInfo>)
    requires c1.usagePercent <= c2.usagePercent && m1.usagePercent <= m2.usagePercent
    ensures HealthScore(Some(c2), Some(m2), Some(disks)) <= HealthScore(Some(c1), Some(m1), Some(disks))
  {
    UsageDeductionMonotone(c1.usagePercent, c2.usagePercent);
    UsageDeductionMonotone(m1.usagePercent, m2.usagePercent);
  }

  lemma UsageDeductionMonotone(a: real, b: real)
    requires a <= b
    ensures UsageDeduction(a) <= UsageDeduction(b)
  {
  }

  /** Another mounted disk never raises the score. */
  lemma HealthScoreMoreDisks(cpu: CpuInfo, memory: MemoryInfo, disks: seq<DiskInfo>, extra: DiskInfo)
    ensures HealthScore(Some(cpu), Some(memory), Some(disks + [extra])) <= HealthScore(Some(cpu), Some(memory), Some(disks))
  {
    DiskDeductionsAppend(disks, extra);
  }

  lemma {:induction false} DiskDeductionsAppend(disks: seq<DiskInfo>, extra: DiskInfo)
    ensures DiskDeductions(disks + [extra]) == DiskDeductions(disks) + DiskDeduction(extra.usagePercent)
  {
    if |disks| > 0 {
      assert (disks + [extra])[1..] == disks[1..] + [extra];
      DiskDeductionsAppend(disks[1..], extra);
    } else {
      assert (disks + [extra])[1..] == [];
    }
  }
}
